=== FILE: README.md ===
# Exposr, modelled in Dafny

Exposr is a web application that tells whether an uploaded image is AI-generated.
It has two halves.

- **The browser client** (React) validates the file and optionally re-encodes large photos.
  It sends the image for analysis, shows the verdict with a confidence bar, and collects
  feedback. It builds share links and routes on the URL fragment. It also has an admin login
  with a 24-hour session and a data-deletion form.
- **The backend** comes in three Express variants:
  - `server.js` uploads to a media host, runs a detector, and keeps a record only with research consent;
  - `server-secure.js` produces a mock analysis, seals a hashed delete code into the record,
    and allows deletion by code;
  - `server-clean.js` produces a mock analysis and saves every record with a plain delete code.

  All three share a record store (Airtable) and a media host (Cloudinary).

The model is functional throughout:

- Every request handler and every UI handler is a pure function from the state before to the
  state after.
- The record store is a sequence of records and the media host a set of media ids.
- The browser's session storage is a map.
- The current time is an integer number of milliseconds.
- Every random draw is an input: a real in `[0, 1)` for `Math.random()`, bytes for `crypto.randomBytes`.
- Every external outcome is an input: upload, inference, create and destroy succeeding or
  failing, and the file reader loading.
- The cryptographic primitives (hash, encrypt, decrypt, password and token verification) are
  function parameters with no assumed properties.
- The XSS-stripping regexes are a function parameter too. Two members assume something about
  them, because the regexes only ever delete text:
  - `ClientUtils.ShapeFeedback` requires that stripping never lengthens a string.
  - `SecureServer.DeleteFreshRow` and `SecureServer.ReadFreshRow` require that stripping leaves
    a 32-digit hex id alone, since hex digits hold no markup.
  - `SecureServer.IssuedCodeDeletes` and `SecureServer.SavedAnalysisReadsBack` carry the same
    fact as a hypothesis of their conclusion.

The record store is a sequence, not a map. The source looks records up with an Airtable
formula and `maxRecords: 1`, which returns the first match. Airtable does not make
`Analysis_ID` unique, so the store may hold duplicates, and `Store.Lookup` returns the first
match exactly.

The modules follow the source files:

| module | source |
|---|---|
| `Wrappers`, `Text`, `Radix`, `Numbers`, `Draws` | JavaScript built-ins the source relies on (`Option`/`Result`, string methods, `toString(radix)`, hex, `parseInt`, `Math.random`) |
| `Constants` | `src/constants/index.js` |
| `Signatures`, `ClientValidation` | `validateImageFile` in `src/utils/index.js` |
| `ClientUtils`, `Ids` | the rest of `src/utils/index.js`; id helpers shared with `mockAnalysis.js` and `server.js` |
| `MockAnalysis` | `src/utils/mockAnalysis.js` |
| `Security`, `ServerValidation` | `backend/security.js` |
| `SetupSecurity` | `backend/setup-security.js` |
| `Cors` | the CORS section of `backend/server.js` |
| `Store` | the record store and media host shared by the servers, and the public read-back |
| `MainServer`, `SecureServer`, `CleanServer` | `backend/server.js`, `backend/server-secure.js`, `backend/server-clean.js` |
| `ValidationAgreement` | how the client and server checks relate |
| `Feedback`, `AnalysisFlow`, `UploadZone`, `Router`, `AdminLogin`, `DeletionPage`, `ProgressBar` | `AnalysisResults.js`, `AnalysisSection.js`, `FileUploadZone.js`, `App.js`, `AdminAuth.js`, `DataDeletionPage.js`, `ui/ProgressBar.js` |
| `Location` | the fragment of `window.location` that `App.js` routes on |

## Model

| member | source | states |
|---|---|---|
| Signatures.Signature | src/utils/index.js:820-834 | The signature table has an entry, of 3 or 4 bytes, exactly for jpeg, png and webp. `image/jpg` has none. |
| Signatures.EveryMatchesIff | src/utils/index.js:826-834 | `signature.every((b, i) => bytes[i] === b)` holds iff the buffer begins with the signature. |
| Signatures.HeadPreservesMatch | src/utils/index.js:820-826 | Reading only the first 12 bytes does not change the outcome of a signature comparison of 4 bytes or fewer. |
| ClientValidation.SyncCheck | src/utils/index.js:797-812 | The synchronous checks run in source order: file present, type allowed, size ≤ 10 MiB, name readable, name ≤ 255 UTF-16 units. The error returned is the first check that fails, and none passes only when every check passes. |
| ClientValidation.ValidateImageFile | src/utils/index.js:797-840 | It throws iff some synchronous check fails. It resolves iff all pass, the reader loads, and the bytes start with the type's signature. `image/jpg` never resolves. A rejection says which step failed. |
| ServerValidation.MaxSize | backend/security.js:106-107 | `parseInt(MAX_FILE_SIZE) \|\| 10485760`: an unset setting gives 10 MiB, and the limit is never 0. |
| ServerValidation.MaxSizeReadsSetting | backend/security.js:107 | A non-zero decimal setting is read back as that number. |
| ServerValidation.ValidateFile | backend/security.js:105-135 | The checks run in order: file present, type allowed, size ≤ limit, then signature where the table has one. The error is the first failing check, and it succeeds iff no check fails. `image/jpg` skips the signature check. |
| ServerValidation.FileFilter | backend/server-secure.js:44-56 | The filter as written, run on the type alone: it admits `image/jpg` and nothing else. A type with a signature fails on the missing buffer, and a type outside the list fails as invalid. |
| ServerValidation.FileFilterAdmitsOnlyJpg | backend/server-secure.js:44-56 | Run from the upload filter, where size and buffer are undefined, the validation admits `image/jpg` and nothing else. Every type with a signature fails on the missing buffer. |
| ServerValidation.TypeFilter | backend/security.js:106-112 | The corrected filter admits exactly the allow-list and reports the type error otherwise. |
| ServerValidation.TypeFilterAdmitsValidFiles | backend/security.js:105-135 | The corrected filter never turns away a file the full validation accepts. It rejects exactly the files the full validation rejects for their type. |
| ValidationAgreement.ClientResolvesIffServerAccepts | backend/security.js:105-135 | For a file with a name of ≤255 UTF-16 units, the client check (with a readable file) resolves iff the server check accepts and the type has a signature entry. |
| ValidationAgreement.JpgSplitsTheChecks | src/utils/index.js:820-834 | A well-sized `image/jpg` file is always rejected by the client and always accepted by the server. |
| ClientUtils.RateLimit | src/utils/index.js:110-119 | Within 500 ms of the last call, the wait is 500 minus the elapsed time, lies in (0, 500], and the last-call time is kept. Otherwise there is no wait and the last-call time becomes now. |
| ClientUtils.RateLimitRetryPasses | src/utils/index.js:110-119 | Retrying after the returned wait passes without waiting. |
| ClientUtils.IsAdminAuthenticated | src/utils/index.js:122-138 | A missing or empty key means not authenticated. An age above 24 h removes both keys and refuses. Otherwise the answer is whether the flag reads "authenticated". An unreadable timestamp (NaN age) is never expired. |
| ClientUtils.ClearAdminSession | src/utils/index.js:141-144 | Both admin keys are removed and every other key is kept. |
| ClientUtils.SessionExpiry | src/utils/index.js:122-138 | A session written at t0 is valid iff now − t0 ≤ 24 h, counting exactly 24 h as valid. After that it is erased. |
| ClientUtils.AppendSecurityLog | src/utils/index.js:158-167 | The log keeps at most 100 entries. The new entry is last, and the rest are the newest earlier entries in order. |
| ClientUtils.SecurityLogDropsOldest | src/utils/index.js:163-165 | On a full log, appending drops exactly the oldest entry. |
| ClientUtils.ShapeAnalysisData | src/utils/index.js:318-355 | Confidence is clamped to [0,100] and in-range values are kept. Size is capped at 10 MiB and `File_Size_KB` is round(size/1024). Image data is kept iff research consent is true and the data is a non-empty string, since an empty string is falsy. Consent defaults to false, missing dimensions become 0, and no feedback flag is set. |
| ClientUtils.NormaliseFeedbackType | src/utils/index.js:393 | "ACCURATE" and "INACCURATE" in any letter case map to the canonical names. Other values pass through. |
| ClientUtils.ShapeFeedback | src/utils/index.js:390-397 | The feedback id has 15 characters, the comment is cut to 500, and the type is normalised. |
| ClientUtils.FeedbackTypeCanonical | src/constants/index.js:35-39 | Both canonical feedback names, lower- or upper-case, normalise to themselves. |
| ClientUtils.AnalyzeImageFallback | src/utils/index.js:718-766 | A type outside the allow-list fails with "Invalid file type", through `getImageMetadata`. The fallback succeeds iff the type is allowed, the image loads, the file reads when research consent is given, and logging succeeds. With consent, a failed read is rethrown before anything is logged. A success is the fallback result. |
| ClientUtils.FallbackLogsImageIffConsented | src/utils/index.js:744-760 | The record the fallback logs carries the confidence and classification it shows, and the research consent it was given. The image data reaches the record iff consent was given and the file read as a non-empty data URL, and it is then that URL. |
| ClientUtils.FallbackLogged | src/utils/index.js:744-760 | The record handed to `logAnalysisData`: the shown result's ids and classification, the size capped at 10 MiB, both sides capped at 10000, and the image read only with research consent. |
| ClientUtils.FallbackLoggedFields | src/utils/index.js:744-760 | The logged record carries the shown ids, confidence and classification. Its size is capped at 10 MiB and kept below that, and both sides are at most 10000. It carries image data iff research consent was given, the file is within 10 MiB and the reader succeeded, and the data is then what the reader produced. |
| ClientUtils.FallbackResult | src/utils/index.js:724-743 | Confidence lies in [70,99]. isAI holds iff the draw exceeds 0.4. The verdict and explanation depend on isAI alone. Both codes have 15 characters. |
| ClientUtils.FileToBase64 | src/utils/index.js:842-860 | It succeeds iff the file is within 10 MiB and the reader succeeds, and then yields what was read. An oversized file is refused before reading. A reader failure, the timeout included, is passed on. |
| ClientUtils.AnalyzeImage | src/utils/index.js:694-716 | A backend success is returned unchanged. The caller sees an error only when both the backend and the fallback fail. An answer the backend did not give has confidence in [70,99] and isAI iff the draw exceeds 0.4, with the matching verdict. |
| ClientUtils.FallbackWordingDistinguishes | src/utils/index.js:737-741 | The fallback's verdict and its explanation each identify isAI. |
| ClientUtils.SaveAirtableConfig | src/utils/index.js:193-222 | Without a live admin session it fails with "Admin authentication required". It succeeds iff the session is live, both values are present, and they start with "app" and "pat". It stores the sanitised values, and the session is as the admin check left it. |
| ClientUtils.DeleteUserData | src/utils/index.js:769-794 | Deletion always rejects. |
| Ids.Base36Join | src/utils/index.js:30-36 | Each byte renders as 1 or 2 base-36 digits. |
| Ids.Base36JoinAppend | src/utils/index.js:30-36 | Rendering distributes over concatenation. |
| Ids.GenerateDeleteCode | src/utils/index.js:30-36 | A delete code has exactly 15 characters, all in [0-9a-z]. |
| Ids.DeleteCodeIgnoresLastByte | src/utils/index.js:30-36 | The 16th random byte never reaches the code. |
| Ids.RandomId | backend/server.js:376 | `Math.random().toString(36).substring(2, 15)` has at most 13 base-36 digits. It has exactly 13 for a long rendering, and it is empty only for "0" or a 2-character rendering. |
| Ids.GenerateAnalysisId | src/utils/mockAnalysis.js:185-187 | An analysis id starts with "EXP-". |
| Ids.AnalysisIdReadsBack | src/utils/mockAnalysis.js:185-187 | Splitting an analysis id on '-' gives back "EXP", the base-36 timestamp, and the random part. |
| Ids.NoDashInDigits | src/utils/mockAnalysis.js:186 | A base-36 rendering contains no '-'. |
| MockAnalysis.Pool | src/utils/mockAnalysis.js:7-45 | Every evidence pool has at least 8 entries. |
| MockAnalysis.ChooseBucket | src/utils/mockAnalysis.js:69-77 | r < 0.45 gives human, 0.45 ≤ r < 0.80 gives ai, and the rest gives inconclusive. |
| MockAnalysis.Confidence | src/utils/mockAnalysis.js:84-100 | Confidence is human 75–94, ai 70–94, inconclusive 45–74. |
| MockAnalysis.PoolLinesDistinct | src/utils/mockAnalysis.js:7-45 | The lines of each pool are pairwise distinct. |
| MockAnalysis.SelectEvidence | src/utils/mockAnalysis.js:103-114 | The selected positions are distinct and in range. Each entry is the pool line at its position. The loop stops at the requested count or when the pool is exhausted. |
| MockAnalysis.FormatOf | src/utils/mockAnalysis.js:142 | The format is never empty. |
| MockAnalysis.FormatOfSubtype | src/utils/mockAnalysis.js:142 | For "type/sub" the format is the upper-cased subtype. |
| MockAnalysis.FormatOfBareType | src/utils/mockAnalysis.js:142 | A type with no '/' gives "UNKNOWN". |
| MockAnalysis.TechnicalDetailsFor | src/utils/mockAnalysis.js:138-166 | The details carry the file's format and fixed texts per bucket. |
| MockAnalysis.AnalyzeImageMock | src/utils/mockAnalysis.js:58-130 | A draw below 0.1 fails before any classification, and no other draw fails. A success carries the bucket's verdict, explanation and confidence range, 3 or 4 distinct entries from the bucket's pool, the flags, and an "EXP-" id. |
| MockAnalysis.FlagsExclusive | src/utils/mockAnalysis.js:124-125 | isAI and isInconclusive never both hold, and isAI holds iff the verdict is "AI-Generated". |
| Security.SanitizeInput | backend/security.js:91-102 | A non-string passes through unchanged. A string comes out with no '<' or '>' and at most 1000 characters, whatever the stripping regexes did. A result shorter than 1000 characters is trimmed; a longer text is trimmed before the cut, so its cut can end in whitespace. |
| Security.SanitizeKeepsCleanText | backend/security.js:91-102 | Short, trimmed text with no markup characters is unchanged when the regexes leave it alone. |
| Security.RemoveNothing | backend/security.js:99 | Removing characters that do not occur changes nothing. |
| Security.GenerateSecureId | backend/security.js:201-203 | n random bytes give exactly 2n lowercase hex digits. |
| Security.SecureIdDecodes | backend/security.js:201-203 | The hex id decodes back to the random bytes. |
| Security.BearerToken | backend/security.js:212-213 | The token is the second space-separated field of the header, and it is never empty. |
| Security.AuthenticateToken | backend/security.js:211-226 | 401 iff there is no token, 403 iff the token does not verify. Otherwise the request continues with the verified user. |
| Security.BearerHeaderCarriesToken | backend/security.js:212-213 | "scheme token" yields exactly the token. |
| Security.NoSpaceUnauthorized | backend/security.js:212-216 | A header without a space is always refused with 401. |
| Security.MissingKeys | backend/security.js:250-256 | The missing keys are exactly the unset required keys, in declared order. |
| Security.ValidateEnvironment | backend/security.js:250-261 | It fails iff some required key is unset, and the message lists exactly the missing keys in order. |
| SetupSecurity.GenerateStrongPassword | backend/setup-security.js:23-30 | The password has 24 characters, each the charset entry picked by its draw. |
| SetupSecurity.GenerateSecrets | backend/setup-security.js:12-20 | The JWT secret has 128 hex digits and the key has 64, and both decode to their random bytes. The admin password has 24 characters. |
| SetupSecurity.FirstPasswordLine | backend/setup-security.js:104-110 | The index found is the first line starting with `REACT_APP_ADMIN_PASSWORD=`, or none exists. |
| SetupSecurity.UpdatePasswordLines | backend/setup-security.js:101-114 | Only the first password line is replaced, and every other line and the line count are kept. Without one, the new line is appended last. |
| SetupSecurity.UpdateFrontendEnv | backend/setup-security.js:92-118 | For a password with no newline, reading the written file back line by line gives exactly the updated lines. |
| SetupSecurity.UpdatedLinesReadBack | backend/setup-security.js:101-116 | Joining the updated lines with newlines and splitting them again gives the same lines. |
| SetupSecurity.UpdateFrontendEnvLines | backend/setup-security.js:92-118 | On the file text, the update has the same line-level effect. |
| SetupSecurity.UpdateFrontendEnvIdempotent | backend/setup-security.js:92-118 | Writing the same password twice gives the same file as writing it once. |
| SetupSecurity.CheckGitSecurity | backend/setup-security.js:136-152 | The `.env` block is appended iff the file does not already mention ".env", and the result always mentions it. |
| SetupSecurity.CheckGitSecurityIdempotent | backend/setup-security.js:145-149 | A second run changes nothing. |
| Cors.IsAllowedOrigin | backend/server.js:101-125 | An absent or empty origin is refused. The two production sites are trusted in every environment. Any other trusted origin is the local front end in development, or a preview host. |
| Cors.TrustedOriginsAreHttps | backend/server.js:101-125 | Outside development, every allowed origin is an https origin. |
| Cors.DevOriginOnlyInDevelopment | backend/server.js:104-106 | `http://localhost:3000` is allowed iff NODE_ENV is "development". |
| Cors.PreviewMarkerNotAnchored | backend/server.js:116-122 | The preview check is not anchored: every origin with the preview prefix that merely contains the marker, whatever comes before or after it, is allowed in every environment. |
| Cors.PreviewOriginIff | backend/server.js:101-125 | An origin with the preview prefix is allowed iff the marker occurs in it, in every environment. |
| Cors.BaseCorsHeaders | backend/server.js:135-142 | Allow-Headers, Allow-Methods and Max-Age are always present. |
| Cors.BuildCorsHeaders | backend/server.js:135-150 | The base headers are always there. Allow-Origin echoes the exact origin, with Vary and Allow-Credentials, iff the origin is allowed. Otherwise only the base headers are sent. |
| Cors.CredentialsOnlyForTrustedOrigin | backend/server.js:143-148 | Credentials are offered only to an allowed origin, which is echoed and never "*". |
| Cors.CorsMiddleware | backend/server.js:163-175 | Vary: Origin is always set. OPTIONS is answered with 204 and never reaches a route. The CORS headers are added and the other headers are kept. |
| Store.Lookup | backend/server.js:645-654 | The lookup finds the first record with the id, and finds nothing iff no record has it. |
| Store.LookupAppended | backend/server.js:401-415 | A record appended under a fresh id is found at its position. |
| Store.RemoveAt | backend/server-secure.js:448-449 | Removing a record keeps every other record, in order. |
| Store.Destroy | backend/server.js:347 | No other media is touched. The named id is gone afterwards exactly when the call succeeds or it was never hosted. |
| Store.DestroyIfSet | backend/server.js:345-355 | Cleanup is skipped for a null or empty id. It never adds media. |
| Store.TierOf | backend/server.js:684-708 | The explanation tier is high iff confidence ≥ 90, medium iff 70–89, low below. |
| Store.Project | backend/server.js:710-725 | The public view carries the stored public fields unchanged and none of the secrets. |
| Store.ProjectKeepsPublicFields | backend/server.js:710-725 | Two records with the same public view differ only in the fields the view hides. |
| Store.OrNull | backend/server.js:724 | `url \|\| null`: an empty URL reads as null. |
| Store.Read | backend/server.js:621-745 | A failed query gives 500. No match gives 404 "Analysis not found". Otherwise the projection of the first match is returned, with the explanation chosen by AI flag and tier. |
| Store.ReadReturnsStored | backend/server.js:645-725 | A successful read is the projection of a stored record with that id. |
| MainServer.AllowedList | backend/server.js:209-212 | The allow-list is the comma-split setting, or the default when the setting is unset or empty. |
| MainServer.DefaultAllowedList | backend/server.js:209-212 | The default list is exactly jpeg, jpg, png and webp. |
| MainServer.FileFilter | backend/server.js:208-223 | The filter admits exactly the listed types. Otherwise it raises "Invalid file type. Allowed types: …". |
| MainServer.HandleError | backend/server.js:749-777 | LIMIT_FILE_SIZE gives 413 and LIMIT_FILE_COUNT gives 400. A thrown error mentioning "Invalid file type" gives 400 with its message, and everything else gives 500. |
| MainServer.RejectedTypeIsClientError | backend/server.js:765-770 | A type refused by the filter is answered with 400. |
| MainServer.Consent | backend/server.js:300-307 | Consent is the parsed body field. A missing or unparsable field counts as `{}`. |
| MainServer.HasResearchConsent | backend/server.js:395 | Research consent holds only when the parsed consent is an object whose `research_training` field is exactly `true`. |
| MainServer.Label | backend/server.js:369 | The label is the lower-cased top label, or "" with no top result or no label. |
| MainServer.DeepfakeMarkerRedundant | backend/server.js:370-374 | The "deepfake" test adds nothing to the "fake" test. |
| MainServer.DetectorLabels | backend/server.js:364-374 | The detector's "Fake" classifies as AI and "Real" does not. |
| MainServer.JsRound | backend/server.js:366 | `Math.round` rounds halves up. |
| MainServer.Confidence | backend/server.js:366 | No top result or no score gives 0. A score in [0,1] gives a value in [0,100]. |
| MainServer.Classify | backend/server.js:365-392 | isAI iff the lower-cased top label contains one of the four markers. The verdict is "AI-generated" iff isAI. The ids have at most 13 base-36 digits. Size is kept in rounded KB, and the name and type are echoed. |
| MainServer.IsAiLabel | backend/server.js:369-374 | A label counts as AI when it contains "fake", "deepfake", "synthetic" or "ai-generated". |
| MainServer.RecordOf | backend/server.js:401-415 | The stored record carries the result's fields and the hosted media, consent true, and no delete code. |
| MainServer.Analyze | backend/server.js:269-454 | A missing file gives 400 and a file over 4404019 bytes gives 413, both before any upload. It succeeds iff the upload and inference succeed. A record is stored only with research consent and a successful create. Media is destroyed on inference failure or without consent, and it is kept exactly when consented. |
| MainServer.FailedSaveOrphansImage | backend/server.js:397-420 | With consent and a failed create, the response is still a success and the media stays on the host with no record. |
| MainServer.GetAnalysis | backend/server.js:621-745 | A failed query gives 500. The read succeeds iff the query runs and some row has the id. The payload is then the public view of the first such row, with its tier's explanation and an empty image URL as null. Every other failure is 404. |
| MainServer.ReadReturnsOrMisses | backend/server.js:645-725 | A read succeeds iff the query runs and some row has the id. It then carries the filename, confidence, verdict, classification and explanation of the first such row. |
| MainServer.ConsentedAnalysisReadsBack | backend/server.js:397-415 | A consented, saved analysis reads back under its id with its confidence and verdict. |
| SecureServer.Sanitize | backend/security.js:91-102 | The sanitised string has no markup characters and at most 1000 characters. Clean text is kept. |
| SecureServer.SanitizeClean | backend/security.js:91-102 | Sanitising text that is already clean is the identity. |
| SecureServer.Login | backend/server-secure.js:70-104 | No password gives 400. No configured hash gives 500. A verification error gives 500. A match gives a token valid for 3600 s, and a mismatch gives 401 "Invalid credentials". |
| SecureServer.HandleError | backend/server-secure.js:471-496 | 413 iff LIMIT_FILE_SIZE, 400 iff LIMIT_FILE_COUNT, otherwise 500. |
| SecureServer.Mock | backend/server-secure.js:160-179 | The id has 32 hex digits and the code 24, both decoding to their bytes. Confidence lies in [60,99]. isAI and the verdict come from independent draws. The filename is sanitised. |
| SecureServer.RecordOf | backend/server-secure.js:224-241 | The record seals the hashed code in its encrypted data, stores no plain code, and records consent as true. |
| SecureServer.Persist | backend/server-secure.js:181-264 | A record is added only when sealing and create succeed. Otherwise the uploaded media is destroyed, best effort. |
| SecureServer.Analyze | backend/server-secure.js:123-295 | A missing file or a validation failure gives 400 with its message. It succeeds iff validation passes, and the response returns the plain code. An upload failure continues, and a failed save triggers cleanup. |
| SecureServer.SubmitAsWritten | backend/server-secure.js:36-56 | As written, only `image/jpg` gets past the filter and then goes on as multer hands it over. Every other type ends in 500 with nothing changed. |
| SecureServer.SignedTypesNeverReachRoute | backend/server-secure.js:44-56 | As written, every JPEG, PNG or WebP upload ends in 500 before the route runs. |
| SecureServer.Submit | backend/server-secure.js:36-56 | With the corrected filter, a request succeeds iff the full validation passes. A refused type ends in 500 through the error middleware. An allowed file over the limit is cut off by multer with 413. A signature mismatch is answered by the route with 400. |
| SecureServer.Receive | backend/server-secure.js:36-42 | After the filter, a file over the limit, which comes from the same setting as the route's, is answered 413. Any other file reaches the route. |
| SecureServer.GetAnalysis | backend/server-secure.js:298-381 | An empty sanitised id or one longer than 64 UTF-16 units gives 400. For a valid id, a failed query gives 500, no match gives 404, and a match gives a success. A success is the public view of the first row with the sanitised id, with its tier's explanation and an empty URL as null. |
| SecureServer.SavedAnalysisReadsBack | backend/server-secure.js:160-264 | A saved analysis, under an id not in use and left alone by sanitising, reads back as the public view of the row written, with its tier's explanation. |
| SecureServer.ReadFreshRow | backend/server-secure.js:298-381 | Reading the last-appended row under a hex id no earlier row has gives that row's public view. |
| SecureServer.Delete | backend/server-secure.js:384-468 | No code gives 400 and no record gives 404. A code whose hash differs from the sealed one, or that cannot be unsealed, gives 401 and leaves everything untouched. A record with no sealed data is deleted without any check. Once the code is authorised, the record's image is destroyed when its id is set and the call succeeds. This happens even when the row removal then fails. Every other path leaves the host as it was. Success removes exactly the matched record, and media is only ever removed. |
| SecureServer.Authorises | backend/server-secure.js:416-435 | The delete-code rule: a row with no sealed data accepts any code. Otherwise the sealed data must open to the hash of the code given. A failed opening refuses. |
| SecureServer.IssuedCodeDeletes | backend/server-secure.js:160-264 | The plain code returned by a saved analysis deletes that analysis when the seal opens faithfully, and it removes the image that was uploaded for it from the host. |
| SecureServer.DeleteFreshRow | backend/server-secure.js:384-468 | Deleting the last-appended row, whose hex id no earlier row has, with a code its sealed proof authorises, succeeds and leaves exactly the earlier rows. The row's image, when it has one, is removed from the host and nothing else is. |
| SecureServer.HexIsClean | backend/server-secure.js:161 | A 32-digit hex id survives sanitising. |
| SecureServer.UnsealedRowsDeleteWithAnyCode | backend/server-secure.js:416-435 | A record without sealed data is deleted with any non-empty code. |
| CleanServer.FileFilter | backend/server-clean.js:58-66 | The filter admits exactly the allow-list. A rejection mentions "Invalid file type". |
| CleanServer.HandleError | backend/server-clean.js:253-268 | 413 iff LIMIT_FILE_SIZE. Everything else is 500 "Internal server error". |
| CleanServer.ClientMistakesAreServerErrors | backend/server-clean.js:253-268 | A refused type and too many files are both answered with 500. |
| CleanServer.Mock | backend/server-clean.js:88-107 | The id has 16 hex digits and the code 12, decoding to their bytes. Confidence lies in [70,99]. isAI and the verdict come from independent draws. The name and type are echoed and the size is in rounded KB. |
| CleanServer.RecordOf | backend/server-clean.js:138-155 | The record stores the plain delete code and consent true. |
| CleanServer.Analyze | backend/server-clean.js:79-184 | A missing file gives 400. Otherwise the response is always success with the full result. The record is appended iff create succeeds. A failed create after an upload destroys the media, best effort. |
| CleanServer.FailedSaveStillSucceeds | backend/server-clean.js:159-175 | When the save fails, the client still gets its id and delete code, but reading the id back gives 404. |
| CleanServer.GetAnalysis | backend/server-clean.js:187-250 | A failed query gives 500 and no match gives 404. It succeeds iff the query runs and some row has the id. The success is the public view of the first such row, with its tier's explanation and the stored URL as is. |
| CleanServer.SavedAnalysisReadsBack | backend/server-clean.js:138-223 | A saved analysis reads back under its id. |
| Feedback.Render | src/components/AnalysisResults.js:17-115 | The thank-you view shows iff feedback was submitted. The choice buttons show iff no choice is recorded, and the comment box iff it was opened. |
| Feedback.Step | src/components/AnalysisResults.js:34-88 | An event whose control is not on screen changes nothing. The widget thanks only after a successful submission. |
| Feedback.StepKeepsInv | src/components/AnalysisResults.js:34-88 | No submission stays in flight between events, and an open comment box always goes with the "inaccurate" choice. |
| Feedback.ChoiceOutcomes | src/components/AnalysisResults.js:43-58 | "Inaccurate" opens the comment box and sends nothing. "Accurate" sends at once with an empty comment and thanks on success. A failure brings the buttons back. |
| Feedback.RepeatClickIgnored | src/components/AnalysisResults.js:35 | A recorded choice makes further clicks no-ops. |
| Feedback.CommentOutcomes | src/components/AnalysisResults.js:64-88 | Submit sends the typed comment and Skip sends "", both with "inaccurate". A failure leaves the box as it was. |
| Feedback.ThanksIsFinal | src/components/AnalysisResults.js:17-32 | Once thanked, any sequence of events changes nothing and submits nothing. |
| Feedback.RunKeepsInv | src/components/AnalysisResults.js:34-88 | The widget invariant holds along every run. |
| Feedback.ShareUrl | src/components/AnalysisResults.js:162-165 | The share URL starts with the origin. When the origin has no '#', its fragment is exactly "share/" followed by the id. |
| UploadZone.Resize | src/components/FileUploadZone.js:15-24 | Both sides ≤ 1920 are kept. Otherwise the longer side becomes 1920, neither side exceeds it, and the aspect ratio is exact. |
| UploadZone.SelectAsWritten | src/components/FileUploadZone.js:98-118 | Files up to 4 MiB, and larger ones whose compression throws, are handed over unchanged. Nothing is handed over iff compression never settles. A re-encoded file has lost its name, so the client's own checks refuse it. |
| UploadZone.CompressedUploadAlwaysRejected | src/components/FileUploadZone.js:43 | As written, every re-encoded upload fails the client's synchronous check, on its size or its missing name. |
| UploadZone.Select | src/components/FileUploadZone.js:98-118 | The corrected hand-over keeps the name. Small files pass through, and large ones are re-encoded as `image/jpeg`, or kept when compression throws. |
| UploadZone.CompressedUploadAccepted | src/components/FileUploadZone.js:43 | With the name kept, a re-encoded upload passes the synchronous checks iff the original had a name of at most 255 UTF-16 units and the JPEG fits in 10 MiB. |
| UploadZone.SmallFilesUnaffected | src/components/FileUploadZone.js:106-118 | Both hand-overs agree on files up to 4 MiB. |
| UploadZone.Checked | src/components/FileUploadZone.js:59 | Once touched, the box shows the research consent the analysis sends. Untouched, it shows ticked while no consent is sent. |
| AnalysisFlow.Pending | src/components/AnalysisSection.js:147-150 | While analysing, the preview is set, status is analysing, and the result and error are cleared. |
| AnalysisFlow.HandleFile | src/components/AnalysisSection.js:141-160 | It completes iff the synchronous checks pass, the file reads, and the analysis succeeds, with the preview and result set. Every failure sets the error and clears the preview. Consent and the feedback flag are untouched, and the analysis receives the current consent. |
| AnalysisFlow.PickFile | src/components/FileUploadZone.js:98-118 | Consent is kept. A pick whose compression never settles changes nothing. Small files, and files whose compression throws, go to handleFile as they are. A re-encoded file completes iff it kept a name of at most 255 UTF-16 units, fits in 10 MiB, and the reader and the analysis succeed. |
| AnalysisFlow.PickFileAsWritten | src/components/FileUploadZone.js:98-118 | The same for the source's hand-over, except that a re-encoded file never reaches the analysis: it ends in the error state with no preview and an alert. |
| AnalysisFlow.LargePickEndsInError | src/components/FileUploadZone.js:43 | As written, a re-encoded pick always ends in the error state. |
| AnalysisFlow.LargePickCompletes | src/components/AnalysisSection.js:141-160 | With the corrected hand-over, a re-encoded pick completes iff the reader and the analysis succeed. |
| AnalysisFlow.Reset | src/components/AnalysisSection.js:162-169 | Reset returns to the initial state: idle, no preview, result or error, empty consent, feedback flag cleared. |
| AnalysisFlow.ConsentChange | src/components/AnalysisSection.js:171-176 | Only the given key changes. Every other key and every other field is unchanged. |
| AnalysisFlow.FeedbackSubmitted | src/components/AnalysisSection.js:178-182 | Only the feedback flag changes, and it becomes true. |
| AnalysisFlow.Render | src/components/AnalysisSection.js:205-240 | The alert shows a non-empty error. The upload zone shows iff there is no preview. The spinner shows iff analysing, and the results iff complete with a result. |
| AnalysisFlow.HandleFileRenders | src/components/AnalysisSection.js:211-240 | A completed file shows its result under the preview. A failed one shows the upload zone with the alert. |
| AnalysisFlow.ResetRendersZone | src/components/AnalysisSection.js:162-218 | After a reset the empty upload zone shows, with the box ticked. |
| Location.FragmentOf | src/App.js:20 | The fragment is no longer than the URL, and is empty when the URL has no '#'. |
| Location.FragmentAtFirstHash | src/App.js:20 | The fragment is everything after the first '#', whatever precedes it. |
| Location.FragmentAfterFirstHash | src/App.js:20 | With no '#' in the origin, the fragment of origin#rest is rest. |
| Router.HandleHashChange | src/App.js:19-46 | "admin" selects the admin page with the session check's answer, which may erase the session. "delete" selects the delete page and keeps the admin flag. "share/x" with a non-empty x selects the shared page with x. Every other hash selects home. Outside the admin and delete pages the flag is false, and the shared id is set only on the shared page. |
| Router.AdminAuthenticated | src/App.js:72-74 | Only the admin flag changes, and it becomes true. |
| Router.GoHome | src/App.js:76-81 | Going home shows the landing page. For every session and time, routing the empty hash it writes gives the state it sets and leaves the session alone. |
| Router.Unload | src/App.js:55-59 | Leaving from the admin page ends the admin session: the admin check then refuses at every time. Every other key is kept, and on any other page the session is unchanged. |
| Router.Render | src/App.js:83-113 | The shared page shows iff a non-empty id is set. The admin page shows the data iff authenticated and the login otherwise. Then comes the delete page, then the landing page. |
| Router.AdminNeedsLiveSession | src/App.js:22-26 | The admin data shows iff the session check answers yes. |
| Router.ShareLinkRoundTrip | src/App.js:30-40 | Opening a share link for an id without '/' shows exactly that analysis, from any page. |
| AdminLogin.ExpectedPassword | src/components/AdminAuth.js:13-14 | The configured password applies when set and non-empty, and "exposr-admin-2025" otherwise. Either way it is never empty, so an empty form cannot log in. |
| AdminLogin.HandleAuth | src/components/AdminAuth.js:16-39 | Login succeeds iff the password matches, never for an empty one, and then writes the session flag and timestamp. A wrong password sets the error, clears the field, and stores nothing. The form is never left authenticating. |
| AdminLogin.LoginLastsADay | src/components/AdminAuth.js:24-31 | After a successful login the admin check answers yes for exactly 24 h. A failed login leaves its answer as it was. |
| DeletionPage.Submit | src/components/DataDeletionPage.js:12-33 | A blank code gets the prompt and no call. Otherwise the trimmed code is sent: success clears the input with the success message, and failure shows "not found". |
| DeletionPage.HandleDelete | src/components/DataDeletionPage.js:15-25 | A call is made iff the code is not all whitespace. |
| DeletionPage.DeletionNeverSucceeds | src/utils/index.js:787-789 | Since deletion always rejects, the page never reports success, and the typed code stays. |
| ProgressBar.AutoVariant | src/components/ui/ProgressBar.js:11-15 | Success above 80, warning above 60 up to 80, danger otherwise. |
| ProgressBar.ColourKey | src/components/ui/ProgressBar.js:17 | "default" picks automatically. Any other variant is used as given. |
| ProgressBar.DefaultGradientUnused | src/components/ui/ProgressBar.js:4-17 | The default gradient is never drawn, and an unknown variant gets no colour. |
| ProgressBar.Width | src/components/ui/ProgressBar.js:24 | The width is clamped to [0,100], and in-range values are unchanged. |
| ProgressBar.WidthIdempotent | src/components/ui/ProgressBar.js:24 | Clamping twice is clamping once. |

## Left out

- Rendering, styling, animation and static content. The cosmetic progress animation of `AnalysisLoading` is left out too.
- `SharedAnalysisPage` and `DataAdminPage` beyond the routing that selects them. Their logic is the read-back modelled in `Store.Read`.
- The Hugging Face, Cloudinary and Airtable clients, and `backendAnalysis.js`. Only their success or failure, and the ids they return, are modelled.
- Express, multer, helmet, express-rate-limit and cors internals.
  - The multer error codes reaching the main and clean servers' error handlers, and the fact that `fileFilter` sees metadata only, are inputs. The secure server's size limit is modelled in `SecureServer.Receive`.
  - The 408 timeout that races with the handler's own response is not modelled.
- AES-GCM, bcrypt, JWT and sha256 are uninterpreted function parameters.
  - Whether `decrypt` inverts `encrypt` is a hypothesis of `SecureServer.IssuedCodeDeletes`, not a fact of the model.
  - `generate-secrets.js` only prints such values and is not part of this model.
- The XSS-stripping regexes of `sanitizeInput` are a function parameter. Only the steps after them (the length cut and the removal of `<` and `>`) are modelled.
- Floating point.
  - The sort of detector scores and `Math.round(score * 100)` on doubles are not modelled: `MainServer.Confidence` rounds an exact real.
  - `toFixed` formatting and file-size formatting are left out.
  - The JPEG quality loop is an input: the re-encoded size and bytes.
  - The distributions of `Math.random` are left out; only ranges are proved.
- Timers: the `FileReader` and image-load timeouts and the artificial delays. `ClientUtils.FileToBase64` takes the reader's outcome as an input, and `ClientUtils.AnalyzeImageFallback` takes the image load's outcome, so a timeout is one of their failures.
- Console and security logging, except the 100-entry cap of the client's security log.
- The filesystem reads and writes of `setup-security.js`. Its update functions work on the file text.
- The debug, diagnostic and connection-test routes.
- Airtable formula injection through the analysis id in `filterByFormula`. The lookup is modelled as an exact id match.
- Values of the wrong JavaScript type (a non-string label, delete code or query parameter) and the TypeErrors they raise.
- `Text.ToLower`, `Text.ToUpper`: map ASCII letters only, not full Unicode case mapping.
- `Text.Take`, `Text.Substring`: count characters, not UTF-16 code units. The length checks that the source makes on UTF-16 units use `Text.Utf16Length`.
- Percent-encoding in the URL fragment is not modelled. `Location.FragmentOf` takes the fragment as written.
- AnalysisFlow.HandleFile: each React handler runs as one atomic step, so handlers are never interleaved with a pending `await`. For example, `resetAnalysis` or `handleConsentChange` firing while `analyzeImage` is still pending (src/components/AnalysisSection.js:141-169) is not modelled. The same holds for `Feedback.Step` and the other UI handlers.
- ClientUtils.FallbackLogged: a file without a name logs the empty string as its filename, where the source passes `undefined` through `sanitizeInput`.
- The pending page of `DataDeletionPage.js` (status `deleting`, message cleared, src/components/DataDeletionPage.js:21-22) is not a separate step. `DeletionPage.Submit` goes from the submitted page straight to the settled one.
- `ProgressBar.ColourKey`: the value is an exact real, and `NaN` is not modelled.
- `MainServer.Confidence`: states the range only for scores in [0,1], the detector's documented output.

## Findings

| source | as written | input that shows it | evidently intended | confidence | as-written member | corrected member |
|---|---|---|---|---|---|---|
| backend/server-secure.js:44-56 | multer's `fileFilter` calls `validateFile` with `file.size` and `file.buffer`. multer runs the filter before the body is read, so both are undefined, and the signature check throws a TypeError on `buffer[0]`. The error handler answers 500. | any `image/jpeg`, `image/png` or `image/webp` upload to `/api/analyze` | the filter checks the declared type, and the route's own `validateFile` checks size and signature | not executed | SecureServer.SignedTypesNeverReachRoute | SecureServer.Submit |
| src/components/FileUploadZone.js:43 | `compressImage` resolves with a canvas `Blob`, which has no `name`, and `handleFile` then calls `validateImageFile`, which reads `file.name.length` (src/utils/index.js:810) and throws | any selected photo larger than 4 MiB whose re-encoding succeeds | the re-encoded JPEG keeps the original file name and goes on to analysis | not executed | AnalysisFlow.LargePickEndsInError | AnalysisFlow.LargePickCompletes |

=== FILE: admin_auth.dfy ===
/** `AdminAuth.js`: the login form of the admin page. The configured
    password is a parameter and the session storage is a map. */
module AdminLogin {
  import opened Wrappers
  import ClientUtils

  const DefaultPassword: string := "exposr-admin-2025"

  /** `process.env.REACT_APP_ADMIN_PASSWORD || "exposr-admin-2025"`: an
      unset or empty setting falls back to the default */
  function ExpectedPassword(setting: Option<string>): (p: string)
    ensures setting.Some? && setting.value != "" ==> p == setting.value
    ensures setting.None? || setting.value == "" ==> p == DefaultPassword
    // there is always a password to match: an empty form can never pass
    ensures p != ""
  {
    if setting.Some? && setting.value != "" then setting.value else DefaultPassword
  }

  datatype Form = Form(password: string, error: string, authenticating: bool)

  const WrongPassword: string := "Invalid password. Access denied."

  /** `handleAuth(e)` at time `now`: the form afterwards, the session
      storage afterwards, and whether `onAuthenticated` was called */
  function HandleAuth(f: Form, setting: Option<string>, session: map<string, string>, now: int)
    : (r: (Form, map<string, string>, bool))
    ensures r.2 <==> f.password == ExpectedPassword(setting)
    ensures r.2 ==> r.1 == ClientUtils.LoginSession(session, now) && r.0 == Form(f.password, "", false)
    ensures !r.2 ==> r.1 == session && r.0 == Form("", WrongPassword, false)
    ensures !r.0.authenticating
    ensures f.password == "" ==> !r.2
  {
    var pending := f.(authenticating := true, error := "");
    if f.password == ExpectedPassword(setting) then
      (pending.(authenticating := false), ClientUtils.LoginSession(session, now), true)
    else
      (pending.(error := WrongPassword, password := "", authenticating := false), session, false)
  }

  /** A successful login opens the admin page for the next 24 hours,
      counted in milliseconds and inclusive; a wrong password leaves the
      admin check answering as before */
  lemma LoginLastsADay(f: Form, setting: Option<string>, session: map<string, string>, now: int, later: int)
    ensures var (_, after, ok) := HandleAuth(f, setting, session, now);
      ok ==> (ClientUtils.IsAdminAuthenticated(after, later).0 <==> later - now <= ClientUtils.MaxSessionAge)
    ensures var (_, after, ok) := HandleAuth(f, setting, session, now);
      !ok ==> ClientUtils.IsAdminAuthenticated(after, later) == ClientUtils.IsAdminAuthenticated(session, later)
  {
    ClientUtils.SessionExpiry(session, now, later);
  }
}

=== FILE: analysis_section.dfy ===
/** `AnalysisSection.js`: the state hooks of the upload-and-analyse flow and
    what they put on screen. `handleFile` runs to the end in one step; the
    outcomes of `FileReader` and `analyzeImage` are parameters. */
module AnalysisFlow {
  import opened Wrappers
  import opened ClientValidation
  import opened Constants
  import ClientUtils
  import UploadZone

  type AnalysisResult = ClientUtils.ClientResult

  datatype Section = Section(
    image: Option<string>, status: AnalysisStatus, result: Option<AnalysisResult>, error: Option<string>,
    consent: map<string, bool>, feedbackSubmitted: bool)

  const Initial: Section := Section(None, Idle, None, None, map[], false)

  /** The state while `analyzeImage` is pending */
  function Pending(s: Section, dataUrl: string): (r: Section)
    ensures r.image == Some(dataUrl) && r.status == Analyzing && r.result.None? && r.error.None?
    ensures r.consent == s.consent && r.feedbackSubmitted == s.feedbackSubmitted
  {
    s.(image := Some(dataUrl), status := Analyzing, result := None, error := None)
  }

  /** `handleFile(file)`. Only the synchronous throw of `validateImageFile`
      stops the flow: its promise is not awaited, so a signature mismatch
      goes unnoticed. `analyze` is `analyzeImage(file, ·)`, given the
      consent map held at the time. */
  function HandleFile(s: Section, file: ClientFile, read: Result<string, string>,
                      analyze: map<string, bool> -> Result<AnalysisResult, string>): (r: Section)
    ensures r.consent == s.consent && r.feedbackSubmitted == s.feedbackSubmitted
    ensures r.status == Complete || r.status == Error
    ensures r.status == Complete <==>
      SyncCheck(Some(file)).None? && read.Success? && analyze(s.consent).Success?
    ensures r.status == Complete ==>
      r.image == Some(read.value) && r.result == Some(analyze(s.consent).value) && r.error.None?
    ensures r.status == Error ==> r.image.None? && r.error.Some?
    ensures SyncCheck(Some(file)).Some? ==>
      r == s.(error := Some(SyncCheck(Some(file)).value.Message()), status := Error, image := None)
    ensures SyncCheck(Some(file)).None? && read.Failure? ==>
      r == s.(error := Some(read.error), status := Error, image := None)
    ensures SyncCheck(Some(file)).None? && read.Success? && analyze(s.consent).Failure? ==>
      r == Pending(s, read.value).(error := Some(analyze(s.consent).error), status := Error, image := None)
  {
    match SyncCheck(Some(file))
    case Some(e) => s.(error := Some(e.Message()), status := Error, image := None)
    case None =>
      var s1 := s.(error := None);
      match ClientUtils.FileToBase64(file, read)
      case Failure(m) => s1.(error := Some(m), status := Error, image := None)
      case Success(url) =>
        var s2 := Pending(s1, url);
        match analyze(s.consent)
        case Failure(m) => s2.(error := Some(m), status := Error, image := None)
        case Success(res) => s2.(result := Some(res), status := Complete)
  }

  /** A file picked in the upload zone goes through the re-encoding of large
      files first; dropped files reach `HandleFile` directly */
  function PickFile(s: Section, file: ClientFile, c: UploadZone.Compression, read: Result<string, string>,
                    analyze: map<string, bool> -> Result<AnalysisResult, string>): (r: Section)
    ensures r.consent == s.consent
    ensures file.size > UploadZone.CompressThreshold && c.NeverSettles? ==> r == s
    ensures file.size <= UploadZone.CompressThreshold || c.Rejected? ==> r == HandleFile(s, file, read, analyze)
    // a re-encoded file is shown with its result exactly when it kept a short enough name, fits the
    // limit, and both the reader and the analysis succeed
    ensures file.size > UploadZone.CompressThreshold && c.Compressed? ==>
      (r.status == Complete <==>
        && file.name.Some? && Text.Utf16Length(file.name.value) <= 255 && c.size <= MaxFileSize
        && read.Success? && analyze(s.consent).Success?)
  {
    match UploadZone.Select(file, c)
    case None => s
    case Some(f) =>
      if file.size > UploadZone.CompressThreshold && c.Compressed? then
        UploadZone.CompressedUploadAccepted(file, c.size, c.bytes);
        HandleFile(s, f, read, analyze)
      else HandleFile(s, f, read, analyze)
  }

  /** The same with the nameless re-encoded Blob of the source */
  function PickFileAsWritten(s: Section, file: ClientFile, c: UploadZone.Compression, read: Result<string, string>,
                             analyze: map<string, bool> -> Result<AnalysisResult, string>): (r: Section)
    ensures r.consent == s.consent
    ensures file.size > UploadZone.CompressThreshold && c.NeverSettles? ==> r == s
    ensures file.size <= UploadZone.CompressThreshold || c.Rejected? ==> r == HandleFile(s, file, read, analyze)
    // a re-encoded file never reaches the analysis: the error alert shows instead
    ensures file.size > UploadZone.CompressThreshold && c.Compressed? ==>
      r.status == Error && r.image.None? && r.error.Some?
  {
    match UploadZone.SelectAsWritten(file, c)
    case None => s
    case Some(f) => HandleFile(s, f, read, analyze)
  }

  /** As written, every re-encoded upload ends on the error alert, whatever
      the reader and the analysis would have done */
  lemma LargePickEndsInError(s: Section, file: ClientFile, size: nat, bytes: seq<bv8>,
                             read: Result<string, string>, analyze: map<string, bool> -> Result<AnalysisResult, string>)
    requires file.size > UploadZone.CompressThreshold
    ensures PickFileAsWritten(s, file, UploadZone.Compressed(size, bytes), read, analyze).status == Error
  {
    UploadZone.CompressedUploadAlwaysRejected(file, size, bytes);
  }

  /** With the name kept, a re-encoded upload that fits the limit reaches
      the analysis, and its result is shown when both steps succeed */
  lemma LargePickCompletes(s: Section, file: ClientFile, size: nat, bytes: seq<bv8>,
                           read: Result<string, string>, analyze: map<string, bool> -> Result<AnalysisResult, string>)
    requires file.size > UploadZone.CompressThreshold
    requires file.name.Some? && Text.Utf16Length(file.name.value) <= 255
    requires size <= MaxFileSize
    ensures var r := PickFile(s, file, UploadZone.Compressed(size, bytes), read, analyze);
      r.status == Complete <==> read.Success? && analyze(s.consent).Success?
  {
    UploadZone.CompressedUploadAccepted(file, size, bytes);
  }

  // ----------------------------------------------------------- other hooks

  /** `resetAnalysis()` */
  function Reset(s: Section): (r: Section)
    ensures r == Initial
  {
    s.(image := None, result := None, status := Idle, error := None, consent := map[], feedbackSubmitted := false)
  }

  /** `handleConsentChange(type, value)` */
  function ConsentChange(s: Section, key: string, value: bool): (r: Section)
    ensures key in r.consent && r.consent[key] == value
    ensures forall k :: k in s.consent && k != key ==> k in r.consent && r.consent[k] == s.consent[k]
    ensures r.consent.Keys == s.consent.Keys + {key}
    ensures r.(consent := s.consent) == s
  {
    s.(consent := s.consent[key := value])
  }

  /** `handleFeedbackSubmitted()` */
  function FeedbackSubmitted(s: Section): (r: Section)
    ensures r.feedbackSubmitted && r.(feedbackSubmitted := s.feedbackSubmitted) == s
  {
    s.(feedbackSubmitted := true)
  }

  // -------------------------------------------------------------- render

  datatype Body =
    | Zone(checked: bool)
    | Preview(image: string, loading: bool, results: Option<AnalysisResult>)

  datatype Screen = Screen(alert: Option<string>, body: Body)

  /** The alert shows a non-empty error; the upload zone shows while there
      is no image; with an image, the spinner shows while analysing and the
      results once complete */
  function Render(s: Section): (r: Screen)
    ensures r.alert.Some? <==> ClientUtils.Truthy(s.error)
    ensures r.alert.Some? ==> r.alert == s.error
    ensures r.body.Zone? <==> !ClientUtils.Truthy(s.image)
    ensures r.body.Zone? ==> r.body.checked == UploadZone.Checked(s.consent)
    ensures r.body.Preview? ==>
      && Some(r.body.image) == s.image
      && (r.body.loading <==> s.status == Analyzing)
      && (r.body.results.Some? <==> s.status == Complete && s.result.Some?)
      && (r.body.results.Some? ==> r.body.results == s.result)
  {
    var alert := if ClientUtils.Truthy(s.error) then s.error else None;
    if !ClientUtils.Truthy(s.image) then Screen(alert, Zone(UploadZone.Checked(s.consent)))
    else
      Screen(alert, Preview(s.image.value, s.status == Analyzing,
                            if s.status == Complete && s.result.Some? then s.result else None))
  }

  /** A completed analysis shows its result under the preview; a failed one
      goes back to the upload zone with the alert */
  lemma HandleFileRenders(s: Section, file: ClientFile, read: Result<string, string>,
                          analyze: map<string, bool> -> Result<AnalysisResult, string>)
    ensures var r := HandleFile(s, file, read, analyze);
      r.status == Complete && read.value != "" ==>
        Render(r).body == Preview(read.value, false, Some(analyze(s.consent).value))
    ensures var r := HandleFile(s, file, read, analyze);
      r.status == Error ==> Render(r).body.Zone? && (ClientUtils.Truthy(r.error) ==> Render(r).alert == r.error)
  {
  }

  /** Resetting shows the empty upload zone with the box ticked */
  lemma ResetRendersZone(s: Section)
    ensures Render(Reset(s)) == Screen(None, Zone(true))
  {
  }
}

=== FILE: client_utils.dfy ===
/** The browser-side utilities of the client: rate limiting, the admin
    session, the security log, the shaping of analysis and feedback records,
    the analysis entry point with its fallback, and the Airtable settings
    check. Browser storage is a map from keys to strings, time is an integer
    number of milliseconds, and random values are inputs. */
module ClientUtils {
  import opened Wrappers
  import opened Text
  import opened Radix
  import opened Numbers
  import opened Draws
  import opened ClientValidation
  import Constants
  import Ids

  // --------------------------------------------------------- rate limiting

  const ApiRateLimit: int := 500

  /** `rateLimit()` at time `now` after a last call at `last`: how long the
      caller waits, and the new `lastApiCall` */
  function RateLimit(now: int, last: int): (r: (int, int))
    ensures now - last < ApiRateLimit ==> r.0 == ApiRateLimit - (now - last) && r.1 == last
    ensures now - last < ApiRateLimit && now >= last ==> 0 < r.0 <= ApiRateLimit
    ensures now - last >= ApiRateLimit ==> r == (0, now)
  {
    if now - last < ApiRateLimit then (ApiRateLimit - (now - last), last) else (0, now)
  }

  /** A call that had to wait does not move the window, so a retry at the
      end of the wait goes through and is recorded */
  lemma RateLimitRetryPasses(now: int, last: int)
    requires now - last < ApiRateLimit
    ensures var (wait, last') := RateLimit(now, last);
      RateLimit(now + wait, last') == (0, now + wait)
  {
  }

  // --------------------------------------------------------- admin session

  const AuthKey: string := "exposr_admin_auth"
  const TimestampKey: string := "exposr_admin_timestamp"
  const MaxSessionAge: int := 24 * 60 * 60 * 1000

  /** A storage item read as JavaScript truthiness: missing or empty is false */
  predicate Present(store: map<string, string>, key: string) {
    key in store && store[key] != ""
  }

  /** `isAdminAuthenticated()` at time `now`: the answer and the session
      storage afterwards. An unreadable timestamp gives a `NaN` age, which
      is never greater than the limit. */
  function IsAdminAuthenticated(session: map<string, string>, now: int): (r: (bool, map<string, string>))
    ensures !Present(session, AuthKey) || !Present(session, TimestampKey) ==> r == (false, session)
    ensures Present(session, AuthKey) && Present(session, TimestampKey) ==>
      match ParseInt(session[TimestampKey])
      case Some(t) =>
        if now - t > MaxSessionAge then r == (false, session - {AuthKey, TimestampKey})
        else r == (session[AuthKey] == "authenticated", session)
      case None => r == (session[AuthKey] == "authenticated", session)
    ensures r.0 ==> session[AuthKey] == "authenticated" && r.1 == session
  {
    if !Present(session, AuthKey) || !Present(session, TimestampKey) then (false, session)
    else
      var expired := match ParseInt(session[TimestampKey])
        case Some(t) => now - t > MaxSessionAge
        case None => false;
      if expired then (false, ClearAdminSession(session))
      else (session[AuthKey] == "authenticated", session)
  }

  /** `clearAdminSession()` */
  function ClearAdminSession(session: map<string, string>): (r: map<string, string>)
    ensures AuthKey !in r && TimestampKey !in r
    ensures forall k :: k in session && k != AuthKey && k != TimestampKey ==> k in r && r[k] == session[k]
    ensures r.Keys <= session.Keys
  {
    session - {AuthKey, TimestampKey}
  }

  /** What a successful admin login stores at time `t0` */
  function LoginSession(session: map<string, string>, t0: int): map<string, string> {
    session[AuthKey := "authenticated"][TimestampKey := Decimal(t0)]
  }

  /** A session written at `t0` is valid up to and including `t0 + 24 h`, and
      from then on it is refused and erased */
  lemma SessionExpiry(session: map<string, string>, t0: int, now: int)
    ensures var (ok, after) := IsAdminAuthenticated(LoginSession(session, t0), now);
      && (ok <==> now - t0 <= MaxSessionAge)
      && (!ok ==> after == ClearAdminSession(LoginSession(session, t0)))
  {
    var s := LoginSession(session, t0);
    assert AuthKey != TimestampKey;
    assert s[AuthKey] == "authenticated" && s[TimestampKey] == Decimal(t0);
    assert Present(s, AuthKey) && Present(s, TimestampKey);
    ParseIntDecimal(t0);
  }

  // ---------------------------------------------------------- security log

  const MaxLogEntries: nat := 100

  /** `logSecurityEvent`: the stored log after appending `entry` */
  function AppendSecurityLog<T>(log: seq<T>, entry: T): (r: seq<T>)
    ensures |r| == if |log| + 1 < MaxLogEntries then |log| + 1 else MaxLogEntries
    ensures r[|r| - 1] == entry
    ensures r == (log + [entry])[|log| + 1 - |r|..]
  {
    var all := log + [entry];
    if |all| > MaxLogEntries then all[|all| - MaxLogEntries..] else all
  }

  /** Below the cap nothing is dropped; at the cap exactly the oldest entry
      goes */
  lemma SecurityLogDropsOldest<T>(log: seq<T>, entry: T)
    requires |log| == MaxLogEntries
    ensures AppendSecurityLog(log, entry) == log[1..] + [entry]
  {
  }

  // ------------------------------------------------- analysis data record

  datatype Dimensions = Dimensions(width: nat, height: nat)

  /** The argument of `logAnalysisData` */
  datatype AnalysisData = AnalysisData(
    analysisId: string, deleteCode: string, filename: string, filesize: nat, format: string,
    dimensions: Option<Dimensions>, verdict: string, confidence: int, isAI: bool,
    consent: map<string, bool>, imageData: Option<string>)

  /** The Airtable row built from it; it carries no delete code */
  datatype AnalysisFields = AnalysisFields(
    analysisId: string, filename: string, fileSizeKB: int, imageWidth: nat, imageHeight: nat,
    fileFormat: string, aiDetected: bool, confidence: int, verdict: string,
    researchConsent: bool, hasFeedback: bool)

  /** A JavaScript string is truthy when it is present and not empty */
  predicate Truthy(s: Option<string>) {
    s.Some? && s.value != ""
  }

  /** `consent[CONSENT_TYPES.RESEARCH_TRAINING]` read as a boolean */
  function ResearchConsent(consent: map<string, bool>): bool {
    Constants.ResearchTraining in consent && consent[Constants.ResearchTraining]
  }

  /** The sanitising and clamping of `logAnalysisData`: the row sent to
      Airtable and the image data that is kept. `strip` is the client's
      `sanitizeInput`. */
  function ShapeAnalysisData(d: AnalysisData, strip: string -> string): (r: (AnalysisFields, Option<string>))
    ensures 0 <= r.0.confidence <= 100
    ensures 0 <= d.confidence <= 100 ==> r.0.confidence == d.confidence
    ensures d.filesize <= Constants.MaxFileSize ==> r.0.fileSizeKB == RoundDiv(d.filesize, 1024)
    ensures 0 <= r.0.fileSizeKB <= 10240
    ensures r.1.Some? <==> ResearchConsent(d.consent) && Truthy(d.imageData)
    ensures r.1.Some? ==> r.1 == d.imageData
    ensures r.0.researchConsent == ResearchConsent(d.consent)
    ensures d.dimensions.None? ==> r.0.imageWidth == 0 && r.0.imageHeight == 0
    ensures r.0.aiDetected == d.isAI && !r.0.hasFeedback
  {
    var size := if d.filesize < Constants.MaxFileSize then d.filesize else Constants.MaxFileSize;
    var conf := if d.confidence < 0 then 0 else if d.confidence > 100 then 100 else d.confidence;
    var fields := AnalysisFields(
      strip(d.analysisId), strip(d.filename), RoundDiv(size, 1024),
      if d.dimensions.Some? then d.dimensions.value.width else 0,
      if d.dimensions.Some? then d.dimensions.value.height else 0,
      strip(d.format), d.isAI, conf, strip(d.verdict), ResearchConsent(d.consent), false);
    (fields, if ResearchConsent(d.consent) && Truthy(d.imageData) then d.imageData else None)
  }

  // ------------------------------------------------------- feedback record

  datatype FeedbackFields = FeedbackFields(feedbackId: string, analysisId: string, feedbackType: string, comment: string)

  /** `FEEDBACK_TYPES[type.toUpperCase()] || type` */
  function NormaliseFeedbackType(t: string): (r: string)
    ensures ToUpper(t) == "ACCURATE" ==> r == Constants.FeedbackType.Accurate.Name()
    ensures ToUpper(t) == "INACCURATE" ==> r == Constants.FeedbackType.Inaccurate.Name()
    ensures ToUpper(t) != "ACCURATE" && ToUpper(t) != "INACCURATE" ==> r == t
  {
    var u := ToUpper(t);
    if u == "ACCURATE" then "accurate" else if u == "INACCURATE" then "inaccurate" else t
  }

  /** The record built by `submitFeedback`; `idBytes` are the random bytes of
      its `generateDeleteCode()` and `strip` only ever deletes text */
  function ShapeFeedback(idBytes: seq<bv8>, analysisId: string, feedbackType: string, comment: string,
                         strip: string -> string): (r: FeedbackFields)
    requires |idBytes| == 16
    requires forall s :: |strip(s)| <= |s|
    ensures |r.feedbackId| == 15
    ensures |r.comment| <= 500
    ensures r.feedbackType == NormaliseFeedbackType(feedbackType)
  {
    FeedbackFields(Ids.GenerateDeleteCode(idBytes), strip(analysisId), NormaliseFeedbackType(feedbackType),
                   strip(Take(Trim(comment), 500)))
  }

  /** Both spellings a user can send reach the canonical names */
  lemma FeedbackTypeCanonical(c: Constants.FeedbackType)
    ensures NormaliseFeedbackType(c.Name()) == c.Name()
    ensures NormaliseFeedbackType(ToUpper(c.Name())) == c.Name()
  {
    assert ToUpper("accurate") == "ACCURATE";
    assert ToUpper("inaccurate") == "INACCURATE";
    assert ToUpper("ACCURATE") == "ACCURATE";
    assert ToUpper("INACCURATE") == "INACCURATE";
  }

  // ------------------------------------------------------- analysis entry

  datatype ClientResult = ClientResult(
    analysisId: string, deleteCode: string, verdict: string, confidence: int, explanation: string, isAI: bool)

  function FallbackVerdict(isAI: bool): string {
    if isAI then "Likely AI-generated" else "Likely authentic"
  }

  function FallbackExplanation(isAI: bool): string {
    if isAI then "Analysis detected inconsistencies in pixel patterns and lighting that are characteristic of AI-generated content."
    else "Image shows natural variations and artifacts consistent with camera-captured content."
  }

  /** `fileToBase64(file)`: a file over the limit is refused before the
      reader starts; `read` is how the reader ends, its 10 s timeout being
      one of the failures */
  function FileToBase64(file: ClientFile, read: Result<string, string>): (r: Result<string, string>)
    ensures r.Success? <==> file.size <= Constants.MaxFileSize && read.Success?
    ensures r.Success? ==> r.value == read.value
    ensures file.size > Constants.MaxFileSize ==> r == Failure("File too large for conversion")
    ensures file.size <= Constants.MaxFileSize && read.Failure? ==> r == read
  {
    if file.size > Constants.MaxFileSize then Failure("File too large for conversion") else read
  }

  /** The random inputs of the fallback: the bytes of its two
      `generateDeleteCode()` calls and its two `Math.random()` draws */
  datatype FallbackDraws = FallbackDraws(idBytes: seq<bv8>, codeBytes: seq<bv8>, aiDraw: real, confidenceDraw: real) {
    predicate Valid() {
      |idBytes| == 16 && |codeBytes| == 16 && IsDraw(aiDraw) && IsDraw(confidenceDraw)
    }
  }

  /** The result the fallback builds once the image has loaded */
  function FallbackResult(dr: FallbackDraws): (r: ClientResult)
    requires dr.Valid()
    ensures 70 <= r.confidence <= 99
    ensures r.isAI == (dr.aiDraw > 0.4)
    ensures r.verdict == FallbackVerdict(r.isAI) && r.explanation == FallbackExplanation(r.isAI)
    ensures |r.analysisId| == 15 && |r.deleteCode| == 15
  {
    var isAI := dr.aiDraw > 0.4;
    ClientResult(Ids.GenerateDeleteCode(dr.idBytes), Ids.GenerateDeleteCode(dr.codeBytes),
                 FallbackVerdict(isAI), Pick(dr.confidenceDraw, 30) + 70, FallbackExplanation(isAI), isAI)
  }

  const MaxImageSide: nat := 10000

  /** The argument the fallback hands to `logAnalysisData`: the metadata
      `getImageMetadata` read from the file and the loaded image, the
      result, the consent, and the data URL read when consent was given.
      A nameless file's name is taken as the empty string. */
  function FallbackLogged(file: ClientFile, consent: map<string, bool>, image: Dimensions,
                          read: Result<string, string>, strip: string -> string, dr: FallbackDraws)
    : (d: AnalysisData)
    requires dr.Valid()
  {
    var res := FallbackResult(dr);
    var converted := FileToBase64(file, read);
    var imageData := if ResearchConsent(consent) && converted.Success? then Some(converted.value) else None;
    var size := if file.size < Constants.MaxFileSize then file.size else Constants.MaxFileSize;
    var shown := Dimensions(if image.width < MaxImageSide then image.width else MaxImageSide,
                            if image.height < MaxImageSide then image.height else MaxImageSide);
    AnalysisData(res.analysisId, res.deleteCode, strip(file.name.GetOr("")), size, file.mimeType,
                 Some(shown), res.verdict, res.confidence, res.isAI, consent, imageData)
  }

  /** What the fallback logs: the result shown, the size and sides
      capped, and the image only with research consent */
  lemma FallbackLoggedFields(file: ClientFile, consent: map<string, bool>, image: Dimensions,
                             read: Result<string, string>, strip: string -> string, dr: FallbackDraws)
    requires dr.Valid()
    ensures var d := FallbackLogged(file, consent, image, read, strip, dr);
      && d.analysisId == FallbackResult(dr).analysisId && d.deleteCode == FallbackResult(dr).deleteCode
      && d.confidence == FallbackResult(dr).confidence && d.isAI == FallbackResult(dr).isAI
    ensures var d := FallbackLogged(file, consent, image, read, strip, dr);
      && d.filesize <= Constants.MaxFileSize && (file.size <= Constants.MaxFileSize ==> d.filesize == file.size)
      && d.dimensions.Some? && d.dimensions.value.width <= MaxImageSide && d.dimensions.value.height <= MaxImageSide
    // the image travels only with research consent, for a file the reader could convert
    ensures var d := FallbackLogged(file, consent, image, read, strip, dr);
      d.imageData.Some? <==> ResearchConsent(consent) && file.size <= Constants.MaxFileSize && read.Success?
    ensures var d := FallbackLogged(file, consent, image, read, strip, dr);
      d.imageData.Some? ==> d.imageData.value == read.value
  {
  }

  /** `analyzeImageFallback(file, consent)`. `image` is how
      `getImageMetadata` ends once the type has passed (the natural size, or
      the load error or timeout); `read` is how the file reader ends;
      `log` is the outcome of `logAnalysisData` for the record it is given.
      Every failure on the way is rethrown. */
  function AnalyzeImageFallback(file: ClientFile, consent: map<string, bool>, image: Result<Dimensions, string>,
                                read: Result<string, string>, log: AnalysisData -> Result<(), string>,
                                strip: string -> string, dr: FallbackDraws): (r: Result<ClientResult, string>)
    requires dr.Valid()
    ensures file.mimeType !in Constants.AcceptedFileTypes ==> r == Failure("Invalid file type")
    ensures r.Success? <==>
      && file.mimeType in Constants.AcceptedFileTypes && image.Success?
      && (ResearchConsent(consent) ==> FileToBase64(file, read).Success?)
      && log(FallbackLogged(file, consent, image.value, read, strip, dr)).Success?
    ensures r.Success? ==> r.value == FallbackResult(dr)
    // with research consent, a file that cannot be read fails the analysis before anything is logged
    ensures (file.mimeType in Constants.AcceptedFileTypes && image.Success? && ResearchConsent(consent)
      && FileToBase64(file, read).Failure?) ==> r == Failure(FileToBase64(file, read).error)
  {
    if file.mimeType !in Constants.AcceptedFileTypes then Failure("Invalid file type")
    else if image.Failure? then Failure(image.error)
    else if ResearchConsent(consent) && FileToBase64(file, read).Failure? then
      Failure(FileToBase64(file, read).error)
    else match log(FallbackLogged(file, consent, image.value, read, strip, dr))
      case Failure(e) => Failure(e)
      case Success(_) => Success(FallbackResult(dr))
  }

  /** What the fallback sends on for storage agrees with what it shows:
      the record carries the shown confidence and classification, and the
      image data reaches it exactly when research consent was given and the
      file read back as a non-empty data URL, which is then what is kept */
  lemma FallbackLogsImageIffConsented(file: ClientFile, consent: map<string, bool>, image: Dimensions,
                                      read: Result<string, string>, strip: string -> string, dr: FallbackDraws)
    requires dr.Valid()
    ensures var res := FallbackResult(dr);
      var shaped := ShapeAnalysisData(FallbackLogged(file, consent, image, read, strip, dr), strip);
      && shaped.0.confidence == res.confidence && shaped.0.aiDetected == res.isAI
      && shaped.0.researchConsent == ResearchConsent(consent)
      && (shaped.1.Some? <==>
            ResearchConsent(consent) && file.size <= Constants.MaxFileSize && read.Success? && read.value != "")
      && (shaped.1.Some? ==> shaped.1 == Some(read.value))
  {
  }

  /** `analyzeImage(file, consent)`: the backend's answer when it has one,
      otherwise whatever the fallback gives */
  function AnalyzeImage(backend: Result<ClientResult, string>, file: ClientFile, consent: map<string, bool>,
                        image: Result<Dimensions, string>, read: Result<string, string>,
                        log: AnalysisData -> Result<(), string>, strip: string -> string, dr: FallbackDraws)
    : (r: Result<ClientResult, string>)
    requires dr.Valid()
    ensures backend.Success? ==> r == backend
    ensures backend.Failure? ==> r == AnalyzeImageFallback(file, consent, image, read, log, strip, dr)
    // the caller sees an error only when both paths fail
    ensures r.Failure? ==>
      backend.Failure? && AnalyzeImageFallback(file, consent, image, read, log, strip, dr).Failure?
    // an answer the backend did not give is the fallback's: confidence in [70, 99], AI on a draw over 0.4
    ensures backend.Failure? && r.Success? ==>
      && 70 <= r.value.confidence <= 99 && r.value.isAI == (dr.aiDraw > 0.4)
      && r.value.verdict == FallbackVerdict(r.value.isAI)
  {
    if backend.Success? then backend else AnalyzeImageFallback(file, consent, image, read, log, strip, dr)
  }

  /** The fallback's verdict and explanation are functions of the
      classification that tell its two values apart */
  lemma FallbackWordingDistinguishes(x: bool, y: bool)
    ensures FallbackVerdict(x) == FallbackVerdict(y) <==> x == y
    ensures FallbackExplanation(x) == FallbackExplanation(y) <==> x == y
  {
    if x != y {
      assert FallbackVerdict(true)[7] != FallbackVerdict(false)[7];
      assert |FallbackExplanation(true)| != |FallbackExplanation(false)|;
    }
  }

  // ------------------------------------------------------ airtable config

  /** `saveAirtableConfig(baseId, accessToken)`: the outcome, the session
      after the admin check, and the two values stored */
  function SaveAirtableConfig(session: map<string, string>, now: int, baseId: Option<string>,
                              accessToken: Option<string>, strip: string -> string)
    : (r: (Result<(string, string), string>, map<string, string>))
    ensures r.1 == IsAdminAuthenticated(session, now).1
    ensures !IsAdminAuthenticated(session, now).0 ==> r.0 == Failure("Admin authentication required")
    ensures r.0.Success? <==>
      && IsAdminAuthenticated(session, now).0
      && baseId.Some? && accessToken.Some?
      && StartsWith(baseId.value, "app") && StartsWith(accessToken.value, "pat")
    ensures r.0.Success? ==> r.0.value == (strip(baseId.value), strip(accessToken.value))
  {
    var (ok, session') := IsAdminAuthenticated(session, now);
    if !ok then (Failure("Admin authentication required"), session')
    else if baseId.None? || accessToken.None? || baseId.value == "" || accessToken.value == "" then
      (Failure("Base ID and Access Token are required"), session')
    else if !StartsWith(baseId.value, "app") then
      (Failure("Invalid Base ID format. Should start with \"app\""), session')
    else if !StartsWith(accessToken.value, "pat") then
      (Failure("Invalid Access Token format. Should start with \"pat\""), session')
    else (Success((strip(baseId.value), strip(accessToken.value))), session')
  }

  // ---------------------------------------------------------- data deletion

  const DeletionMessage: string :=
    "Data deletion from Airtable requires manual intervention. Please contact support with your delete code."

  /** `deleteUserData(code)`: it always rejects */
  function DeleteUserData(code: string): (r: Result<(), string>)
    ensures r.Failure?
  {
    Failure(DeletionMessage)
  }
}

=== FILE: client_validation.dfy ===
/** `validateImageFile` of the browser client: four synchronous checks that
    throw, then a promise that reads the first twelve bytes and compares
    them with the signature table. */
module ClientValidation {
  import opened Wrappers
  import opened Text
  import opened Signatures
  import Constants

  /** A browser `File`, or a `Blob`, which has no name */
  datatype ClientFile = ClientFile(name: Option<string>, mimeType: string, size: nat, bytes: seq<bv8>)

  datatype ClientError =
    | NoFile
    | InvalidType
    | TooLarge
    | NameMissing        // `file.name.length` on a nameless Blob: a TypeError
    | FilenameTooLong
    | SignatureMismatch
    | ReadFailed
  {
    function Message(): string {
      match this
      case NoFile => "No file provided"
      case InvalidType => "Please upload a valid image file (JPG, PNG, WEBP)"
      case TooLarge => "File size must be less than 10MB"
      case NameMissing => "Cannot read properties of undefined (reading 'length')"
      case FilenameTooLong => "Filename too long"
      case SignatureMismatch => "File signature does not match declared type"
      case ReadFailed => "File validation failed"
    }

    /** The position of the check that raises this error; the name checks
        share one position and exclude each other */
    function Stage(): nat {
      match this
      case NoFile => 0
      case InvalidType => 1
      case TooLarge => 2
      case NameMissing => 3
      case FilenameTooLong => 3
      case SignatureMismatch => 4
      case ReadFailed => 4
    }
  }

  /** What calling `validateImageFile` does: throw at once, or return a
      promise that resolves to `true` or rejects */
  datatype Outcome = Thrown(error: ClientError) | Resolved | Rejected(error: ClientError)

  /** Whether the synchronous check that raises `e` fails for `file`, each
      check taken on its own */
  predicate Fails(file: Option<ClientFile>, e: ClientError) {
    match e
    case NoFile => file.None?
    case InvalidType => file.Some? && file.value.mimeType !in Constants.AcceptedFileTypes
    case TooLarge => file.Some? && file.value.size > Constants.MaxFileSize
    case NameMissing => file.Some? && file.value.name.None?
    case FilenameTooLong => file.Some? && file.value.name.Some? && Utf16Length(file.value.name.value) > 255
    case SignatureMismatch => false
    case ReadFailed => false
  }

  /** The synchronous part: the first failing check, in source order */
  function SyncCheck(file: Option<ClientFile>): (r: Option<ClientError>)
    ensures r.Some? ==> Fails(file, r.value)
    ensures r.Some? ==> forall e: ClientError :: e.Stage() < r.value.Stage() ==> !Fails(file, e)
    ensures r.None? <==> forall e: ClientError :: !Fails(file, e)
  {
    if file.None? then assert Fails(file, NoFile); Some(NoFile)
    else
      var f := file.value;
      if f.mimeType !in Constants.AcceptedFileTypes then assert Fails(file, InvalidType); Some(InvalidType)
      else if f.size > Constants.MaxFileSize then assert Fails(file, TooLarge); Some(TooLarge)
      else if f.name.None? then assert Fails(file, NameMissing); Some(NameMissing)
      else if Utf16Length(f.name.value) > 255 then assert Fails(file, FilenameTooLong); Some(FilenameTooLong)
      else None
  }

  /** `validateImageFile(file)`; `readOk` is whether the `FileReader` loads */
  function ValidateImageFile(file: Option<ClientFile>, readOk: bool): (r: Outcome)
    ensures r.Thrown? <==> exists e: ClientError :: Fails(file, e)
    ensures r.Resolved? <==>
      && file.Some?
      && (forall e: ClientError :: !Fails(file, e))
      && readOk
      && Signature(file.value.mimeType).Some?
      && HasPrefix(file.value.bytes, Signature(file.value.mimeType).value)
    ensures r.Rejected? ==> r.error == (if readOk then SignatureMismatch else ReadFailed)
    ensures file.Some? && file.value.mimeType == "image/jpg" ==> !r.Resolved?
  {
    match SyncCheck(file)
    case Some(e) => Thrown(e)
    case None =>
      var f := file.value;
      if !readOk then Rejected(ReadFailed)
      else
        var head := Head(f.bytes, 12);
        var sig := Signature(f.mimeType);
        var table := if sig.Some? then sig.value else [];
        EveryMatchesIff(table, f.bytes);
        HeadPreservesMatch(table, f.bytes, 12);
        if sig.Some? && EveryMatches(sig.value, head) then Resolved
        else Rejected(SignatureMismatch)
  }
}

=== FILE: constants.dfy ===
/** The application-wide constants of `src/constants/index.js`. */
module Constants {

  /** 10 MiB */
  const MaxFileSize: nat := 10 * 1024 * 1024

  /** The MIME allow-list; `image/jpg` is accepted although no browser emits it */
  const AcceptedFileTypes: seq<string> := ["image/jpeg", "image/jpg", "image/png", "image/webp"]

  /** The one consent key the application reads */
  const ResearchTraining: string := "research_training"

  datatype FeedbackType = Accurate | Inaccurate {
    function Name(): string {
      match this
      case Accurate => "accurate"
      case Inaccurate => "inaccurate"
    }
  }

  datatype AnalysisStatus = Idle | Analyzing | Complete | Error

}

=== FILE: cors.dfy ===
/** The CORS policy of the main server: which origins are trusted, the
    headers built for a request, and the middleware that applies them. */
module Cors {
  import opened Wrappers
  import opened Text

  const DevOrigin: string := "http://localhost:3000"
  const ProductionOrigins: set<string> := {"https://exposrmvp.vercel.app", "https://www.exposrai.com"}
  const PreviewPrefix: string := "https://exposrmvp-"
  const PreviewMarker: string := ".oshaea30s-projects.vercel.app"

  /** `isAllowedOrigin(origin)` under `NODE_ENV = nodeEnv`; an absent or
      empty origin is refused */
  function IsAllowedOrigin(origin: Option<string>, nodeEnv: Option<string>): (ok: bool)
    ensures ok ==> origin.Some? && origin.value != ""
    // the two production sites are trusted in every environment
    ensures origin.Some? && origin.value in ProductionOrigins ==> ok
    // anything else trusted is the local front end in development or a preview deployment
    ensures ok && origin.value !in ProductionOrigins ==>
      (origin.value == DevOrigin && nodeEnv == Some("development"))
      || (StartsWith(origin.value, PreviewPrefix) && Contains(origin.value, PreviewMarker))
  {
    match origin
    case None => false
    case Some(o) =>
      if o == "" then false
      else if o == DevOrigin && nodeEnv == Some("development") then true
      else if o in ProductionOrigins then true
      else StartsWith(o, PreviewPrefix) && Contains(o, PreviewMarker)
  }

  /** Outside development every trusted origin is an `https` one */
  lemma TrustedOriginsAreHttps(o: string, nodeEnv: Option<string>)
    requires IsAllowedOrigin(Some(o), nodeEnv) && nodeEnv != Some("development")
    ensures StartsWith(o, "https://")
  {
    if o !in ProductionOrigins {
      assert o[..|PreviewPrefix|] == PreviewPrefix;
      assert o[..8] == PreviewPrefix[..8];
    }
  }

  /** The local front end is trusted in development and nowhere else */
  lemma DevOriginOnlyInDevelopment(nodeEnv: Option<string>)
    ensures IsAllowedOrigin(Some(DevOrigin), nodeEnv) <==> nodeEnv == Some("development")
  {
    assert !StartsWith(DevOrigin, PreviewPrefix) by {
      assert DevOrigin[4] != PreviewPrefix[4];
    }
  }

  /** The preview marker may occur anywhere after the prefix, so every host
      that merely contains it is trusted too, whatever surrounds it */
  lemma PreviewMarkerNotAnchored(t: string, u: string, nodeEnv: Option<string>)
    ensures IsAllowedOrigin(Some(PreviewPrefix + t + PreviewMarker + u), nodeEnv)
  {
    var o := PreviewPrefix + t + PreviewMarker + u;
    assert o[..|PreviewPrefix|] == PreviewPrefix;
    assert o[|PreviewPrefix| + |t|..|PreviewPrefix| + |t| + |PreviewMarker|] == PreviewMarker;
    ContainsWitness(o, PreviewMarker, |PreviewPrefix| + |t|);
  }

  /** An origin with the preview prefix is trusted exactly when the marker
      occurs in it, in every environment */
  lemma PreviewOriginIff(t: string, nodeEnv: Option<string>)
    ensures IsAllowedOrigin(Some(PreviewPrefix + t), nodeEnv) <==> Contains(PreviewPrefix + t, PreviewMarker)
  {
    var o := PreviewPrefix + t;
    assert o[..|PreviewPrefix|] == PreviewPrefix;
    assert o != DevOrigin by { assert o[4] != DevOrigin[4]; }
    assert o != "https://exposrmvp.vercel.app" by { assert o[17] == '-'; }
    assert o != "https://www.exposrai.com" by { assert o[8] == 'e'; }
  }

  const AllowHeaders: string := "Content-Type, Authorization, X-Requested-With"
  const AllowMethods: string := "GET, POST, PUT, PATCH, DELETE, OPTIONS"
  const MaxAge: string := "86400"

  /** The headers that go on every response */
  function BaseCorsHeaders(): (h: map<string, string>)
    ensures h.Keys == {"Access-Control-Allow-Headers", "Access-Control-Allow-Methods", "Access-Control-Max-Age"}
  {
    map["Access-Control-Allow-Headers" := AllowHeaders,
        "Access-Control-Allow-Methods" := AllowMethods,
        "Access-Control-Max-Age" := MaxAge]
  }

  /** `buildCorsHeaders(originHeader)` */
  function BuildCorsHeaders(origin: Option<string>, nodeEnv: Option<string>): (h: map<string, string>)
    ensures forall k :: k in BaseCorsHeaders() ==> k in h && h[k] == BaseCorsHeaders()[k]
    ensures IsAllowedOrigin(origin, nodeEnv) ==>
      && h.Keys == BaseCorsHeaders().Keys + {"Access-Control-Allow-Origin", "Vary", "Access-Control-Allow-Credentials"}
      && h["Access-Control-Allow-Origin"] == origin.value
      && h["Vary"] == "Origin" && h["Access-Control-Allow-Credentials"] == "true"
    ensures !IsAllowedOrigin(origin, nodeEnv) ==> h == BaseCorsHeaders()
  {
    var base := BaseCorsHeaders();
    if IsAllowedOrigin(origin, nodeEnv) then
      base["Access-Control-Allow-Origin" := origin.value]["Vary" := "Origin"]
          ["Access-Control-Allow-Credentials" := "true"]
    else base
  }

  /** Credentials are offered only together with the echoed, trusted
      origin, never with a wildcard */
  lemma CredentialsOnlyForTrustedOrigin(origin: Option<string>, nodeEnv: Option<string>)
    requires "Access-Control-Allow-Credentials" in BuildCorsHeaders(origin, nodeEnv)
    ensures IsAllowedOrigin(origin, nodeEnv)
    ensures BuildCorsHeaders(origin, nodeEnv)["Access-Control-Allow-Origin"] == origin.value != "*"
  {
    assert "Access-Control-Allow-Credentials" !in BaseCorsHeaders();
    assert !StartsWith("*", PreviewPrefix);
  }

  datatype MiddlewareOutcome = Preflight(status: nat, headers: map<string, string>) | Continue(headers: map<string, string>)

  /** The CORS middleware: the CORS headers go onto the response, `Vary:
      Origin` is set in every case, and a preflight is answered at once */
  function CorsMiddleware(verb: string, origin: Option<string>, nodeEnv: Option<string>,
                          headers: map<string, string>): (r: MiddlewareOutcome)
    ensures "Vary" in r.headers && r.headers["Vary"] == "Origin"
    ensures r.Preflight? <==> verb == "OPTIONS"
    ensures r.Preflight? ==> r.status == 204
    ensures forall k :: k in BuildCorsHeaders(origin, nodeEnv) ==> k in r.headers
    ensures forall k :: k in headers && k !in BuildCorsHeaders(origin, nodeEnv) && k != "Vary" ==>
      k in r.headers && r.headers[k] == headers[k]
  {
    var h := (headers + BuildCorsHeaders(origin, nodeEnv))["Vary" := "Origin"];
    if verb == "OPTIONS" then Preflight(204, h) else Continue(h)
  }
}

=== FILE: deletion_page.dfy ===
/** `DataDeletionPage.js`: the form that asks for a delete code. */
module DeletionPage {
  import opened Wrappers
  import opened Text
  import ClientUtils

  datatype Status = Idle | Deleting | Succeeded | Failed

  datatype Page = Page(code: string, status: Status, message: string)

  const Initial: Page := Page("", Idle, "")

  const BlankCode: string := "Please enter a valid delete code"
  const Deleted: string := "Your data has been successfully deleted."
  const NotFound: string := "Delete code not found or data already deleted."

  /** `handleDelete(e)` given how `deleteUserData` settles: the page
      afterwards and the code sent, if any */
  function Submit(p: Page, outcome: Result<(), string>): (r: (Page, Option<string>))
    ensures Trim(p.code) == [] ==> r == (Page(p.code, Failed, BlankCode), None)
    ensures Trim(p.code) != [] ==> r.1 == Some(Trim(p.code))
    ensures Trim(p.code) != [] && outcome.Success? ==> r.0 == Page("", Succeeded, Deleted)
    ensures Trim(p.code) != [] && outcome.Failure? ==> r.0 == Page(p.code, Failed, NotFound)
    ensures r.0.status == Succeeded ==> outcome.Success?
  {
    if Trim(p.code) == [] then (p.(status := Failed, message := BlankCode), None)
    else
      match outcome
      case Success(_) => (Page("", Succeeded, Deleted), Some(Trim(p.code)))
      case Failure(_) => (p.(status := Failed, message := NotFound), Some(Trim(p.code)))
  }

  /** `handleDelete(e)` with the client's `deleteUserData` */
  function HandleDelete(p: Page): (r: (Page, Option<string>))
    ensures r.1.Some? <==> !AllWhitespace(p.code)
  {
    TrimEmptyIff(p.code);
    Submit(p, ClientUtils.DeleteUserData(Trim(p.code)))
  }

  /** Since the client's deletion call always rejects, the page never
      reports success: a blank code gets the prompt, any other the
      not-found message, and the typed code stays in the box */
  lemma DeletionNeverSucceeds(p: Page)
    ensures HandleDelete(p).0.status == Failed && HandleDelete(p).0.code == p.code
    ensures HandleDelete(p).0.message == if AllWhitespace(p.code) then BlankCode else NotFound
  {
    TrimEmptyIff(p.code);
  }
}

=== FILE: feedback.dfy ===
/** The `FeedbackSection` widget of `AnalysisResults.js` and the share URL
    of `ShareSection`. Each handler runs to completion in one step; the
    outcome of `submitFeedback` is a parameter of the event. */
module Feedback {
  import opened Wrappers
  import opened Text
  import opened Constants
  import Location

  /** The widget's four state hooks and the parent's `feedbackSubmitted` */
  datatype Widget = Widget(
    given: Option<FeedbackType>, showCommentBox: bool, comment: string, submitting: bool,
    submitted: bool)

  const Initial: Widget := Widget(None, false, "", false, false)

  /** A click on Yes or No, typing in the comment box, Submit or Skip */
  datatype Event =
    | Choose(choice: FeedbackType, ok: bool)
    | Type(text: string)
    | SubmitComment(ok: bool)
    | SkipComment(ok: bool)

  /** A `submitFeedback(analysisId, type, comment)` call */
  datatype Submission = Submission(feedbackType: Option<FeedbackType>, comment: string)

  datatype View = ThankYou | Question(buttons: bool, commentBox: bool)

  /** The thank-you view wins over everything; the buttons show only while
      no choice is recorded */
  function Render(w: Widget): (v: View)
    ensures v == ThankYou <==> w.submitted
    ensures v.Question? ==> (v.buttons <==> w.given.None?) && (v.commentBox <==> w.showCommentBox)
  {
    if w.submitted then ThankYou else Question(w.given.None?, w.showCommentBox)
  }

  /** The control the event needs is on screen */
  predicate Reachable(w: Widget, e: Event) {
    match Render(w)
    case ThankYou => false
    case Question(buttons, commentBox) => if e.Choose? then buttons else commentBox
  }

  /** The state the widget keeps between events */
  predicate Inv(w: Widget) {
    !w.submitting && (w.showCommentBox ==> w.given == Some(Inaccurate))
  }

  /** One event: the widget afterwards and the submission it makes, if any */
  function Step(w: Widget, e: Event): (r: (Widget, Option<Submission>))
    ensures !Reachable(w, e) ==> r == (w, None)
    ensures r.0.submitted ==> w.submitted || r.1.Some?
  {
    if !Reachable(w, e) then (w, None)
    else match e
      case Choose(t, ok) =>
        if w.given.Some? || w.submitting then (w, None)
        else if t == Inaccurate then (w.(given := Some(t), showCommentBox := true, submitting := false), None)
        else if ok then (w.(given := Some(t), submitting := false, submitted := true), Some(Submission(Some(t), "")))
        else (w.(given := None, submitting := false), Some(Submission(Some(t), "")))
      case Type(s) => (w.(comment := Take(s, 500)), None)
      case SubmitComment(ok) =>
        (w.(submitting := false, submitted := w.submitted || ok), Some(Submission(w.given, w.comment)))
      case SkipComment(ok) =>
        (w.(submitting := false, submitted := w.submitted || ok), Some(Submission(w.given, "")))
  }

  lemma StepKeepsInv(w: Widget, e: Event)
    requires Inv(w)
    ensures Inv(Step(w, e).0)
  {
  }

  /** Choosing "inaccurate" opens the comment box and sends nothing yet;
      choosing "accurate" sends at once with an empty comment, and a failed
      send brings the buttons back */
  lemma ChoiceOutcomes(w: Widget, ok: bool)
    requires Inv(w) && !w.submitted && w.given.None?
    ensures var (w', s) := Step(w, Choose(Inaccurate, ok));
      s.None? && w'.showCommentBox && Render(w') == Question(false, true)
    ensures var (w', s) := Step(w, Choose(Accurate, ok));
      s == Some(Submission(Some(Accurate), "")) && (ok <==> Render(w') == ThankYou)
      && (!ok ==> Render(w').buttons)
  {
  }

  /** A recorded choice turns further clicks into no-ops */
  lemma RepeatClickIgnored(w: Widget, c: FeedbackType, ok: bool)
    requires w.given.Some?
    ensures Step(w, Choose(c, ok)) == (w, None)
  {
  }

  /** Submit sends the typed comment and Skip an empty one, both with the
      recorded "inaccurate"; a failure leaves the box open */
  lemma CommentOutcomes(w: Widget, ok: bool)
    requires Inv(w) && !w.submitted && w.showCommentBox
    ensures var (w', s) := Step(w, SubmitComment(ok));
      s == Some(Submission(Some(Inaccurate), w.comment)) && (!ok ==> Render(w') == Render(w))
    ensures var (w', s) := Step(w, SkipComment(ok));
      s == Some(Submission(Some(Inaccurate), "")) && (!ok ==> Render(w') == Render(w))
  {
  }

  /** Events one after another: the final widget and every submission made */
  function Run(w: Widget, es: seq<Event>): (Widget, seq<Submission>)
    decreases |es|
  {
    if |es| == 0 then (w, [])
    else
      var step := Step(w, es[0]);
      var rest := Run(step.0, es[1..]);
      (rest.0, Sent(step.1) + rest.1)
  }

  function Sent(s: Option<Submission>): seq<Submission> {
    if s.Some? then [s.value] else []
  }

  /** Once thanked, the widget stays as it is and submits nothing more */
  lemma {:induction false} ThanksIsFinal(w: Widget, es: seq<Event>)
    requires w.submitted
    ensures Run(w, es) == (w, [])
    decreases |es|
  {
    if |es| > 0 {
      var step := Step(w, es[0]);
      assert step == (w, None);
      ThanksIsFinal(w, es[1..]);
      var rest := Run(step.0, es[1..]);
      assert rest == (w, []);
      assert Sent(step.1) + rest.1 == [];
    }
  }

  /** The invariant holds along every run from a widget that has it */
  lemma {:induction false} RunKeepsInv(w: Widget, es: seq<Event>)
    requires Inv(w)
    ensures Inv(Run(w, es).0)
    decreases |es|
  {
    if |es| > 0 {
      StepKeepsInv(w, es[0]);
      RunKeepsInv(Step(w, es[0]).0, es[1..]);
    }
  }

  // ------------------------------------------------------------- sharing

  /** `${window.location.origin}#share/${analysisId}` */
  function ShareUrl(origin: string, analysisId: string): (u: string)
    ensures Text.StartsWith(u, origin)
    ensures '#' !in origin ==> Location.FragmentOf(u) == "share/" + analysisId
  {
    var u := origin + "#share/" + analysisId;
    assert u[..|origin|] == origin;
    assert origin + "#" + ("share/" + analysisId) == u;
    if '#' in origin then u
    else Location.FragmentAfterFirstHash(origin, "share/" + analysisId); u
  }
}

=== FILE: ids.dfy ===
/** Identifier generators of the client and of the first server variant.
    The random bytes, the clock and the rendering of `Math.random()` are
    inputs. */
module Ids {
  import opened Text
  import opened Radix

  // ------------------------------------------------- client delete codes

  /** The bytes rendered one after another in base 36 (`byte.toString(36)`
      joined without separator) */
  function Base36Join(bytes: seq<bv8>): (r: string)
    ensures |bytes| <= |r| <= 2 * |bytes|
    ensures AllDigits(r, 36)
  {
    if |bytes| == 0 then []
    else
      ToRadixShort(bytes[0] as nat, 36);
      ToRadix(bytes[0] as nat, 36) + Base36Join(bytes[1..])
  }

  lemma {:induction false} Base36JoinAppend(a: seq<bv8>, b: seq<bv8>)
    ensures Base36Join(a + b) == Base36Join(a) + Base36Join(b)
  {
    if |a| > 0 {
      assert (a + b)[0] == a[0];
      assert (a + b)[1..] == a[1..] + b;
      Base36JoinAppend(a[1..], b);
    } else {
      assert a + b == b;
    }
  }

  /** `generateDeleteCode()` over the 16 bytes of `crypto.getRandomValues` */
  function GenerateDeleteCode(bytes: seq<bv8>): (r: string)
    requires |bytes| == 16
    ensures |r| == 15
    ensures AllDigits(r, 36)
  {
    Substring(Base36Join(bytes), 0, 15)
  }

  /** Each byte yields at least one digit, so the first fifteen bytes already
      fill the code: the sixteenth never shows */
  lemma DeleteCodeIgnoresLastByte(bytes: seq<bv8>, other: bv8)
    requires |bytes| == 16
    ensures GenerateDeleteCode(bytes[..15] + [other]) == GenerateDeleteCode(bytes)
  {
    var a := bytes[..15];
    assert bytes == a + [bytes[15]];
    Base36JoinAppend(a, [bytes[15]]);
    Base36JoinAppend(a, [other]);
    var ja := Base36Join(a);
    assert (ja + Base36Join([other]))[..15] == ja[..15];
    assert (ja + Base36Join([bytes[15]]))[..15] == ja[..15];
  }

  // ------------------------------------------- `Math.random().toString(36)`

  /** What `Math.random().toString(36)` can print: `"0"`, or `"0."` and base-36
      fraction digits */
  predicate RandomRendering(s: string) {
    s == "0" || (|s| >= 2 && s[..2] == "0." && AllDigits(s[2..], 36))
  }

  /** `Math.random().toString(36).substring(2, 15)`, the analysis id and
      delete code of the first server variant: at most 13 base-36 digits,
      empty in the one case the draw is zero */
  function RandomId(rendered: string): (r: string)
    requires RandomRendering(rendered)
    ensures |r| <= 13
    ensures AllDigits(r, 36)
    ensures |rendered| >= 15 ==> |r| == 13
    ensures r == [] <==> rendered == "0" || |rendered| == 2
  {
    var r := Substring(rendered, 2, 15);
    assert rendered != "0" ==> r == rendered[2..][..|r|];
    r
  }

  // ----------------------------------------------------- mock analysis ids

  /** `generateAnalysisId()`: `'EXP-'`, the clock in base 36, `'-'`, and up to
      five fraction digits of a draw */
  function GenerateAnalysisId(now: nat, rendered: string): (r: string)
    requires RandomRendering(rendered)
    ensures StartsWith(r, "EXP-")
  {
    "EXP-" + ToRadix(now, 36) + "-" + Substr(rendered, 2, 5)
  }

  /** The id splits at `-` into its three parts, and the time can be read
      back from the middle one */
  lemma AnalysisIdReadsBack(now: nat, rendered: string)
    requires RandomRendering(rendered)
    ensures var parts := Split(GenerateAnalysisId(now, rendered), '-');
      |parts| == 3 && parts[0] == "EXP" && FromRadix(parts[1], 36) == now
  {
    var t := ToRadix(now, 36);
    var tail := Substr(rendered, 2, 5);
    NoDashInDigits(t);
    if rendered == "0" {
      assert tail == [];
    } else {
      assert forall i :: 0 <= i < |tail| ==> tail[i] == rendered[2..][i];
      NoDashInDigits(tail);
    }
    var parts := ["EXP", t, tail];
    assert parts[1..] == [t, tail] && parts[1..][1..] == [tail];
    assert Join([tail], '-') == tail;
    assert Join([t, tail], '-') == t + "-" + tail;
    assert Join(parts, '-') == "EXP" + "-" + Join([t, tail], '-');
    assert GenerateAnalysisId(now, rendered) == Join(parts, '-');
    SplitJoin(parts, '-');
    FromToRadix(now, 36);
  }

  lemma NoDashInDigits(s: string)
    requires AllDigits(s, 36)
    ensures '-' !in s
  {
  }
}

=== FILE: location.dfy ===
/** The part of `window.location` the client reads: the fragment after the
    first `#`. */
module Location {

  /** `window.location.hash.slice(1)`: the text after the first `#`, or
      nothing when the URL has none */
  function FragmentOf(url: string): (f: string)
    ensures |f| <= |url|
    ensures '#' !in url ==> f == ""
  {
    if |url| == 0 then ""
    else if url[0] == '#' then url[1..]
    else FragmentOf(url[1..])
  }

  /** Whatever precedes it, the fragment is everything after the first `#` */
  lemma {:induction false} FragmentAtFirstHash(url: string, i: nat)
    requires i < |url| && url[i] == '#' && '#' !in url[..i]
    ensures FragmentOf(url) == url[i + 1..]
    decreases i
  {
    if i > 0 {
      assert url[0] == url[..i][0];
      var tail := url[1..];
      assert tail[i - 1] == '#';
      assert tail[..i - 1] == url[..i][1..];
      FragmentAtFirstHash(tail, i - 1);
      assert tail[i..] == url[i + 1..];
    }
  }

  /** A URL built as `origin#rest`, with no `#` in the origin, has `rest`
      as its fragment */
  lemma FragmentAfterFirstHash(origin: string, rest: string)
    requires '#' !in origin
    ensures FragmentOf(origin + "#" + rest) == rest
  {
    var url := origin + "#" + rest;
    assert url[..|origin|] == origin;
    assert url[|origin| + 1..] == rest;
    FragmentAtFirstHash(url, |origin|);
  }
}

=== FILE: mock_analysis.dfy ===
/** The client's mock classifier `analyzeImageMock`: a weighted choice of
    outcome, a confidence band and wording per outcome, a few distinct
    evidence lines from that outcome's pool, and fixed technical details.
    Every `Math.random()` is an input draw. */
module MockAnalysis {
  import opened Wrappers
  import opened Text
  import opened Radix
  import opened Draws
  import Ids

  datatype Bucket = Human | Ai | Inconclusive

  const HumanPool: seq<string> := [
    "Natural camera noise and grain patterns detected",
    "Authentic EXIF metadata with camera sensor information",
    "Realistic lighting inconsistencies typical of photography",
    "Natural compression artifacts from camera processing",
    "Organic color variations and imperfections",
    "Authentic depth of field and focus characteristics",
    "Real-world optical distortions and aberrations",
    "Natural skin texture and pore detail variations",
    "Authentic shadow patterns and light physics",
    "Genuine environmental reflections and lighting"]

  const AiPool: seq<string> := [
    "Signature smoothing patterns typical of diffusion models",
    "Abnormal pixel distributions consistent with GAN generation",
    "Missing or corrupted EXIF metadata",
    "Over-perfect symmetry uncommon in natural photography",
    "Telltale compression artifacts from AI upscaling",
    "Unnatural color gradients typical of neural networks",
    "Anatomical inconsistencies common in AI generation",
    "Repetitive texture patterns characteristic of AI models",
    "Impossible lighting scenarios that defy physics",
    "Blending artifacts around object boundaries",
    "Facial features showing AI generation hallmarks",
    "Background elements with AI-typical distortions"]

  const InconclusivePool: seq<string> := [
    "Mixed compression signatures from multiple sources",
    "Partial metadata suggesting post-processing",
    "Some regions show AI characteristics, others appear natural",
    "Ambiguous texture patterns that could be either source",
    "Conflicting evidence from different analysis methods",
    "Low resolution limiting detailed analysis capability",
    "Heavy post-processing masking original source indicators",
    "Quality degradation affecting detection accuracy"]

  function Pool(b: Bucket): (p: seq<string>)
    ensures |p| >= 8
  {
    match b
    case Human => HumanPool
    case Ai => AiPool
    case Inconclusive => InconclusivePool
  }

  /** The weighted choice: 0.45 human, then 0.35 AI, the rest inconclusive */
  function ChooseBucket(r: real): (b: Bucket)
    ensures b == Human <==> r < 0.45
    ensures b == Ai <==> 0.45 <= r < 0.80
    ensures b == Inconclusive <==> r >= 0.80
  {
    if r < 0.45 then Human else if r < 0.45 + 0.35 then Ai else Inconclusive
  }

  /** The lowest confidence of each bucket and the width of its band */
  function ConfidenceBase(b: Bucket): nat {
    match b
    case Human => 75
    case Ai => 70
    case Inconclusive => 45
  }

  function ConfidenceSpan(b: Bucket): nat {
    match b
    case Human => 20
    case Ai => 25
    case Inconclusive => 30
  }

  function Confidence(b: Bucket, r: real): (c: nat)
    requires IsDraw(r)
    ensures b == Human ==> 75 <= c <= 94
    ensures b == Ai ==> 70 <= c <= 94
    ensures b == Inconclusive ==> 45 <= c <= 74
  {
    ConfidenceBase(b) + Pick(r, ConfidenceSpan(b))
  }

  function Verdict(b: Bucket): string {
    match b
    case Human => "Likely Human-Created"
    case Ai => "AI-Generated"
    case Inconclusive => "Inconclusive"
  }

  function Explanation(b: Bucket): string {
    match b
    case Human => "This image appears to be created by a human. No AI traces found."
    case Ai => "AI-generated image detected. This image shows traits consistent with diffusion models like Midjourney or DALL·E."
    case Inconclusive => "Analysis inconclusive. This image has both real and synthetic characteristics."
  }

  /** No line of a pool is repeated */
  lemma PoolLinesDistinct(b: Bucket)
    ensures forall i, j :: 0 <= i < j < |Pool(b)| ==> Pool(b)[i] != Pool(b)[j]
  {
  }

  // -------------------------------------------------------------- evidence

  /** No position occurs twice */
  predicate Distinct(xs: seq<nat>) {
    forall i, j :: 0 <= i < j < |xs| ==> xs[i] != xs[j]
  }

  /** The evidence loop: draw a position of `pool`, keep it unless already chosen (`usedIndices`), until
      `count` lines are chosen or the pool is exhausted. `draws` are the
      loop's `Math.random()` values; `complete` is false when they run out
      first (the loop itself would go on drawing). */
  method SelectEvidence(pool: seq<string>, count: nat, draws: seq<real>)
    returns (evidence: seq<string>, positions: seq<nat>, complete: bool)
    requires |pool| > 0 && AllDraws(draws)
    ensures |evidence| == |positions| <= count && |evidence| <= |pool|
    ensures Distinct(positions)
    ensures forall i :: 0 <= i < |positions| ==> positions[i] < |pool| && evidence[i] == pool[positions[i]]
    ensures complete <==> |evidence| == count || |evidence| == |pool|
  {
    evidence, positions := [], [];
    var k := 0;
    while (|evidence| < count && |evidence| < |pool|) && k < |draws|
      invariant 0 <= k <= |draws|
      invariant |evidence| == |positions| <= count && |evidence| <= |pool|
      invariant Distinct(positions)
      invariant forall i :: 0 <= i < |positions| ==> positions[i] < |pool| && evidence[i] == pool[positions[i]]
      decreases |draws| - k
    {
      var index := Pick(draws[k], |pool|);
      if index !in positions {
        evidence := evidence + [pool[index]];
        positions := positions + [index];
      }
      k := k + 1;
    }
    complete := |evidence| == count || |evidence| == |pool|;
  }

  // ----------------------------------------------------- technical details

  datatype TechnicalDetails = TechnicalDetails(format: string, exifData: string, compressionType: string, noiseAnalysis: string)

  /** `file.type.split('/')[1]?.toUpperCase() || 'UNKNOWN'` */
  function FormatOf(mimeType: string): (f: string)
    ensures f != ""
  {
    var parts := Split(mimeType, '/');
    if |parts| >= 2 && parts[1] != "" then ToUpper(parts[1]) else "UNKNOWN"
  }

  /** A `type/subtype` MIME type shows its subtype in capitals */
  lemma FormatOfSubtype(top: string, sub: string)
    requires '/' !in top && '/' !in sub && sub != ""
    ensures FormatOf(top + "/" + sub) == ToUpper(sub)
  {
    assert top + "/" + sub == Join([top, sub], '/');
    SplitJoin([top, sub], '/');
  }

  /** A type with no `/` has no subtype */
  lemma FormatOfBareType(t: string)
    requires '/' !in t
    ensures FormatOf(t) == "UNKNOWN"
  {
    SplitJoin([t], '/');
  }

  function TechnicalDetailsFor(mimeType: string, b: Bucket): (d: TechnicalDetails)
    ensures d.format == FormatOf(mimeType)
  {
    match b
    case Human => TechnicalDetails(FormatOf(mimeType), "Present and valid", "Camera-native JPEG", "Natural sensor noise detected")
    case Ai => TechnicalDetails(FormatOf(mimeType), "Missing or synthetic", "AI-processed compression", "Artificial noise patterns")
    case Inconclusive => TechnicalDetails(FormatOf(mimeType), "Partially present", "Mixed compression signatures", "Ambiguous noise patterns")
  }

  // ------------------------------------------------------------ the result

  datatype MockResult = MockResult(
    verdict: string, confidence: nat, explanation: string, evidence: seq<string>,
    isAI: bool, isInconclusive: bool, details: TechnicalDetails, analysisId: string)

  const MockFailure: string :=
    "Analysis failed. Our servers are experiencing high load. Please try again in a moment."

  /** `analyzeImageMock(file)`. `failDraw`, `bucketDraw`, `confidenceDraw`
      and `countDraw` are its first four draws after the delay,
      `evidenceDraws` the evidence loop's, `now` and `idRendering` feed
      `generateAnalysisId()`. `None` stands for a run whose evidence loop
      needs more draws than given. */
  method AnalyzeImageMock(mimeType: string, failDraw: real, bucketDraw: real, confidenceDraw: real,
                          countDraw: real, evidenceDraws: seq<real>, now: nat, idRendering: string)
    returns (r: Option<Result<MockResult, string>>)
    requires IsDraw(failDraw) && IsDraw(bucketDraw) && IsDraw(confidenceDraw) && IsDraw(countDraw)
    requires AllDraws(evidenceDraws) && Ids.RandomRendering(idRendering)
    ensures failDraw < 0.1 ==> r == Some(Failure(MockFailure))
    ensures failDraw >= 0.1 ==> r.None? || r.value.Success?
    ensures r.Some? && r.value.Success? ==>
      var m := r.value.value;
      var b := ChooseBucket(bucketDraw);
      && failDraw >= 0.1
      && m.isAI == (b == Ai) && m.isInconclusive == (b == Inconclusive)
      && m.confidence == Confidence(b, confidenceDraw)
      && m.verdict == Verdict(b) && m.explanation == Explanation(b)
      && 3 <= |m.evidence| <= 4
      && (forall i :: 0 <= i < |m.evidence| ==> m.evidence[i] in Pool(b))
      && (forall i, j :: 0 <= i < j < |m.evidence| ==> m.evidence[i] != m.evidence[j])
      && m.details == TechnicalDetailsFor(mimeType, b)
      && StartsWith(m.analysisId, "EXP-")
  {
    if failDraw < 0.1 {
      return Some(Failure(MockFailure));
    }
    var b := ChooseBucket(bucketDraw);
    var count := 3 + Pick(countDraw, 2);
    var evidence, positions, complete := SelectEvidence(Pool(b), count, evidenceDraws);
    if !complete {
      return None;
    }
    PoolLinesDistinct(b);
    r := Some(Success(MockResult(Verdict(b), Confidence(b, confidenceDraw), Explanation(b), evidence,
                                 b == Ai, b == Inconclusive, TechnicalDetailsFor(mimeType, b),
                                 Ids.GenerateAnalysisId(now, idRendering))));
  }

  /** The two flags never hold together, and the AI flag agrees with the
      verdict */
  lemma FlagsExclusive(b: Bucket)
    ensures !(b == Ai && b == Inconclusive)
    ensures b == Ai <==> Verdict(b) == "AI-Generated"
  {
    assert Verdict(Human)[0] != 'A';
    assert Verdict(Inconclusive)[0] != 'A';
  }
}

=== FILE: numbers.dfy ===
/** `parseInt(s)` without a radix argument, with `NaN` as `None`. Values are
    unbounded: the loss of precision of large doubles is not modelled. */
module Numbers {
  import opened Wrappers
  import opened Text
  import opened Radix

  /** The longest prefix of `s` made of digits of base `radix`, either case */
  function DigitPrefix(s: string, radix: nat): (p: string)
    ensures |p| <= |s| && p == s[..|p|]
    ensures AllDigits(ToLower(p), radix)
    ensures |p| < |s| ==> !IsDigit(LowerChar(s[|p|]), radix)
  {
    if |s| > 0 && IsDigit(LowerChar(s[0]), radix) then
      var rest := DigitPrefix(s[1..], radix);
      assert ToLower([s[0]] + rest)[1..] == ToLower(rest);
      [s[0]] + rest
    else []
  }

  /** `parseInt(s)`: leading whitespace and one sign are skipped, a `0x`
      prefix selects base 16, and the longest digit prefix is read; no digit
      at all is `NaN` */
  function ParseInt(s: string): Option<int> {
    ParseSigned(TrimStart(s))
  }

  function ParseSigned(t: string): Option<int> {
    if |t| > 0 && t[0] == '-' then
      match ParseUnsigned(t[1..])
      case Some(v) => Some(-(v as int))
      case None => None
    else if |t| > 0 && t[0] == '+' then Widen(ParseUnsigned(t[1..]))
    else Widen(ParseUnsigned(t))
  }

  function Widen(o: Option<nat>): Option<int> {
    match o
    case Some(v) => Some(v as int)
    case None => None
  }

  function ParseUnsigned(u: string): Option<nat> {
    if |u| >= 2 && u[0] == '0' && (u[1] == 'x' || u[1] == 'X') then ReadDigits(u[2..], 16)
    else ReadDigits(u, 10)
  }

  function ReadDigits(s: string, radix: nat): Option<nat> {
    var z := DigitPrefix(s, radix);
    if |z| == 0 then None else Some(FromRadix(ToLower(z), radix))
  }

  /** `parseInt(String(n))` reads back `n` */
  lemma ParseIntDecimal(n: int)
    ensures ParseInt(Decimal(n)) == Some(n)
  {
    var m: nat := if n < 0 then -n else n;
    var d := ToRadix(m, 10);
    FromToRadix(m, 10);
    ReadAllDigits(d);
    var s := Decimal(n);
    assert TrimStart(s) == s by {
      assert !IsWhitespace(s[0]);
    }
    if n < 0 {
      assert s[1..] == d;
    }
  }

  /** A plain decimal numeral reads as its value */
  lemma ReadAllDigits(d: string)
    requires |d| > 0 && AllDigits(d, 10)
    ensures ParseUnsigned(d) == Some(FromRadix(d, 10))
  {
    assert !(d[0] == '0' && |d| >= 2 && (d[1] == 'x' || d[1] == 'X')) by {
      if |d| >= 2 {
        assert IsDigit(d[1], 10);
      }
    }
    DigitPrefixAll(d, 10);
    LowerDigits(d, 10);
  }

  lemma {:induction false} DigitPrefixAll(s: string, radix: nat)
    requires AllDigits(s, radix)
    ensures DigitPrefix(s, radix) == s
  {
    if |s| > 0 {
      assert LowerChar(s[0]) == s[0];
      DigitPrefixAll(s[1..], radix);
    }
  }

  lemma LowerDigits(s: string, radix: nat)
    requires AllDigits(s, radix)
    ensures ToLower(s) == s
  {
  }
}

/** `Math.random()` draws, passed in as reals in `[0, 1)`. */
module Draws {

  predicate IsDraw(r: real) {
    0.0 <= r < 1.0
  }

  predicate AllDraws(rs: seq<real>) {
    forall i :: 0 <= i < |rs| ==> IsDraw(rs[i])
  }

  /** `Math.floor(r * k)`: a uniform index below `k` */
  function Pick(r: real, k: nat): (i: nat)
    requires IsDraw(r) && k > 0
    ensures i < k
  {
    var x := r * k as real;
    assert x < k as real;
    x.Floor
  }
}

=== FILE: progress_bar.dfy ===
/** `ui/ProgressBar.js`: the bar's colour and width for a value. Values
    are exact reals; `NaN` is not modelled. */
module ProgressBar {

  const Variants: set<string> := {"default", "success", "warning", "danger"}

  /** `getVariant()` */
  function AutoVariant(value: real): (v: string)
    ensures v == "success" <==> value > 80.0
    ensures v == "warning" <==> 60.0 < value <= 80.0
    ensures v == "danger" <==> value <= 60.0
  {
    if value > 80.0 then "success" else if value > 60.0 then "warning" else "danger"
  }

  /** The key the colour class is looked up by: `"default"` asks for the
      automatic choice, any other variant is used as given */
  function ColourKey(value: real, variant: string): (k: string)
    ensures variant != "default" ==> k == variant
    ensures variant == "default" ==> k == AutoVariant(value)
  {
    if variant == "default" then AutoVariant(value) else variant
  }

  /** The default variant's own gradient is never drawn, and an unknown
      variant gets no colour class */
  lemma DefaultGradientUnused(value: real, variant: string)
    ensures ColourKey(value, variant) != "default"
    ensures ColourKey(value, variant) in Variants <==> variant in Variants
  {
  }

  /** `Math.min(Math.max(value, 0), 100)` */
  function Width(value: real): (w: real)
    ensures 0.0 <= w <= 100.0
    ensures 0.0 <= value <= 100.0 ==> w == value
    ensures value < 0.0 ==> w == 0.0
    ensures value > 100.0 ==> w == 100.0
  {
    var lower := if value > 0.0 then value else 0.0;
    if lower < 100.0 then lower else 100.0
  }

  /** Clamping twice changes nothing */
  lemma WidthIdempotent(value: real)
    ensures Width(Width(value)) == Width(value)
  {
  }
}

=== FILE: radix.dfy ===
/** `Number.prototype.toString(radix)` for non-negative integers and Node's
    `Buffer.toString('hex')`, with their decoders as partners. */
module Radix {

  /** The digit for value `d` in JavaScript's lowercase digit alphabet */
  function DigitChar(d: nat): (c: char)
    requires d < 36
    ensures IsDigit(c, 36)
    ensures DigitValue(c) == d
  {
    if d < 10 then ('0' as int + d) as char else ('a' as int + d - 10) as char
  }

  function DigitValue(c: char): nat {
    if '0' <= c <= '9' then c as int - '0' as int
    else if 'a' <= c <= 'z' then c as int - 'a' as int + 10
    else 0
  }

  /** `c` is a lowercase digit of base `radix` */
  predicate IsDigit(c: char, radix: nat) {
    ('0' <= c <= '9' && c as int - '0' as int < radix)
    || ('a' <= c <= 'z' && c as int - 'a' as int + 10 < radix)
  }

  predicate AllDigits(s: string, radix: nat) {
    forall i :: 0 <= i < |s| ==> IsDigit(s[i], radix)
  }

  lemma DigitCharValue(c: char, radix: nat)
    requires IsDigit(c, radix) && radix <= 36
    ensures DigitValue(c) < radix && DigitChar(DigitValue(c)) == c
  {
  }

  /** `n.toString(radix)`: most significant digit first, no leading zeros */
  function ToRadix(n: nat, radix: nat): (r: string)
    requires 2 <= radix <= 36
    ensures |r| >= 1
    ensures AllDigits(r, radix)
    ensures |r| > 1 ==> r[0] != '0'
    decreases n
  {
    if n < radix then [DigitChar(n)]
    else
      DivModBounds(n, radix);
      ToRadix(n / radix, radix) + [DigitChar(n % radix)]
  }

  lemma DivModBounds(n: nat, d: nat)
    requires 2 <= d <= n
    ensures 1 <= n / d < n && 0 <= n % d < d
  {
  }

  /** Reads a digit string back, most significant digit first */
  function FromRadix(s: string, radix: nat): nat {
    if |s| == 0 then 0 else FromRadix(s[..|s| - 1], radix) * radix + DigitValue(s[|s| - 1])
  }

  lemma {:induction false} FromToRadix(n: nat, radix: nat)
    requires 2 <= radix <= 36
    ensures FromRadix(ToRadix(n, radix), radix) == n
    decreases n
  {
    if n >= radix {
      DivModBounds(n, radix);
      FromToRadix(n / radix, radix);
      FromToRadixStep(n, radix);
    }
  }

  lemma FromToRadixStep(n: nat, radix: nat)
    requires 2 <= radix <= 36 && n >= radix
    requires FromRadix(ToRadix(n / radix, radix), radix) == n / radix
    ensures FromRadix(ToRadix(n, radix), radix) == n
  {
    var q, m := n / radix, n % radix;
    var s := ToRadix(q, radix);
    assert ToRadix(n, radix) == s + [DigitChar(m)];
    FromRadixSnoc(s, DigitChar(m), radix);
    DivMod(n, radix);
  }

  lemma FromRadixSnoc(s: string, c: char, radix: nat)
    ensures FromRadix(s + [c], radix) == FromRadix(s, radix) * radix + DigitValue(c)
  {
    assert (s + [c])[..|s|] == s;
  }

  lemma DivMod(n: nat, d: nat)
    requires 0 < d
    ensures (n / d) * d + n % d == n
  {
  }

  /** A value below `radix * radix` renders in one or two digits; one exactly
      when it is below `radix`. */
  lemma ToRadixShort(n: nat, radix: nat)
    requires 2 <= radix <= 36 && n < radix * radix
    ensures |ToRadix(n, radix)| == if n < radix then 1 else 2
  {
    if n >= radix {
      DivBelow(n, radix);
    }
  }

  lemma DivBelow(n: nat, d: nat)
    requires 0 < d && n < d * d
    ensures n / d < d
  {
    var q := n / d;
    assert q * d <= n;
    assert (q - d) * d < 0;
  }

  /** `String(n)` for an integer */
  function Decimal(n: int): (r: string)
    ensures |r| >= 1
  {
    if n < 0 then "-" + ToRadix(-n, 10) else ToRadix(n, 10)
  }

  /** `Math.round(n / d)` for a positive divisor: halves round up, as in
      JavaScript, also for negative `n` (Dafny's `/` floors here). */
  function RoundDiv(n: int, d: int): (r: int)
    requires d > 0
    ensures d * r - d / 2 <= n
    ensures 2 * n < 2 * d * r + d
  {
    (2 * n + d) / (2 * d)
  }

  // ------------------------------------------------------------------ hex

  /** One byte as two lowercase hex digits, high nibble first */
  function HexByte(b: bv8): (r: string)
    ensures |r| == 2 && AllDigits(r, 16)
  {
    [DigitChar(b as int / 16), DigitChar(b as int % 16)]
  }

  /** `buffer.toString('hex')` */
  function Hex(bytes: seq<bv8>): (r: string)
    ensures |r| == 2 * |bytes|
    ensures AllDigits(r, 16)
  {
    if |bytes| == 0 then [] else HexByte(bytes[0]) + Hex(bytes[1..])
  }

  /** `Buffer.from(s, 'hex')` for a well-formed string */
  function FromHex(s: string): seq<bv8>
    requires |s| % 2 == 0 && AllDigits(s, 16)
  {
    if |s| == 0 then []
    else [(DigitValue(s[0]) * 16 + DigitValue(s[1])) as bv8] + FromHex(s[2..])
  }

  lemma {:induction false} FromHexHex(bytes: seq<bv8>)
    ensures FromHex(Hex(bytes)) == bytes
  {
    if |bytes| > 0 {
      var h := Hex(bytes);
      assert h[2..] == Hex(bytes[1..]);
      FromHexHex(bytes[1..]);
      var b := bytes[0] as int;
      assert DigitValue(h[0]) * 16 + DigitValue(h[1]) == b;
    }
  }
}

=== FILE: router.dfy ===
/** The hash router of `App.js`: which page shows for which URL fragment,
    and how a share link made by the results view leads back to the shared
    analysis. The session storage and the clock are parameters. */
module Router {
  import opened Wrappers
  import opened Text
  import ClientUtils
  import Feedback
  import Location

  datatype Page = Home | Admin | Delete | Shared

  datatype App = App(page: Page, adminAuth: bool, sharedId: Option<string>)

  const Initial: App := App(Home, false, None)

  /** `hash.split('/')[1]`, with `undefined` read as the empty string */
  function ShareId(hash: string): string {
    var parts := Split(hash, '/');
    if |parts| >= 2 then parts[1] else ""
  }

  /** `handleHashChange()`: the app state and the session storage
      afterwards, the latter changed only by the admin check */
  function HandleHashChange(app: App, hash: string, session: map<string, string>, now: int)
    : (r: (App, map<string, string>))
    ensures hash == "admin" ==>
      var (ok, after) := ClientUtils.IsAdminAuthenticated(session, now);
      r == (App(Admin, ok, None), after)
    ensures hash != "admin" ==> r.1 == session
    ensures hash == "delete" ==> r.0 == App(Delete, app.adminAuth, None)
    ensures hash != "admin" && hash != "delete" ==> !r.0.adminAuth
    ensures r.0.page == Shared <==> StartsWith(hash, "share/") && ShareId(hash) != ""
    ensures r.0.page == Shared ==> r.0.sharedId == Some(ShareId(hash))
    ensures r.0.page != Shared ==> r.0.sharedId.None?
    ensures r.0.page == Home <==>
      hash != "admin" && hash != "delete" && !(StartsWith(hash, "share/") && ShareId(hash) != "")
  {
    if hash == "admin" then
      var (ok, after) := ClientUtils.IsAdminAuthenticated(session, now);
      (App(Admin, ok, None), after)
    else if hash == "delete" then (App(Delete, app.adminAuth, None), session)
    else if StartsWith(hash, "share/") then
      var id := ShareId(hash);
      if id != "" then (App(Shared, false, Some(id)), session) else (App(Home, false, None), session)
    else (App(Home, false, None), session)
  }

  /** `handleAdminAuthenticated()` */
  function AdminAuthenticated(app: App): (r: App)
    ensures r.adminAuth && r.(adminAuth := app.adminAuth) == app
  {
    app.(adminAuth := true)
  }

  /** `handleGoHome()`: clears the hash and shows the landing page */
  function GoHome(app: App): (r: (App, string))
    ensures r == (Initial, "")
    ensures Render(r.0) == Landing
    // the state it sets is the one the router gives the hash it writes
    ensures forall session, now :: HandleHashChange(app, r.1, session, now) == (r.0, session)
  {
    (App(Home, false, None), "")
  }

  /** The `beforeunload` handler: leaving from the admin page ends the
      admin session */
  function Unload(app: App, session: map<string, string>): (r: map<string, string>)
    ensures app.page == Admin ==> r == ClientUtils.ClearAdminSession(session)
    ensures app.page == Admin ==> forall now :: !ClientUtils.IsAdminAuthenticated(r, now).0
    ensures app.page != Admin ==> r == session
    ensures forall k :: k in session && k != ClientUtils.AuthKey && k != ClientUtils.TimestampKey ==>
      k in r && r[k] == session[k]
  {
    if app.page == Admin then ClientUtils.ClearAdminSession(session) else session
  }

  datatype View = SharedView(analysisId: string) | Login | DataAdmin | Deletion | Landing

  /** What `App` renders */
  function Render(app: App): (v: View)
    ensures v.SharedView? <==> app.page == Shared && app.sharedId.Some? && app.sharedId.value != ""
    ensures v.SharedView? ==> app.sharedId == Some(v.analysisId)
    ensures v == Login <==> app.page == Admin && !app.adminAuth
    ensures v == DataAdmin <==> app.page == Admin && app.adminAuth
    ensures v == Deletion <==> app.page == Delete
  {
    if app.page == Shared && app.sharedId.Some? && app.sharedId.value != "" then SharedView(app.sharedId.value)
    else if app.page == Admin then (if app.adminAuth then DataAdmin else Login)
    else if app.page == Delete then Deletion
    else Landing
  }

  /** Only the admin page with a live session shows the data: the check
      the router makes is the one the session storage answers */
  lemma AdminNeedsLiveSession(app: App, session: map<string, string>, now: int)
    ensures var (a, _) := HandleHashChange(app, "admin", session, now);
      Render(a) == DataAdmin <==> ClientUtils.IsAdminAuthenticated(session, now).0
  {
  }

  /** Opening a share link made by the results view shows the shared
      analysis it names, whatever page was showing before */
  lemma ShareLinkRoundTrip(app: App, origin: string, id: string, session: map<string, string>, now: int)
    requires '#' !in origin && '/' !in id && id != ""
    ensures var hash := Location.FragmentOf(Feedback.ShareUrl(origin, id));
      && HandleHashChange(app, hash, session, now) == (App(Shared, false, Some(id)), session)
      && Render(HandleHashChange(app, hash, session, now).0) == SharedView(id)
  {
    var hash := "share/" + id;
    assert Location.FragmentOf(Feedback.ShareUrl(origin, id)) == hash;
    assert hash == Join(["share", id], '/');
    SplitJoin(["share", id], '/');
    assert hash[..6] == "share/";
    assert hash != "admin" && hash != "delete" by {
      assert hash[0] == 's';
    }
  }
}

=== FILE: security.dfy ===
/** The request-independent helpers of the backend's `SecurityManager`:
    input sanitising, random identifiers, bearer-token checking and the
    start-up environment check. Hashing, encryption and token verification
    are parameters. */
module Security {
  import opened Wrappers
  import opened Text
  import opened Radix

  // ----------------------------------------------------------- sanitising

  /** A request value: a string, or anything else */
  datatype Input<T> = Str(s: string) | Other(v: T)

  /** `sanitizeInput(input)`. `strip` stands for the three regular-expression
      replacements (script blocks, `javascript:`, inline handlers); the
      steps after it are modelled exactly. */
  function SanitizeInput<T>(input: Input<T>, strip: string -> string): (r: Input<T>)
    ensures input.Other? ==> r == input
    ensures input.Str? ==> r.Str?
    ensures r.Str? ==> |r.s| <= 1000 && '<' !in r.s && '>' !in r.s
    ensures r.Str? && |r.s| > 0 && |r.s| < 1000 ==> !IsWhitespace(r.s[0]) && !IsWhitespace(r.s[|r.s| - 1])
  {
    match input
    case Other(_) => input
    case Str(s) => Str(Take(Trim(RemoveChars(strip(s), {'<', '>'})), 1000))
  }

  /** Text that sanitising leaves alone */
  predicate Clean(s: string) {
    && |s| <= 1000 && '<' !in s && '>' !in s
    && (|s| > 0 ==> !IsWhitespace(s[0]) && !IsWhitespace(s[|s| - 1]))
  }

  /** When the regular expressions find nothing, clean text passes through
      unchanged; in particular sanitising such text twice changes nothing */
  lemma SanitizeKeepsCleanText<T>(s: string)
    requires Clean(s)
    ensures SanitizeInput<T>(Str(s), (x: string) => x) == Input<T>.Str(s)
  {
    RemoveNothing(s, {'<', '>'});
    assert TrimStart(s) == s;
    assert TrimEnd(s) == s;
  }

  lemma {:induction false} RemoveNothing(s: string, cs: set<char>)
    requires forall c :: c in cs ==> c !in s
    ensures RemoveChars(s, cs) == s
  {
    if |s| > 0 {
      assert s[0] in s;
      RemoveNothing(s[1..], cs);
    }
  }

  // ---------------------------------------------------------- identifiers

  /** `generateSecureId(n)`: `crypto.randomBytes(n).toString('hex')` with the
      random bytes passed in */
  function GenerateSecureId(random: seq<bv8>): (r: string)
    ensures |r| == 2 * |random|
    ensures AllDigits(r, 16)
  {
    Hex(random)
  }

  /** The identifier encodes its random bytes without loss */
  lemma SecureIdDecodes(random: seq<bv8>)
    ensures FromHex(GenerateSecureId(random)) == random
  {
    FromHexHex(random);
  }

  // --------------------------------------------------------- bearer token

  datatype AuthOutcome<U> = Unauthorized | Forbidden | Next(user: U)

  /** `authHeader && authHeader.split(' ')[1]`: `None` for a falsy result */
  function BearerToken(authHeader: Option<string>): (t: Option<string>)
    ensures t.Some? ==> |t.value| > 0 && ' ' !in t.value
  {
    match authHeader
    case None => None
    case Some(h) =>
      var parts := Split(h, ' ');
      if |parts| >= 2 && |parts[1]| > 0 then Some(parts[1]) else None
  }

  /** `authenticateToken(req, res, next)`: `verify` returns `None` where
      `verifyToken` throws */
  function AuthenticateToken<U>(authHeader: Option<string>, verify: string -> Option<U>): (r: AuthOutcome<U>)
    ensures r.Unauthorized? <==> BearerToken(authHeader).None?
    ensures r.Forbidden? <==> BearerToken(authHeader).Some? && verify(BearerToken(authHeader).value).None?
    ensures r.Next? ==> Some(r.user) == verify(BearerToken(authHeader).value)
  {
    match BearerToken(authHeader)
    case None => Unauthorized
    case Some(token) =>
      match verify(token)
      case None => Forbidden
      case Some(user) => Next(user)
  }

  /** A header `scheme + " " + token` carries exactly that token, so it
      reaches `verify` with it */
  lemma BearerHeaderCarriesToken(scheme: string, token: string)
    requires ' ' !in scheme && ' ' !in token && |token| > 0
    ensures BearerToken(Some(scheme + " " + token)) == Some(token)
  {
    assert scheme + " " + token == Join([scheme, token], ' ');
    SplitJoin([scheme, token], ' ');
  }

  /** A header with no space has no second token and is refused with 401 */
  lemma NoSpaceUnauthorized<U>(h: string, verify: string -> Option<U>)
    requires ' ' !in h
    ensures AuthenticateToken(Some(h), verify) == Unauthorized
  {
    SplitJoin([h], ' ');
  }

  // -------------------------------------------------------- environment

  const Required: seq<string> := ["HIVE_API_KEY", "AIRTABLE_API_KEY", "AIRTABLE_BASE_ID"]

  /** `!process.env[key]`: unset or empty */
  predicate Unset(env: map<string, string>, key: string) {
    key !in env || env[key] == ""
  }

  /** `keys.filter(key => !process.env[key])` */
  function MissingKeys(keys: seq<string>, env: map<string, string>): (r: seq<string>)
    ensures forall k :: k in r <==> k in keys && Unset(env, k)
    ensures IsSubsequence(r, keys)
  {
    if |keys| == 0 then []
    else if Unset(env, keys[0]) then [keys[0]] + MissingKeys(keys[1..], env)
    else MissingKeys(keys[1..], env)
  }

  /** `a` is `b` with some elements left out, order kept */
  predicate IsSubsequence<T(==)>(a: seq<T>, b: seq<T>) {
    if |a| == 0 then true
    else if |b| == 0 then false
    else if a[0] == b[0] then IsSubsequence(a[1..], b[1..])
    else IsSubsequence(a, b[1..])
  }

  /** `validateEnvironment()`: throws, listing the missing keys in declared
      order, exactly when one of them is unset */
  function ValidateEnvironment(env: map<string, string>): (r: Result<(), string>)
    ensures r.Failure? <==> exists k :: k in Required && Unset(env, k)
    ensures r.Failure? ==>
      r.error == "Missing required environment variables: " + JoinWith(MissingKeys(Required, env), ", ")
  {
    var missing := MissingKeys(Required, env);
    if |missing| > 0 then
      assert missing[0] in missing;
      Failure("Missing required environment variables: " + JoinWith(missing, ", "))
    else Success(())
  }
}

=== FILE: server_clean.dfy ===
/** `backend/server-clean.js`, the mock-analysis variant: it stores every
    analysis with its delete code in plain text and answers success even
    when the save fails. */
module CleanServer {
  import opened Wrappers
  import opened Text
  import opened Radix
  import opened Draws
  import opened Store
  import SV = ServerValidation

  /** The multer `fileFilter`: the fixed allow-list */
  function FileFilter(mimetype: string): (r: Result<bool, UploadError>)
    ensures r.Success? <==> mimetype in SV.AllowedTypes
    ensures r.Failure? ==> Contains(r.error.message, "Invalid file type")
  {
    if mimetype in SV.AllowedTypes then Success(true)
    else
      var m := "Invalid file type" + ". Allowed: " + JoinWith(SV.AllowedTypes, ", ");
      assert m[..17] == "Invalid file type";
      PrefixContained(m, "Invalid file type");
      Failure(Thrown(m))
  }

  /** The error middleware: only the file-size limit has its own status */
  function HandleError(e: UploadError): (r: Response<()>)
    ensures r.Err?
    ensures r.status == 413 <==> e == Multer("LIMIT_FILE_SIZE", e.message)
    ensures r.status != 413 ==> r == Err(500, "Internal server error")
  {
    if e.Multer? && e.code == "LIMIT_FILE_SIZE" then Err(413, "File too large - maximum size is 10MB")
    else Err(500, "Internal server error")
  }

  /** A rejected type, and a second file, are both answered as server errors */
  lemma ClientMistakesAreServerErrors(mimetype: string, message: string)
    requires mimetype !in SV.AllowedTypes
    ensures HandleError(FileFilter(mimetype).error) == Err(500, "Internal server error")
    ensures HandleError(Multer("LIMIT_FILE_COUNT", message)) == Err(500, "Internal server error")
  {
  }

  /** `mockResult`: returned whole, plain delete code included */
  datatype CleanResult = CleanResult(
    analysisId: string, filename: string, confidence: int, verdict: string, isAI: bool,
    timestamp: string, fileFormat: string, imageWidth: int, imageHeight: int, fileSizeKB: int,
    deleteCode: string, explanation: string)

  /** The random bytes of the two identifiers, three `Math.random()` draws,
      the clock, and the outcomes of upload, create and clean-up */
  datatype Services = Services(
    idBytes: seq<bv8>, codeBytes: seq<bv8>, confidenceDraw: real, verdictDraw: real, aiDraw: real,
    timestamp: string, upload: Option<Hosted>, createOk: bool, destroyOk: bool)

  predicate WellFormed(sv: Services) {
    |sv.idBytes| == 8 && |sv.codeBytes| == 6
    && IsDraw(sv.confidenceDraw) && IsDraw(sv.verdictDraw) && IsDraw(sv.aiDraw)
  }

  function Mock(file: UploadedFile, sv: Services): (res: CleanResult)
    requires WellFormed(sv)
    ensures |res.analysisId| == 16 && AllDigits(res.analysisId, 16) && FromHex(res.analysisId) == sv.idBytes
    ensures |res.deleteCode| == 12 && AllDigits(res.deleteCode, 16) && FromHex(res.deleteCode) == sv.codeBytes
    ensures 70 <= res.confidence <= 99
    ensures res.isAI <==> sv.aiDraw > 0.5
    ensures res.verdict == if sv.verdictDraw > 0.5 then "Likely AI-generated" else "Likely authentic"
    ensures res.filename == file.originalname && res.fileFormat == file.mimetype
    ensures 1024 * res.fileSizeKB - 512 <= file.size < 1024 * res.fileSizeKB + 512
  {
    FromHexHex(sv.idBytes);
    FromHexHex(sv.codeBytes);
    CleanResult(Hex(sv.idBytes), file.originalname, Pick(sv.confidenceDraw, 30) + 70,
                if sv.verdictDraw > 0.5 then "Likely AI-generated" else "Likely authentic",
                sv.aiDraw > 0.5, sv.timestamp, file.mimetype, 1024, 1024, RoundDiv(file.size, 1024),
                Hex(sv.codeBytes), "Analysis completed successfully.")
  }

  /** The row written: the delete code in plain text */
  function RecordOf(res: CleanResult, upload: Option<Hosted>): (rec: Record)
    ensures rec.analysisId == res.analysisId && rec.deleteCode == Some(res.deleteCode)
    ensures rec.encryptedData.None? && rec.researchConsent
  {
    Record(res.analysisId, res.filename, res.confidence, res.verdict, res.isAI, res.timestamp,
           res.fileFormat, res.imageWidth, res.imageHeight, res.fileSizeKB,
           if upload.Some? then Some(upload.value.publicId) else None,
           if upload.Some? then Some(upload.value.secureUrl) else None,
           true, Some(res.deleteCode), None)
  }

  /** `POST /api/analyze`: every file that passed the filter is answered
      with success, and stored unless the create call fails */
  function Analyze(file: Option<UploadedFile>, w: World, sv: Services): (r: (Response<CleanResult>, World))
    requires WellFormed(sv)
    ensures file.None? ==> r == (Err(400, "No image file provided"), w)
    ensures r.0.Ok? <==> file.Some?
    ensures r.0.Ok? ==> r.0.payload == Mock(file.value, sv)
    ensures r.0.Ok? && sv.createOk ==> r.1.store == w.store + [RecordOf(r.0.payload, sv.upload)]
    ensures !(r.0.Ok? && sv.createOk) ==> r.1.store == w.store
    ensures sv.upload.None? || r.0.Err? ==> r.1.host == w.host
    ensures sv.upload.Some? ==> r.1.host <= w.host + {sv.upload.value.publicId}
    ensures (!sv.createOk && sv.destroyOk && sv.upload.Some? && sv.upload.value.publicId != [])
      ==> r.1.host <= w.host
  {
    if file.None? then (Err(400, "No image file provided"), w)
    else
      var res := Mock(file.value, sv);
      var host := if sv.upload.Some? then w.host + {sv.upload.value.publicId} else w.host;
      var media := if sv.upload.Some? then Some(sv.upload.value.publicId) else None;
      if sv.createOk then (Ok(res), World(w.store + [RecordOf(res, sv.upload)], host))
      else (Ok(res), World(w.store, DestroyIfSet(host, media, sv.destroyOk)))
  }

  /** A failed save is reported as a success all the same: the user is
      handed an id that nothing can be read back under */
  lemma FailedSaveStillSucceeds(file: UploadedFile, w: World, sv: Services)
    requires WellFormed(sv) && !sv.createOk
    requires Lookup(w.store, Mock(file, sv).analysisId).None?
    ensures var r := Analyze(Some(file), w, sv);
      r.0.Ok? && GetAnalysis(r.1.store, r.0.payload.analysisId, true) == Err(404, "Analysis not found")
  {
  }

  function Texts(isAI: bool, tier: Tier): string {
    match (isAI, tier)
    case (true, High) => "Strong indicators of AI generation detected."
    case (true, Medium) => "Moderate indicators of AI generation detected."
    case (true, Low) => "Some indicators of AI generation detected."
    case (false, High) => "Strong indicators of authentic content."
    case (false, Medium) => "Moderate indicators of authentic content."
    case (false, Low) => "Content appears more likely to be authentic."
  }

  /** `GET /api/analysis/:analysisId`: the stored URL is returned as it is */
  function GetAnalysis(store: seq<Record>, id: string, queryOk: bool): (r: Response<PublicView>)
    ensures r.Ok? ==> Lookup(store, id).Some? && r.payload.imageUrl == store[Lookup(store, id).value].imageUrl
    ensures r.Err? ==> r.status == 500 || r == Err(404, "Analysis not found")
    ensures !queryOk ==> r == Err(500, "Failed to fetch analysis")
    ensures queryOk && Lookup(store, id).None? ==> r == Err(404, "Analysis not found")
    ensures r.Ok? <==> queryOk && exists i :: 0 <= i < |store| && store[i].analysisId == id
    // the payload is the public view of the first row with that id, with its tier's explanation
    ensures r.Ok? ==>
      var rec := store[Lookup(store, id).value];
      r.payload == Project(rec, Texts(rec.aiDetected, TierOf(rec.confidence)))
  {
    Read(store, id, queryOk, Texts, false)
  }

  /** A saved analysis reads back under its id with its confidence tier's
      explanation, when no earlier row has the same id */
  lemma SavedAnalysisReadsBack(file: UploadedFile, w: World, sv: Services)
    requires WellFormed(sv) && sv.createOk
    requires Lookup(w.store, Mock(file, sv).analysisId).None?
    ensures var r := Analyze(Some(file), w, sv);
      var res := r.0.payload;
      var v := GetAnalysis(r.1.store, res.analysisId, true);
      v.Ok? && v.payload.confidence == res.confidence && v.payload.isAI == res.isAI
      && v.payload.explanation == Texts(res.isAI, TierOf(res.confidence))
  {
    var res := Mock(file, sv);
    LookupAppended(w.store, RecordOf(res, sv.upload));
  }
}

=== FILE: server_main.dfy ===
/** `backend/server.js`, the deployed server: the upload filter, the
    analysis route backed by the Hugging Face detector with consent-gated
    retention, the public read route and the error-handling middleware.
    The detector, Cloudinary and Airtable are outcome parameters. */
module MainServer {
  import opened Wrappers
  import opened Text
  import opened Radix
  import opened Ids
  import opened Store
  import Constants
  import ServerValidation

  // ------------------------------------------------------- upload filter

  /** `"image/jpeg,image/jpg,image/png,image/webp"` */
  const DefaultAllowed: string := "image/jpeg" + "," + "image/jpg" + "," + "image/png" + "," + "image/webp"

  /** `(process.env.ALLOWED_FILE_TYPES || default).split(",")` */
  function AllowedList(setting: Option<string>): (r: seq<string>)
    ensures |r| >= 1
    ensures setting.None? || setting.value == [] ==> r == Split(DefaultAllowed, ',')
    ensures setting.Some? && setting.value != [] ==> Join(r, ',') == setting.value
  {
    var s := if setting.None? || setting.value == [] then DefaultAllowed else setting.value;
    JoinSplit(s, ',');
    Split(s, ',')
  }

  /** Without the setting the filter admits the four types of the allow-list */
  lemma DefaultAllowedList()
    ensures AllowedList(None) == ServerValidation.AllowedTypes
  {
    var t := ServerValidation.AllowedTypes;
    assert DefaultAllowed == Join(t, ',') by {
      assert Join(t[3..], ',') == "image/webp";
      assert Join(t[2..], ',') == "image/png" + "," + "image/webp";
      assert Join(t[1..], ',') == "image/jpg" + "," + Join(t[2..], ',');
      assert Join(t, ',') == "image/jpeg" + "," + Join(t[1..], ',');
    }
    assert forall k :: 0 <= k < |t| ==> ',' !in t[k];
    SplitJoin(t, ',');
  }

  const InvalidType: string := "Invalid file type"

  /** `Invalid file type. Allowed types: <list joined by ", ">` */
  function InvalidTypeMessage(allowed: seq<string>): string {
    InvalidType + ". Allowed types: " + JoinWith(allowed, ", ")
  }

  /** The multer `fileFilter`: the declared type must be on the list */
  function FileFilter(setting: Option<string>, mimetype: string): (r: Result<bool, UploadError>)
    ensures r.Success? <==> mimetype in AllowedList(setting)
    ensures r.Failure? ==> r.error == Thrown(InvalidTypeMessage(AllowedList(setting)))
  {
    var allowed := AllowedList(setting);
    if mimetype in allowed then Success(true) else Failure(Thrown(InvalidTypeMessage(allowed)))
  }

  /** The error-handling middleware */
  function HandleError(e: UploadError): (r: Response<()>)
    ensures r.Err?
    ensures e == Multer("LIMIT_FILE_SIZE", e.message) ==> r.status == 413
    ensures e == Multer("LIMIT_FILE_COUNT", e.message) ==> r.status == 400
    ensures r.status == 400 && !e.Multer? ==> r.message == e.message
    ensures r.status != 500 ==> e.Multer? || Contains(e.message, InvalidType)
  {
    if e.Multer? && e.code == "LIMIT_FILE_SIZE" then Err(413, "File too large - maximum size is 10MB")
    else if e.Multer? && e.code == "LIMIT_FILE_COUNT" then Err(400, "Too many files - please upload one image at a time")
    else if Contains(e.message, InvalidType) then Err(400, e.message)
    else Err(500, "Internal server error")
  }

  /** A type the filter turns away is answered with 400 and the filter's
      own message, naming the allowed types */
  lemma RejectedTypeIsClientError(setting: Option<string>, mimetype: string)
    requires FileFilter(setting, mimetype).Failure?
    ensures HandleError(FileFilter(setting, mimetype).error)
         == Err(400, InvalidTypeMessage(AllowedList(setting)))
  {
    var m := InvalidTypeMessage(AllowedList(setting));
    var rest := ". Allowed types: " + JoinWith(AllowedList(setting), ", ");
    assert m == InvalidType + rest;
    assert m[..|InvalidType|] == InvalidType;
    PrefixContained(m, InvalidType);
  }

  // ------------------------------------------------------------- consent

  /** A JSON value, as `JSON.parse` produces it */
  datatype Json =
    | JNull
    | JBool(b: bool)
    | JNumber(n: int)
    | JString(s: string)
    | JArray(items: seq<Json>)
    | JObject(fields: map<string, Json>)

  /** The `consent` form field: missing or empty, not valid JSON, or parsed */
  datatype ConsentField = Absent | Unparsable | Parsed(value: Json)

  /** `let consent = {}; if (req.body.consent) consent = JSON.parse(...)`,
      a parse error leaving the empty object */
  function Consent(field: ConsentField): (j: Json)
    ensures field.Parsed? ==> j == field.value
    ensures !field.Parsed? ==> j == JObject(map[])
  {
    if field.Parsed? then field.value else JObject(map[])
  }

  /** `consent["research_training"] === true` */
  predicate HasResearchConsent(j: Json) {
    j.JObject? && Constants.ResearchTraining in j.fields
    && j.fields[Constants.ResearchTraining] == JBool(true)
  }

  // -------------------------------------------------------- the detector

  /** One entry of the detector's answer, sorted by score */
  datatype Detection = Detection(name: Option<string>, score: Option<real>)

  /** `topResult?.label?.toLowerCase() || ""` */
  function Label(top: Option<Detection>): (l: string)
    ensures top.Some? && top.value.name.Some? ==> l == ToLower(top.value.name.value)
    ensures top.None? || top.value.name.None? ==> l == []
  {
    if top.Some? && top.value.name.Some? then ToLower(top.value.name.value) else []
  }

  /** The label test of the route, one marker after another */
  predicate IsAiLabel(l: string) {
    Contains(l, "fake") || Contains(l, "deepfake")
    || Contains(l, "synthetic") || Contains(l, "ai-generated")
  }

  /** The `deepfake` marker adds nothing: every label holding it holds `fake` */
  lemma DeepfakeMarkerRedundant(l: string)
    ensures IsAiLabel(l) <==>
      Contains(l, "fake") || Contains(l, "synthetic") || Contains(l, "ai-generated")
  {
    if Contains(l, "deepfake") {
      var i :| 0 <= i <= |l| - 8 && OccursAt(l, "deepfake", i);
      assert l[i + 4..i + 8] == l[i..i + 8][4..];
      assert OccursAt(l, "fake", i + 4);
    }
  }

  /** The detector's two labels: `Fake` reads as AI-generated, `Real` does not */
  lemma DetectorLabels()
    ensures IsAiLabel(Label(Some(Detection(Some("Fake"), None))))
    ensures !IsAiLabel(Label(Some(Detection(Some("Real"), None))))
  {
    var f := Label(Some(Detection(Some("Fake"), None)));
    assert f == "fake";
    assert OccursAt(f, "fake", 0);
    var r := Label(Some(Detection(Some("Real"), None)));
    assert r == "real";
    assert r[0] == 'r';
    assert r[0..4] != "fake" by { assert r[0..4][0] == 'r'; }
  }

  /** `Math.round(x)`: the nearest integer, halves rounding up */
  function JsRound(x: real): (n: int)
    ensures n as real <= x + 0.5 < n as real + 1.0
  {
    (x + 0.5).Floor
  }

  /** `Math.round((topResult?.score || 0) * 100)` */
  function Confidence(top: Option<Detection>): (c: int)
    ensures top.None? || top.value.score.None? ==> c == 0
    ensures top.Some? && top.value.score.Some? && 0.0 <= top.value.score.value <= 1.0 ==> 0 <= c <= 100
  {
    var score := if top.Some? && top.value.score.Some? then top.value.score.value else 0.0;
    JsRound(score * 100.0)
  }

  // ------------------------------------------------------------ analysis

  /** The route's `analysisResult` */
  datatype MainResult = MainResult(
    analysisId: string, filename: string, confidence: int, verdict: string, isAI: bool,
    timestamp: string, fileFormat: string, imageWidth: int, imageHeight: int, fileSizeKB: int,
    deleteCode: string, explanation: string, detectionDetails: seq<Detection>)

  /** The outcomes of the calls the route makes: the upload, the detector,
      the Airtable create and the Cloudinary clean-up; the two
      `Math.random().toString(36)` renderings and the clock */
  datatype Services = Services(
    upload: Option<Hosted>, inference: Option<seq<Detection>>, createOk: bool, destroyOk: bool,
    idRendering: string, codeRendering: string, timestamp: string)

  predicate WellFormed(sv: Services) {
    RandomRendering(sv.idRendering) && RandomRendering(sv.codeRendering)
  }

  /** `4.2 * 1024 * 1024` is 4404019.2: a whole size exceeds it exactly when
      it exceeds 4404019 */
  const MaxUploadBytes: nat := 4404019

  const AnalysisFailed: string := "Analysis failed - please try again later"

  /** The result built from the detector's answer */
  function Classify(file: UploadedFile, detections: seq<Detection>, sv: Services): (res: MainResult)
    requires WellFormed(sv)
    ensures var top := if |detections| > 0 then Some(detections[0]) else None;
      res.isAI == IsAiLabel(Label(top)) && res.confidence == Confidence(top)
    ensures res.verdict == if res.isAI then "AI-generated" else "Likely authentic"
    ensures |res.analysisId| <= 13 && AllDigits(res.analysisId, 36)
    ensures |res.deleteCode| <= 13 && AllDigits(res.deleteCode, 36)
    ensures 1024 * res.fileSizeKB - 512 <= file.size < 1024 * res.fileSizeKB + 512
    ensures res.filename == file.originalname && res.fileFormat == file.mimetype
    ensures res.explanation == "AI analysis completed with " + Decimal(res.confidence) + "% confidence."
  {
    var top := if |detections| > 0 then Some(detections[0]) else None;
    var confidence := Confidence(top);
    var isAI := IsAiLabel(Label(top));
    MainResult(RandomId(sv.idRendering), file.originalname, confidence,
               if isAI then "AI-generated" else "Likely authentic", isAI, sv.timestamp,
               file.mimetype, 1024, 1024, RoundDiv(file.size, 1024), RandomId(sv.codeRendering),
               "AI analysis completed with " + Decimal(confidence) + "% confidence.", detections)
  }

  /** The row written for a consenting user: no delete code is stored */
  function RecordOf(res: MainResult, h: Hosted): (rec: Record)
    ensures rec.analysisId == res.analysisId && rec.confidence == res.confidence
    ensures rec.aiDetected == res.isAI && rec.verdict == res.verdict
    ensures rec.mediaId == Some(h.publicId) && rec.imageUrl == Some(h.secureUrl)
    ensures rec.researchConsent && rec.deleteCode.None? && rec.encryptedData.None?
  {
    Record(res.analysisId, res.filename, res.confidence, res.verdict, res.isAI, res.timestamp,
           res.fileFormat, res.imageWidth, res.imageHeight, res.fileSizeKB,
           Some(h.publicId), Some(h.secureUrl), true, None, None)
  }

  /** `POST /api/analyze`. `Object.keys(consent)` throws on a parsed `null`,
      before anything is uploaded. */
  function Analyze(file: Option<UploadedFile>, consent: ConsentField, w: World, sv: Services)
    : (r: (Response<MainResult>, World))
    requires WellFormed(sv)
    ensures file.None? ==> r == (Err(400, "No image file provided"), w)
    ensures file.Some? && file.value.size > MaxUploadBytes ==> r.0.Status() == 413 && r.1 == w
    ensures r.0.Ok? <==> (file.Some? && file.value.size <= MaxUploadBytes
      && Consent(consent) != JNull && sv.upload.Some? && sv.inference.Some?)
    ensures r.0.Ok? ==> r.0.payload == Classify(file.value, sv.inference.value, sv)
    // only a consenting user's analysis is stored, and only that one row
    ensures r.1.store != w.store ==>
      r.0.Ok? && HasResearchConsent(Consent(consent)) && sv.createOk
      && r.1.store == w.store + [RecordOf(r.0.payload, sv.upload.value)]
    ensures r.0.Ok? && HasResearchConsent(Consent(consent)) && sv.createOk ==>
      r.1.store == w.store + [RecordOf(r.0.payload, sv.upload.value)]
    // the host gains at most the uploaded image
    ensures sv.upload.None? ==> r.1.host == w.host
    ensures sv.upload.Some? ==> r.1.host <= w.host + {sv.upload.value.publicId}
    // the uploaded image stays only for a consenting, successful analysis
    ensures (sv.upload.Some? && sv.upload.value.publicId != [] && sv.destroyOk
      && !(r.0.Ok? && HasResearchConsent(Consent(consent)))) ==> r.1.host <= w.host
    ensures r.0.Ok? && HasResearchConsent(Consent(consent)) ==> sv.upload.value.publicId in r.1.host
  {
    if file.None? then (Err(400, "No image file provided"), w)
    else if file.value.size > MaxUploadBytes then
      (Err(413, "Image file too large. Please compress your image or use a smaller file."), w)
    else
      var c := Consent(consent);
      if c == JNull then (Err(500, AnalysisFailed), w)
      else match sv.upload
        case None => (Err(500, AnalysisFailed), w)
        case Some(h) =>
          var host := w.host + {h.publicId};
          match sv.inference
          case None =>
            (Err(500, "AI analysis failed - please try again later"),
             World(w.store, DestroyIfSet(host, Some(h.publicId), sv.destroyOk)))
          case Some(detections) =>
            var res := Classify(file.value, detections, sv);
            if HasResearchConsent(c) then
              (Ok(res), World(if sv.createOk then w.store + [RecordOf(res, h)] else w.store, host))
            else
              (Ok(res), World(w.store, DestroyIfSet(host, Some(h.publicId), sv.destroyOk)))
  }

  /** A consenting user whose record fails to save still leaves the image on
      the host, with no row pointing at it */
  lemma FailedSaveOrphansImage(file: UploadedFile, consent: ConsentField, w: World, sv: Services)
    requires WellFormed(sv) && sv.upload.Some? && sv.inference.Some? && !sv.createOk
    requires file.size <= MaxUploadBytes && HasResearchConsent(Consent(consent))
    ensures var r := Analyze(Some(file), consent, w, sv);
      r.0.Ok? && r.1.store == w.store && sv.upload.value.publicId in r.1.host
  {
  }

  // ----------------------------------------------------------- read back

  function Texts(isAI: bool, tier: Tier): string {
    match (isAI, tier)
    case (true, High) => "Analysis detected strong patterns characteristic of AI-generated content, including artificial lighting, synthetic textures, or computational artifacts."
    case (true, Medium) => "Analysis detected inconsistencies in pixel patterns and lighting that are characteristic of AI-generated content."
    case (true, Low) => "Some signs of potential AI generation detected, but result requires careful interpretation."
    case (false, High) => "Analysis shows natural patterns consistent with authentic photography, including realistic lighting and textures."
    case (false, Medium) => "Content appears authentic with natural photographic characteristics and consistent metadata."
    case (false, Low) => "Content appears more likely to be authentic, though some analysis uncertainty remains."
  }

  /** `GET /api/analysis/:analysisId` */
  function GetAnalysis(store: seq<Record>, id: string, queryOk: bool): (r: Response<PublicView>)
    ensures r.Err? ==> r.status == 500 || r == Err(404, "Analysis not found")
    ensures !queryOk ==> r == Err(500, "Failed to fetch analysis")
    ensures r.Ok? <==> queryOk && exists i :: 0 <= i < |store| && store[i].analysisId == id
    // the payload is the public view of the first row with that id, an empty image URL as null
    ensures r.Ok? ==>
      var rec := store[Lookup(store, id).value];
      r.payload == Project(rec, Texts(rec.aiDetected, TierOf(rec.confidence))).(imageUrl := OrNull(rec.imageUrl))
  {
    ReadReturnsOrMisses(store, id, queryOk);
    Read(store, id, queryOk, Texts, true)
  }

  /** A read succeeds exactly when the query runs and some row has the id,
      and it then carries the filename, confidence, verdict and
      classification of the first such row, with that row's explanation */
  lemma ReadReturnsOrMisses(store: seq<Record>, id: string, queryOk: bool)
    ensures var r := Read(store, id, queryOk, Texts, true);
      r.Ok? <==> queryOk && exists i :: 0 <= i < |store| && store[i].analysisId == id
    ensures var r := Read(store, id, queryOk, Texts, true);
      r.Ok? ==> exists i :: (
        && 0 <= i < |store| && store[i].analysisId == id
        && (forall j :: 0 <= j < i ==> store[j].analysisId != id)
        && r.payload.filename == store[i].filename && r.payload.confidence == store[i].confidence
        && r.payload.verdict == store[i].verdict && r.payload.isAI == store[i].aiDetected
        && r.payload.explanation == Texts(store[i].aiDetected, TierOf(store[i].confidence)))
  {
    if Read(store, id, queryOk, Texts, true).Ok? {
      var i := Lookup(store, id).value;
      assert store[i].analysisId == id;
    }
  }

  /** What a consenting user's successful analysis stored reads back under
      its id, as long as no earlier row carries the same id: the route's own
      fields, the explanation of its tier, and no delete code */
  lemma ConsentedAnalysisReadsBack(file: UploadedFile, consent: ConsentField, w: World, sv: Services)
    requires WellFormed(sv) && sv.createOk
    requires HasResearchConsent(Consent(consent))
    requires Analyze(Some(file), consent, w, sv).0.Ok?
    requires Lookup(w.store, Analyze(Some(file), consent, w, sv).0.payload.analysisId).None?
    ensures var r := Analyze(Some(file), consent, w, sv);
      var res := r.0.payload;
      var v := GetAnalysis(r.1.store, res.analysisId, true);
      && v.Ok?
      && v.payload.confidence == res.confidence && v.payload.isAI == res.isAI
      && v.payload.verdict == res.verdict && v.payload.filename == res.filename
      && v.payload.fileSizeKB == res.fileSizeKB
      && v.payload.imageUrl == OrNull(Some(sv.upload.value.secureUrl))
      && v.payload.explanation == Texts(res.isAI, TierOf(res.confidence))
  {
    var r := Analyze(Some(file), consent, w, sv);
    var rec := RecordOf(r.0.payload, sv.upload.value);
    LookupAppended(w.store, rec);
  }
}

=== FILE: server_secure.dfy ===
/** `backend/server-secure.js`: admin login, the analysis route that checks
    the file's signature and stores an encrypted, hashed delete code, the
    sanitised read route, delete-by-code, and the error middleware. Hashing,
    encryption and password checking are function parameters. */
module SecureServer {
  import opened Wrappers
  import opened Text
  import opened Radix
  import opened Draws
  import opened Store
  import opened Signatures
  import Security
  import SV = ServerValidation

  /** `hashIdentifier`, `JSON.stringify(encrypt({deleteCode, ...}))` and
      `decrypt(JSON.parse(...)).deleteCode`, the last two `None` where they
      throw, and the three regular-expression passes of `sanitizeInput` */
  datatype Crypto = Crypto(
    hash: string -> string, seal: string -> Option<string>, open: string -> Option<string>,
    strip: string -> string)

  /** `sanitizeInput` of a string parameter */
  function Sanitize(s: string, strip: string -> string): (r: string)
    ensures |r| <= 1000 && '<' !in r && '>' !in r
    ensures Security.Clean(s) && strip(s) == s ==> r == s
  {
    SanitizeClean(s, strip);
    Security.SanitizeInput<()>(Security.Str(s), strip).s
  }

  lemma SanitizeClean(s: string, strip: string -> string)
    ensures Security.Clean(s) && strip(s) == s ==>
      Security.SanitizeInput<()>(Security.Str(s), strip) == Security.Str(s)
  {
    if Security.Clean(s) && strip(s) == s {
      Security.SanitizeKeepsCleanText<()>(s);
    }
  }

  // --------------------------------------------------------------- login

  datatype Session = Session(token: string, expiresIn: nat)

  /** `POST /api/admin/login`: `verify` is `bcrypt.compare`, `None` where it
      throws; `token` is the signed one-hour token */
  function Login(password: Option<string>, passwordHash: Option<string>,
                 verify: (string, string) -> Option<bool>, token: string): (r: Response<Session>)
    ensures r.Ok? <==> (password.Some? && password.value != [] && passwordHash.Some?
      && passwordHash.value != [] && verify(password.value, passwordHash.value) == Some(true))
    ensures r.Ok? ==> r.payload == Session(token, 3600)
    ensures password.None? || password.value == [] ==> r == Err(400, "Password required")
    ensures r.Err? && r.status == 401 ==>
      password.Some? && passwordHash.Some? && verify(password.value, passwordHash.value) == Some(false)
  {
    if password.None? || password.value == [] then Err(400, "Password required")
    else if passwordHash.None? || passwordHash.value == [] then Err(500, "Admin authentication not configured")
    else match verify(password.value, passwordHash.value)
      case None => Err(500, "Authentication failed")
      case Some(true) => Ok(Session(token, 3600))
      case Some(false) => Err(401, "Invalid credentials")
  }

  // -------------------------------------------------------- error handler

  /** The error middleware: only the two multer limits have their own status */
  function HandleError(e: UploadError): (r: Response<()>)
    ensures r.Err?
    ensures r.status == 413 <==> e == Multer("LIMIT_FILE_SIZE", e.message)
    ensures r.status == 400 <==> e == Multer("LIMIT_FILE_COUNT", e.message)
    ensures r.status == 413 || r.status == 400 || r == Err(500, "Internal server error")
  {
    if e.Multer? && e.code == "LIMIT_FILE_SIZE" then Err(413, "File too large - maximum size is 10MB")
    else if e.Multer? && e.code == "LIMIT_FILE_COUNT" then Err(400, "Too many files - please upload one image at a time")
    else Err(500, "Internal server error")
  }

  // ------------------------------------------------------------- analysis

  /** The data returned to the uploader, plain delete code included once */
  datatype SecureResult = SecureResult(
    analysisId: string, filename: string, confidence: int, verdict: string, isAI: bool,
    timestamp: string, deleteCode: string, explanation: string)

  /** The random bytes of the two identifiers, three `Math.random()` draws,
      the clock, and the outcomes of upload, save and clean-up */
  datatype Services = Services(
    idBytes: seq<bv8>, codeBytes: seq<bv8>, confidenceDraw: real, verdictDraw: real, aiDraw: real,
    timestamp: string, upload: Option<Hosted>, saveOk: bool, destroyOk: bool)

  predicate WellFormed(sv: Services) {
    |sv.idBytes| == 16 && |sv.codeBytes| == 12
    && IsDraw(sv.confidenceDraw) && IsDraw(sv.verdictDraw) && IsDraw(sv.aiDraw)
  }

  /** The full check the handler runs on the received file */
  function Check(file: UploadedFile, maxSize: int): Result<bool, SV.ServerError> {
    SV.ValidateFile(Some(SV.ServerFile(file.mimetype, Some(file.size), Some(file.buffer))), maxSize)
  }

  /** `mockResult`, as returned */
  function Mock(file: UploadedFile, sv: Services, cr: Crypto): (res: SecureResult)
    requires WellFormed(sv)
    ensures |res.analysisId| == 32 && AllDigits(res.analysisId, 16)
    ensures |res.deleteCode| == 24 && AllDigits(res.deleteCode, 16)
    ensures FromHex(res.analysisId) == sv.idBytes && FromHex(res.deleteCode) == sv.codeBytes
    ensures 60 <= res.confidence <= 99
    ensures res.isAI <==> sv.aiDraw > 0.5
    ensures res.verdict == if sv.verdictDraw > 0.5 then "Likely AI-generated" else "Likely authentic"
    ensures |res.filename| <= 1000 && '<' !in res.filename && '>' !in res.filename
  {
    Security.SecureIdDecodes(sv.idBytes);
    Security.SecureIdDecodes(sv.codeBytes);
    SecureResult(Security.GenerateSecureId(sv.idBytes), Sanitize(file.originalname, cr.strip),
                 Pick(sv.confidenceDraw, 40) + 60,
                 if sv.verdictDraw > 0.5 then "Likely AI-generated" else "Likely authentic",
                 sv.aiDraw > 0.5, sv.timestamp, Security.GenerateSecureId(sv.codeBytes),
                 "Analysis detected patterns in the image content.")
  }

  /** The row written: the delete code only hashed and sealed */
  function RecordOf(res: SecureResult, file: UploadedFile, sealed: string, upload: Option<Hosted>)
    : (rec: Record)
    ensures rec.analysisId == res.analysisId && rec.researchConsent
    ensures rec.deleteCode.None? && rec.encryptedData == Some(sealed)
    ensures rec.mediaId == (if upload.Some? then Some(upload.value.publicId) else None)
  {
    Record(res.analysisId, res.filename, res.confidence, res.verdict, res.isAI, res.timestamp,
           file.mimetype, 1024, 1024, RoundDiv(file.size, 1024),
           if upload.Some? then Some(upload.value.publicId) else None,
           if upload.Some? then Some(upload.value.secureUrl) else None,
           true, None, Some(sealed))
  }

  /** Whether the encrypt-and-create block succeeds */
  predicate Saved(res: SecureResult, sv: Services, cr: Crypto) {
    cr.seal(cr.hash(res.deleteCode)).Some? && sv.saveOk
  }

  /** `POST /api/analyze`, once multer has handed over the file. An upload
      failure is tolerated; a failed save removes the uploaded image. */
  function Analyze(file: Option<UploadedFile>, maxSize: int, w: World, sv: Services, cr: Crypto)
    : (r: (Response<SecureResult>, World))
    requires WellFormed(sv)
    ensures file.None? ==> r == (Err(400, "No image file provided"), w)
    ensures file.Some? && Check(file.value, maxSize).Failure? ==>
      r == (Err(400, Check(file.value, maxSize).error.Message()), w)
    ensures r.0.Ok? <==> file.Some? && Check(file.value, maxSize).Success?
    ensures r.0.Ok? ==> r.0.payload == Mock(file.value, sv, cr)
    // the row is written exactly when the save succeeds, with the code sealed
    ensures r.0.Ok? && Saved(r.0.payload, sv, cr) ==>
      r.1.store == w.store + [RecordOf(r.0.payload, file.value, cr.seal(cr.hash(r.0.payload.deleteCode)).value, sv.upload)]
    ensures !(r.0.Ok? && Saved(r.0.payload, sv, cr)) ==> r.1.store == w.store
    // a failed save leaves nothing new on the host when the clean-up works
    ensures sv.upload.None? || r.0.Err? ==> r.1.host == w.host
    ensures sv.upload.Some? ==> r.1.host <= w.host + {sv.upload.value.publicId}
    ensures (r.0.Ok? && !Saved(r.0.payload, sv, cr) && sv.destroyOk && sv.upload.Some?
      && sv.upload.value.publicId != []) ==> r.1.host <= w.host
  {
    if file.None? then (Err(400, "No image file provided"), w)
    else
      match Check(file.value, maxSize)
      case Failure(e) => (Err(400, e.Message()), w)
      case Success(_) =>
        var res := Mock(file.value, sv, cr);
        (Ok(res), Persist(res, file.value, w, sv, cr))
  }

  /** The upload, then the encrypt-and-create block with its clean-up */
  function Persist(res: SecureResult, file: UploadedFile, w: World, sv: Services, cr: Crypto): (nw: World)
    ensures Saved(res, sv, cr) ==>
      nw.store == w.store + [RecordOf(res, file, cr.seal(cr.hash(res.deleteCode)).value, sv.upload)]
    ensures !Saved(res, sv, cr) ==> nw.store == w.store
    ensures sv.upload.None? ==> nw.host == w.host
    ensures sv.upload.Some? ==> nw.host <= w.host + {sv.upload.value.publicId}
    ensures (!Saved(res, sv, cr) && sv.destroyOk && sv.upload.Some? && sv.upload.value.publicId != [])
      ==> nw.host <= w.host
  {
    var host := if sv.upload.Some? then w.host + {sv.upload.value.publicId} else w.host;
    var media := if sv.upload.Some? then Some(sv.upload.value.publicId) else None;
    match cr.seal(cr.hash(res.deleteCode))
    case None => World(w.store, DestroyIfSet(host, media, sv.destroyOk))
    case Some(sealed) =>
      if sv.saveOk then World(w.store + [RecordOf(res, file, sealed, sv.upload)], host)
      else World(w.store, DestroyIfSet(host, media, sv.destroyOk))
  }

  // --------------------------------------------------- the upload filter

  /** What multer does once the filter has passed: a body over
      `limits.fileSize`, read from the same setting as the handler's limit,
      is cut off with `LIMIT_FILE_SIZE` and answered by the error
      middleware; any other file reaches the route */
  function Receive(file: UploadedFile, maxSize: int, w: World, sv: Services, cr: Crypto)
    : (r: (Response<SecureResult>, World))
    requires WellFormed(sv)
    ensures file.size > maxSize ==> r == (Err(413, "File too large - maximum size is 10MB"), w)
    ensures file.size <= maxSize ==> r == Analyze(Some(file), maxSize, w, sv, cr)
  {
    if file.size > maxSize then
      var e := HandleError(Multer("LIMIT_FILE_SIZE", "File too large"));
      (Err(e.status, e.message), w)
    else Analyze(Some(file), maxSize, w, sv, cr)
  }

  /** A request as written: multer's `fileFilter` runs `validateFile` on
      metadata alone and hands its error to the error middleware */
  function SubmitAsWritten(file: UploadedFile, maxSize: int, w: World, sv: Services, cr: Crypto)
    : (r: (Response<SecureResult>, World))
    requires WellFormed(sv)
    // only `image/jpg` gets past the filter, and it then goes on as multer hands it over
    ensures file.mimetype == "image/jpg" ==> r == Receive(file, maxSize, w, sv, cr)
    ensures file.mimetype != "image/jpg" ==> r == (Err(500, "Internal server error"), w)
  {
    match SV.FileFilter(file.mimetype, maxSize)
    case Failure(e) => (Err(HandleError(Thrown(e.Message())).status, "Internal server error"), w)
    case Success(_) => Receive(file, maxSize, w, sv, cr)
  }

  /** As written, every JPEG, PNG or WebP upload ends in a 500 before the
      route runs, whatever its content */
  lemma SignedTypesNeverReachRoute(file: UploadedFile, maxSize: int, w: World, sv: Services, cr: Crypto)
    requires WellFormed(sv) && Signature(file.mimetype).Some?
    ensures SubmitAsWritten(file, maxSize, w, sv, cr) == (Err(500, "Internal server error"), w)
  {
    SV.FileFilterAdmitsOnlyJpg(file.mimetype, maxSize);
  }

  /** A request with the filter checking only the declared type */
  function Submit(file: UploadedFile, maxSize: int, w: World, sv: Services, cr: Crypto)
    : (r: (Response<SecureResult>, World))
    requires WellFormed(sv)
    ensures r.0.Ok? <==> Check(file, maxSize).Success?
    ensures Check(file, maxSize).Failure? ==> r.1 == w && r.0.Err?
    // a refused type reaches the error middleware as a plain error
    ensures file.mimetype !in SV.AllowedTypes ==> r == (Err(500, "Internal server error"), w)
    // an allowed type over the limit is cut off by multer before the route
    ensures file.mimetype in SV.AllowedTypes && file.size > maxSize ==>
      r == (Err(413, "File too large - maximum size is 10MB"), w)
    // a signature mismatch is the route's own 400
    ensures var c := Check(file, maxSize);
      c.Failure? && c.error != SV.InvalidType && !c.error.TooLarge? ==> r.0 == Err(400, c.error.Message())
  {
    SV.TypeFilterAdmitsValidFiles(SV.ServerFile(file.mimetype, Some(file.size), Some(file.buffer)), maxSize);
    match SV.TypeFilter(file.mimetype)
    case Failure(e) => (Err(HandleError(Thrown(e.Message())).status, "Internal server error"), w)
    case Success(_) => Receive(file, maxSize, w, sv, cr)
  }

  // ------------------------------------------------------------- reading

  function Texts(isAI: bool, tier: Tier): string {
    match (isAI, tier)
    case (true, High) => "Analysis detected strong patterns characteristic of AI-generated content."
    case (true, Medium) => "Analysis detected inconsistencies characteristic of AI-generated content."
    case (true, Low) => "Some signs of potential AI generation detected."
    case (false, High) => "Analysis shows natural patterns consistent with authentic photography."
    case (false, Medium) => "Content appears authentic with natural photographic characteristics."
    case (false, Low) => "Content appears more likely to be authentic."
  }

  /** `GET /api/analysis/:analysisId`: the sanitised id must be non-empty
      and at most 64 UTF-16 units */
  function GetAnalysis(store: seq<Record>, id: string, queryOk: bool, strip: string -> string)
    : (r: Response<PublicView>)
    ensures var s := Sanitize(id, strip);
      s == [] || Utf16Length(s) > 64 <==> r == Err(400, "Invalid analysis ID")
    ensures r.Ok? ==> (Lookup(store, Sanitize(id, strip)).Some?
      && r.payload.analysisId == Sanitize(id, strip))
    ensures var s := Sanitize(id, strip);
      s != [] && Utf16Length(s) <= 64 ==>
        && (!queryOk ==> r == Err(500, "Failed to fetch analysis"))
        && (queryOk && Lookup(store, s).None? ==> r == Err(404, "Analysis not found"))
        && (queryOk && Lookup(store, s).Some? ==> r.Ok?)
    // the answer is the public view of the first row with the sanitised id
    ensures r.Ok? ==>
      var rec := store[Lookup(store, Sanitize(id, strip)).value];
      r.payload == Project(rec, Texts(rec.aiDetected, TierOf(rec.confidence))).(imageUrl := OrNull(rec.imageUrl))
  {
    var s := Sanitize(id, strip);
    if s == [] || Utf16Length(s) > 64 then Err(400, "Invalid analysis ID")
    else Read(store, s, queryOk, Texts, true)
  }

  /** A saved analysis reads back under its id as the public view of the
      row written, with its tier's explanation and the hosted URL: given
      that the fresh id was not in use and that sanitising leaves the hex
      id alone */
  lemma SavedAnalysisReadsBack(file: UploadedFile, maxSize: int, w: World, sv: Services, cr: Crypto)
    requires WellFormed(sv)
    ensures var r := Analyze(Some(file), maxSize, w, sv, cr);
      r.0.Ok? && Saved(r.0.payload, sv, cr)
      && Lookup(w.store, r.0.payload.analysisId).None?
      && cr.strip(r.0.payload.analysisId) == r.0.payload.analysisId
      ==> var rec := RecordOf(r.0.payload, file, cr.seal(cr.hash(r.0.payload.deleteCode)).value, sv.upload);
          GetAnalysis(r.1.store, r.0.payload.analysisId, true, cr.strip)
            == Ok(Project(rec, Texts(r.0.payload.isAI, TierOf(r.0.payload.confidence))).(imageUrl := OrNull(rec.imageUrl)))
  {
    var r := Analyze(Some(file), maxSize, w, sv, cr);
    if !(r.0.Ok? && Saved(r.0.payload, sv, cr)
      && Lookup(w.store, r.0.payload.analysisId).None?
      && cr.strip(r.0.payload.analysisId) == r.0.payload.analysisId) {
      return;
    }
    var res := r.0.payload;
    var rec := RecordOf(res, file, cr.seal(cr.hash(res.deleteCode)).value, sv.upload);
    assert r.1.store == w.store + [rec];
    assert res == Mock(file, sv, cr);
    ReadFreshRow(w.store, rec, cr.strip);
  }

  /** Reading the row appended last, under a hex id no earlier row has,
      gives that row's public view */
  lemma ReadFreshRow(store: seq<Record>, rec: Record, strip: string -> string)
    requires Lookup(store, rec.analysisId).None?
    requires |rec.analysisId| == 32 && AllDigits(rec.analysisId, 16) && strip(rec.analysisId) == rec.analysisId
    ensures GetAnalysis(store + [rec], rec.analysisId, true, strip)
      == Ok(Project(rec, Texts(rec.aiDetected, TierOf(rec.confidence))).(imageUrl := OrNull(rec.imageUrl)))
  {
    LookupAppended(store, rec);
    HexIsClean(rec.analysisId);
    assert Sanitize(rec.analysisId, strip) == rec.analysisId;
  }

  // ------------------------------------------------------------ deleting

  /** The stored proof of the delete code holds for `code`: a row without
      `Encrypted_Data` asks for none */
  predicate Authorises(rec: Record, code: string, cr: Crypto) {
    rec.encryptedData.None? || rec.encryptedData.value == []
    || cr.open(rec.encryptedData.value) == Some(cr.hash(code))
  }

  /** The outcomes of the three calls the route makes */
  datatype DeleteServices = DeleteServices(queryOk: bool, destroyOk: bool, removeOk: bool)

  /** `DELETE /api/analysis/:analysisId` */
  function Delete(id: string, deleteCode: Option<string>, w: World, ds: DeleteServices, cr: Crypto)
    : (r: (Response<()>, World))
    ensures deleteCode.None? || deleteCode.value == [] ==> r == (Err(400, "Delete code required"), w)
    ensures r.0.Ok? <==> (deleteCode.Some? && deleteCode.value != [] && ds.queryOk && ds.removeOk
      && Lookup(w.store, Sanitize(id, cr.strip)).Some?
      && Authorises(w.store[Lookup(w.store, Sanitize(id, cr.strip)).value], deleteCode.value, cr))
    ensures r.0.Ok? ==> r.1.store == RemoveAt(w.store, Lookup(w.store, Sanitize(id, cr.strip)).value)
    ensures r.0.Err? ==> r.1.store == w.store
    ensures r.0.Status() == 401 <==> (deleteCode.Some? && deleteCode.value != [] && ds.queryOk
      && Lookup(w.store, Sanitize(id, cr.strip)).Some?
      && !Authorises(w.store[Lookup(w.store, Sanitize(id, cr.strip)).value], deleteCode.value, cr))
    ensures r.0.Status() == 401 ==> r == (Err(401, "Invalid delete code"), w)
    ensures r.1.host <= w.host
    // once the code is authorised the record's image is destroyed, before and whatever the row removal does
    ensures var i := Lookup(w.store, Sanitize(id, cr.strip));
      deleteCode.Some? && deleteCode.value != [] && ds.queryOk && i.Some?
      && Authorises(w.store[i.value], deleteCode.value, cr)
      ==> r.1.host == DestroyIfSet(w.host, w.store[i.value].mediaId, ds.destroyOk)
    ensures var i := Lookup(w.store, Sanitize(id, cr.strip));
      !(deleteCode.Some? && deleteCode.value != [] && ds.queryOk && i.Some?
        && Authorises(w.store[i.value], deleteCode.value, cr))
      ==> r.1.host == w.host
  {
    if deleteCode.None? || deleteCode.value == [] then (Err(400, "Delete code required"), w)
    else
      var sid := Sanitize(id, cr.strip);
      if !ds.queryOk then (Err(500, "Failed to delete analysis"), w)
      else match Lookup(w.store, sid)
        case None => (Err(404, "Analysis not found"), w)
        case Some(i) =>
          var rec := w.store[i];
          if !Authorises(rec, deleteCode.value, cr) then (Err(401, "Invalid delete code"), w)
          else
            var host := DestroyIfSet(w.host, rec.mediaId, ds.destroyOk);
            if !ds.removeOk then (Err(500, "Failed to delete analysis"), World(w.store, host))
            else (Ok(()), World(RemoveAt(w.store, i), host))
  }

  /** The code handed out by a saved analysis deletes that analysis and its
      image: given that opening what `seal` wrote gives the sealed value
      back, that the fresh id was not in use and that sanitising leaves
      the hex id alone */
  lemma IssuedCodeDeletes(file: UploadedFile, maxSize: int, w: World, sv: Services, cr: Crypto)
    requires WellFormed(sv)
    ensures var r := Analyze(Some(file), maxSize, w, sv, cr);
      r.0.Ok? && Saved(r.0.payload, sv, cr)
      && Lookup(w.store, r.0.payload.analysisId).None?
      && cr.open(cr.seal(cr.hash(r.0.payload.deleteCode)).value) == Some(cr.hash(r.0.payload.deleteCode))
      && cr.strip(r.0.payload.analysisId) == r.0.payload.analysisId
      ==> var d := Delete(r.0.payload.analysisId, Some(r.0.payload.deleteCode), r.1,
                          DeleteServices(true, true, true), cr);
          d.0.Ok? && d.1.store == w.store
          && (sv.upload.Some? && sv.upload.value.publicId != [] ==> sv.upload.value.publicId !in d.1.host)
  {
    var r := Analyze(Some(file), maxSize, w, sv, cr);
    if !(r.0.Ok? && Saved(r.0.payload, sv, cr)
      && Lookup(w.store, r.0.payload.analysisId).None?
      && cr.open(cr.seal(cr.hash(r.0.payload.deleteCode)).value) == Some(cr.hash(r.0.payload.deleteCode))
      && cr.strip(r.0.payload.analysisId) == r.0.payload.analysisId) {
      return;
    }
    var res := r.0.payload;
    var sealed := cr.seal(cr.hash(res.deleteCode)).value;
    var rec := RecordOf(res, file, sealed, sv.upload);
    assert r.1.store == w.store + [rec];
    assert res == Mock(file, sv, cr);
    DeleteFreshRow(w.store, rec, r.1, res.deleteCode, cr);
  }

  /** Deleting the row appended last, under an id no earlier row has, with
      a code its sealed proof authorises, removes exactly that row */
  lemma DeleteFreshRow(store: seq<Record>, rec: Record, w: World, code: string, cr: Crypto)
    requires w.store == store + [rec] && Lookup(store, rec.analysisId).None?
    requires |rec.analysisId| == 32 && AllDigits(rec.analysisId, 16) && cr.strip(rec.analysisId) == rec.analysisId
    requires code != [] && Authorises(rec, code, cr)
    ensures var d := Delete(rec.analysisId, Some(code), w, DeleteServices(true, true, true), cr);
      d.0.Ok? && d.1.store == store
    ensures var d := Delete(rec.analysisId, Some(code), w, DeleteServices(true, true, true), cr);
      rec.mediaId.Some? && rec.mediaId.value != [] ==> d.1.host == w.host - {rec.mediaId.value}
  {
    LookupAppended(store, rec);
    HexIsClean(rec.analysisId);
    assert Sanitize(rec.analysisId, cr.strip) == rec.analysisId;
    assert RemoveAt(store + [rec], |store|) == store;
  }

  lemma HexIsClean(s: string)
    requires |s| == 32 && AllDigits(s, 16)
    ensures Security.Clean(s)
  {
    assert forall i :: 0 <= i < |s| ==> IsDigit(s[i], 16);
    assert !IsWhitespace(s[0]) && !IsWhitespace(s[|s| - 1]);
  }

  /** A row another server wrote, without `Encrypted_Data`, is deleted by
      any non-empty code at all */
  lemma UnsealedRowsDeleteWithAnyCode(id: string, code: string, w: World, cr: Crypto)
    requires code != []
    requires Lookup(w.store, Sanitize(id, cr.strip)).Some?
    requires w.store[Lookup(w.store, Sanitize(id, cr.strip)).value].encryptedData.None?
    ensures Delete(id, Some(code), w, DeleteServices(true, true, true), cr).0.Ok?
  {
  }
}

=== FILE: server_validation.dfy ===
/** `SecurityManager.validateFile` of the backend and the upload filter of
    the secure server built on it. */
module ServerValidation {
  import opened Wrappers
  import opened Signatures
  import opened Radix
  import opened Numbers

  /** The default limit, 10 MiB */
  const DefaultMaxSize: int := 10485760

  /** The backend's own copy of the MIME allow-list */
  const AllowedTypes: seq<string> := ["image/jpeg", "image/jpg", "image/png", "image/webp"]

  /** A multer file object; `size` and `buffer` are `undefined` when the
      caller leaves them out */
  datatype ServerFile = ServerFile(mimetype: string, size: Option<int>, buffer: Option<seq<bv8>>)

  datatype ServerError =
    | NoFile
    | InvalidType
    | TooLarge(limit: int)
    | SignatureMismatch
    | BufferMissing      // `buffer[index]` on an undefined buffer: a TypeError
  {
    function Message(): string {
      match this
      case NoFile => "No file provided"
      case InvalidType => "Invalid file type. Only JPEG, PNG, and WebP images are allowed."
      case TooLarge(limit) => "File too large. Maximum size is " + Decimal(RoundDiv(limit, 1048576)) + "MB."
      case SignatureMismatch => "File signature does not match declared type"
      case BufferMissing => "Cannot read properties of undefined (reading '0')"
    }

    function Stage(): nat {
      match this
      case NoFile => 0
      case InvalidType => 1
      case TooLarge(_) => 2
      case SignatureMismatch => 3
      case BufferMissing => 3
    }
  }

  /** `parseInt(process.env.MAX_FILE_SIZE) || 10485760`: an unset, unreadable
      or zero setting gives the default */
  function MaxSize(setting: Option<string>): (r: int)
    ensures r != 0
    ensures setting.None? ==> r == DefaultMaxSize
  {
    match setting
    case None => DefaultMaxSize
    case Some(s) =>
      match ParseInt(s)
      case Some(n) => if n != 0 then n else DefaultMaxSize
      case None => DefaultMaxSize
  }

  /** A non-zero limit written as a decimal numeral is taken as given */
  lemma MaxSizeReadsSetting(n: int)
    requires n != 0
    ensures MaxSize(Some(Decimal(n))) == n
  {
    ParseIntDecimal(n);
  }

  /** Whether the check that raises `e` fails for `file`, each check taken on
      its own */
  predicate Fails(file: Option<ServerFile>, maxSize: int, e: ServerError) {
    match e
    case NoFile => file.None?
    case InvalidType => file.Some? && file.value.mimetype !in AllowedTypes
    case TooLarge(limit) =>
      file.Some? && limit == maxSize && file.value.size.Some? && file.value.size.value > maxSize
    case SignatureMismatch =>
      && file.Some? && Signature(file.value.mimetype).Some? && file.value.buffer.Some?
      && !HasPrefix(file.value.buffer.value, Signature(file.value.mimetype).value)
    case BufferMissing =>
      file.Some? && Signature(file.value.mimetype).Some? && file.value.buffer.None?
  }

  /** `validateFile(file)` with limit `maxSize`: the first failing check
      decides the error; a type without a signature entry skips the
      signature check */
  function ValidateFile(file: Option<ServerFile>, maxSize: int): (r: Result<bool, ServerError>)
    ensures r.Failure? ==> Fails(file, maxSize, r.error)
    ensures r.Failure? ==> forall e: ServerError :: e.Stage() < r.error.Stage() ==> !Fails(file, maxSize, e)
    ensures r.Success? <==> forall e: ServerError :: !Fails(file, maxSize, e)
    ensures r.Success? ==> r.value
    ensures (file.Some? && file.value.mimetype == "image/jpg" &&
             (file.value.size.None? || file.value.size.value <= maxSize)) ==> r.Success?
  {
    if file.None? then assert Fails(file, maxSize, NoFile); Failure(NoFile)
    else
      var f := file.value;
      if f.mimetype !in AllowedTypes then assert Fails(file, maxSize, InvalidType); Failure(InvalidType)
      else if f.size.Some? && f.size.value > maxSize then
        assert Fails(file, maxSize, TooLarge(maxSize)); Failure(TooLarge(maxSize))
      else
        match Signature(f.mimetype)
        case None => Success(true)
        case Some(sig) =>
          if f.buffer.None? then assert Fails(file, maxSize, BufferMissing); Failure(BufferMissing)
          else
            EveryMatchesIff(sig, f.buffer.value);
            if !EveryMatches(sig, f.buffer.value) then
              assert Fails(file, maxSize, SignatureMismatch); Failure(SignatureMismatch)
            else Success(true)
  }

  // -------------------------------------------------- the upload filter

  /** The secure server's multer `fileFilter` as written: it passes
      `file.size` and `file.buffer` on, but multer calls the filter before
      the body is read, so both are `undefined` there */
  function FileFilter(mimetype: string, maxSize: int): (r: Result<bool, ServerError>)
    ensures r.Success? <==> mimetype == "image/jpg"
    ensures Signature(mimetype).Some? ==> r == Failure(BufferMissing)
    ensures mimetype !in AllowedTypes ==> r == Failure(InvalidType)
  {
    ValidateFile(Some(ServerFile(mimetype, None, None)), maxSize)
  }

  /** As written, the filter admits `image/jpg` alone: every type that has a
      signature entry fails with a TypeError */
  lemma FileFilterAdmitsOnlyJpg(mimetype: string, maxSize: int)
    ensures FileFilter(mimetype, maxSize).Success? <==> mimetype == "image/jpg"
    ensures Signature(mimetype).Some? ==> FileFilter(mimetype, maxSize) == Failure(BufferMissing)
  {
  }

  /** The filter as evidently intended: it checks only what it can see, the
      type; size and signature are left to the handler's own `validateFile` */
  function TypeFilter(mimetype: string): (r: Result<bool, ServerError>)
    ensures r.Success? <==> mimetype in AllowedTypes
    ensures r.Failure? ==> r.error == InvalidType
  {
    if mimetype in AllowedTypes then Success(true) else Failure(InvalidType)
  }

  /** The corrected filter never turns away a file that the full check
      accepts, and rejects exactly what the full check rejects for its type */
  lemma TypeFilterAdmitsValidFiles(f: ServerFile, maxSize: int)
    ensures ValidateFile(Some(f), maxSize).Success? ==> TypeFilter(f.mimetype).Success?
    ensures TypeFilter(f.mimetype).Failure? <==> ValidateFile(Some(f), maxSize) == Failure(InvalidType)
  {
  }
}

=== FILE: setup_security.dfy ===
/** The one-off setup script: secret generation, the frontend `.env`
    password line and the `.gitignore` guard. File contents are passed in
    and returned; the file system itself is not modelled. */
module SetupSecurity {
  import opened Wrappers
  import opened Text
  import opened Radix
  import opened Draws

  const PasswordChars: string := "ABCDEFGHIJKLMNOPQRSTUVWXYZabcdefghijklmnopqrstuvwxyz0123456789!@#$%^&*"
  const PasswordLength: nat := 24

  /** `generateStrongPassword()`; `draws[i]` is the `Math.random()` of round `i` */
  method GenerateStrongPassword(draws: seq<real>) returns (password: string)
    requires |draws| == PasswordLength && AllDraws(draws)
    ensures |password| == PasswordLength
    ensures forall i :: 0 <= i < |password| ==> password[i] in PasswordChars
    ensures forall i :: 0 <= i < |password| ==> password[i] == PasswordChars[Pick(draws[i], |PasswordChars|)]
  {
    password := "";
    var i := 0;
    while i < PasswordLength
      invariant 0 <= i <= PasswordLength && |password| == i
      invariant forall j :: 0 <= j < i ==> password[j] == PasswordChars[Pick(draws[j], |PasswordChars|)]
    {
      password := password + [PasswordChars[Pick(draws[i], |PasswordChars|)]];
      i := i + 1;
    }
  }

  datatype Secrets = Secrets(jwtSecret: string, encryptionKey: string, adminPassword: string)

  /** `generateSecrets()` over 64 and 32 random bytes and 24 draws */
  method GenerateSecrets(jwtBytes: seq<bv8>, keyBytes: seq<bv8>, draws: seq<real>) returns (s: Secrets)
    requires |jwtBytes| == 64 && |keyBytes| == 32
    requires |draws| == PasswordLength && AllDraws(draws)
    ensures |s.jwtSecret| == 128 && AllDigits(s.jwtSecret, 16)
    ensures |s.encryptionKey| == 64 && AllDigits(s.encryptionKey, 16)
    ensures FromHex(s.jwtSecret) == jwtBytes && FromHex(s.encryptionKey) == keyBytes
    ensures |s.adminPassword| == PasswordLength
  {
    var password := GenerateStrongPassword(draws);
    FromHexHex(jwtBytes);
    FromHexHex(keyBytes);
    s := Secrets(Hex(jwtBytes), Hex(keyBytes), password);
  }

  // ------------------------------------------------------ frontend .env

  const PasswordKey: string := "REACT_APP_ADMIN_PASSWORD="

  /** The index of the first line that sets the admin password */
  function FirstPasswordLine(lines: seq<string>): (r: Option<nat>)
    ensures r.Some? ==> r.value < |lines| && StartsWith(lines[r.value], PasswordKey)
    ensures r.Some? ==> forall j :: 0 <= j < r.value ==> !StartsWith(lines[j], PasswordKey)
    ensures r.None? ==> forall j :: 0 <= j < |lines| ==> !StartsWith(lines[j], PasswordKey)
  {
    if |lines| == 0 then None
    else if StartsWith(lines[0], PasswordKey) then Some(0)
    else match FirstPasswordLine(lines[1..])
      case Some(k) => Some(k + 1)
      case None => None
  }

  /** The line loop of `updateFrontendEnv`: the first password line is
      replaced, or the new line is appended when there is none */
  function UpdatePasswordLines(lines: seq<string>, password: string): (r: seq<string>)
    ensures FirstPasswordLine(lines).Some? ==>
      var k := FirstPasswordLine(lines).value;
      && |r| == |lines| && r[k] == PasswordKey + password
      && forall j :: 0 <= j < |lines| && j != k ==> r[j] == lines[j]
    ensures FirstPasswordLine(lines).None? ==> r == lines + [PasswordKey + password]
  {
    match FirstPasswordLine(lines)
    case Some(k) => lines[k := PasswordKey + password]
    case None => lines + [PasswordKey + password]
  }

  /** `updateFrontendEnv(adminPassword)`: the new file content, from the old
      one (`None` when the file does not exist) */
  function UpdateFrontendEnv(existing: Option<string>, password: string): (r: string)
    // read back line by line, the file holds exactly the updated lines
    ensures '\n' !in password ==> Split(r, '\n') == UpdatePasswordLines(Split(existing.GetOr(""), '\n'), password)
  {
    var lines := Split(existing.GetOr(""), '\n');
    if '\n' in password then Join(UpdatePasswordLines(lines, password), '\n')
    else UpdatedLinesReadBack(lines, password); Join(UpdatePasswordLines(lines, password), '\n')
  }

  /** Joining the updated lines and splitting them again gives them back,
      as long as no line of the input and not the password holds a newline */
  lemma UpdatedLinesReadBack(lines: seq<string>, password: string)
    requires '\n' !in password && |lines| >= 1 && forall j :: 0 <= j < |lines| ==> '\n' !in lines[j]
    ensures Split(Join(UpdatePasswordLines(lines, password), '\n'), '\n') == UpdatePasswordLines(lines, password)
  {
    var r := UpdatePasswordLines(lines, password);
    assert '\n' !in PasswordKey + password;
    assert forall j :: 0 <= j < |r| ==> '\n' !in r[j];
    SplitJoin(r, '\n');
  }

  /** Reading the written file back line by line gives exactly the updated
      lines, as long as the password holds no newline */
  lemma UpdateFrontendEnvLines(existing: Option<string>, password: string)
    requires '\n' !in password
    ensures Split(UpdateFrontendEnv(existing, password), '\n')
            == UpdatePasswordLines(Split(existing.GetOr(""), '\n'), password)
  {
  }

  /** Running the update twice leaves the file as after the first run */
  lemma UpdateFrontendEnvIdempotent(existing: Option<string>, password: string)
    requires '\n' !in password
    ensures UpdateFrontendEnv(Some(UpdateFrontendEnv(existing, password)), password)
            == UpdateFrontendEnv(existing, password)
  {
    var lines := Split(existing.GetOr(""), '\n');
    var r := UpdatePasswordLines(lines, password);
    UpdateFrontendEnvLines(existing, password);
    var idx := if FirstPasswordLine(lines).Some? then FirstPasswordLine(lines).value else |lines|;
    assert r[idx] == PasswordKey + password;
    assert StartsWith(r[idx], PasswordKey);
    assert forall j :: 0 <= j < idx ==> r[j] == lines[j];
    var k := FirstPasswordLine(r);
    assert k == Some(idx);
    assert r[idx := PasswordKey + password] == r;
  }

  // ------------------------------------------------------------ .gitignore

  const DefaultGitignore: string :=
    "# Environment variables\n" + ".env" +
    "\n.env.*\n\n# Logs\nlogs\n*.log\n\n# Dependencies\nnode_modules/\n\n# OS files\n.DS_Store\nThumbs.db"

  const EnvBlock: string := "\n# Environment variables\n.env\n.env.*\n"

  /** `checkGitSecurity()`: the final `.gitignore`, from the old one (`None`
      when it does not exist) */
  function CheckGitSecurity(existing: Option<string>): (r: string)
    ensures Contains(r, ".env")
    ensures existing.Some? && Contains(existing.value, ".env") ==> r == existing.value
    ensures existing.Some? && !Contains(existing.value, ".env") ==> r == existing.value + EnvBlock
  {
    var content := existing.GetOr(DefaultGitignore);
    assert OccursAt(DefaultGitignore, ".env", 24) by {
      assert DefaultGitignore[24..28] == ".env";
    }
    if Contains(content, ".env") then content
    else
      assert OccursAt(content + EnvBlock, ".env", |content| + 25) by {
        assert (content + EnvBlock)[|content| + 25..|content| + 29] == EnvBlock[25..29];
      }
      content + EnvBlock
  }

  /** A second run appends nothing */
  lemma CheckGitSecurityIdempotent(existing: Option<string>)
    ensures CheckGitSecurity(Some(CheckGitSecurity(existing))) == CheckGitSecurity(existing)
  {
  }
}

=== FILE: signatures.dfy ===
/** The magic-number table shared, in two copies, by the client and server
    upload checks. */
module Signatures {
  import opened Wrappers

  /** The leading bytes a file of the given MIME type must start with;
      `image/jpg` has no entry */
  function Signature(mime: string): (r: Option<seq<bv8>>)
    ensures r.Some? ==> 3 <= |r.value| <= 4
    ensures r.Some? <==> mime in ["image/jpeg", "image/png", "image/webp"]
  {
    if mime == "image/jpeg" then Some([0xFF, 0xD8, 0xFF])
    else if mime == "image/png" then Some([0x89, 0x50, 0x4E, 0x47])
    else if mime == "image/webp" then Some([0x52, 0x49, 0x46, 0x46])
    else None
  }

  /** `sig.every((byte, index) => buf[index] === byte)`: an index past the end
      of `buf` reads `undefined`, which equals no byte */
  predicate EveryMatches(sig: seq<bv8>, buf: seq<bv8>) {
    forall i :: 0 <= i < |sig| ==> ByteAt(buf, i) == Some(sig[i])
  }

  /** `buf[i]`, with `undefined` past the end */
  function ByteAt(buf: seq<bv8>, i: nat): Option<bv8> {
    if i < |buf| then Some(buf[i]) else None
  }

  /** `buf` begins with `sig` */
  predicate HasPrefix(buf: seq<bv8>, sig: seq<bv8>) {
    |sig| <= |buf| && buf[..|sig|] == sig
  }

  /** The element-wise test is exactly a prefix test */
  lemma EveryMatchesIff(sig: seq<bv8>, buf: seq<bv8>)
    ensures EveryMatches(sig, buf) <==> HasPrefix(buf, sig)
  {
    if HasPrefix(buf, sig) {
      forall i | 0 <= i < |sig| ensures ByteAt(buf, i) == Some(sig[i]) {
        assert buf[..|sig|][i] == buf[i];
      }
    }
    if EveryMatches(sig, buf) {
      assert |sig| <= |buf| by {
        if |sig| > 0 {
          var k := |sig| - 1;
          assert ByteAt(buf, k) == Some(sig[k]);
        }
      }
      forall i | 0 <= i < |sig| ensures buf[..|sig|][i] == sig[i] {
        assert ByteAt(buf, i) == Some(sig[i]);
      }
    }
  }

  /** The first `n` bytes of `buf` (`buffer.slice(0, n)`) */
  function Head(buf: seq<bv8>, n: nat): (r: seq<bv8>)
    ensures |r| <= n && |r| <= |buf| && r == buf[..|r|]
    ensures |buf| >= n ==> |r| == n
  {
    if |buf| <= n then buf else buf[..n]
  }

  /** Reading only the first twelve bytes does not change the verdict for
      any signature in the table */
  lemma HeadPreservesMatch(sig: seq<bv8>, buf: seq<bv8>, n: nat)
    requires |sig| <= n
    ensures EveryMatches(sig, Head(buf, n)) <==> EveryMatches(sig, buf)
  {
  }
}

=== FILE: store.dfy ===
/** The Airtable `Analyses` table and the Cloudinary media host, as the
    three server variants see them, plus what the servers share about
    reading a record back: first-match lookup, the public projection and
    the confidence tiers of the explanation. */
module Store {
  import opened Wrappers

  type MediaId = string

  /** One row of `Analyses`. The main server stores neither a delete code
      nor encrypted data, the secure one stores `Encrypted_Data`, the clean
      one a plain `Delete_Code`. */
  datatype Record = Record(
    analysisId: string, filename: string, confidence: int, verdict: string, aiDetected: bool,
    timestamp: string, fileFormat: string, imageWidth: int, imageHeight: int, fileSizeKB: int,
    mediaId: Option<MediaId>, imageUrl: Option<string>, researchConsent: bool,
    deleteCode: Option<string>, encryptedData: Option<string>)

  /** What multer hands a route: the file's metadata and its bytes */
  datatype UploadedFile = UploadedFile(originalname: string, mimetype: string, size: nat, buffer: seq<bv8>)

  /** A successful `cloudinary.uploader.upload`: `public_id` and `secure_url` */
  datatype Hosted = Hosted(publicId: MediaId, secureUrl: string)

  /** An error reaching the error-handling middleware: a `MulterError` with
      its code, or any other thrown error */
  datatype UploadError = Multer(code: string, message: string) | Thrown(message: string)

  /** The table, in creation order, and the media host */
  datatype World = World(store: seq<Record>, host: set<MediaId>)

  /** An HTTP answer: a success payload, or a status and error message */
  datatype Response<P> = Ok(payload: P) | Err(status: nat, message: string) {
    function Status(): nat {
      match this
      case Ok(_) => 200
      case Err(s, _) => s
    }
  }

  /** `select({filterByFormula: "{Analysis_ID} = '<id>'", maxRecords: 1})`:
      the position of the first record with that id */
  function Lookup(store: seq<Record>, id: string): (r: Option<nat>)
    ensures r.Some? ==> r.value < |store| && store[r.value].analysisId == id
    ensures r.Some? ==> forall j :: 0 <= j < r.value ==> store[j].analysisId != id
    ensures r.None? <==> forall j :: 0 <= j < |store| ==> store[j].analysisId != id
  {
    if |store| == 0 then None
    else if store[0].analysisId == id then Some(0)
    else match Lookup(store[1..], id)
      case Some(k) => Some(k + 1)
      case None => None
  }

  /** A record appended under an id the table does not hold yet is the one
      a lookup of that id finds */
  lemma {:induction false} LookupAppended(store: seq<Record>, rec: Record)
    requires Lookup(store, rec.analysisId).None?
    ensures Lookup(store + [rec], rec.analysisId) == Some(|store|)
  {
    var s := store + [rec];
    assert s[|store|] == rec;
    assert forall j :: 0 <= j < |store| ==> s[j] == store[j];
  }

  /** `base('Analyses').destroy(record.id)` */
  function RemoveAt(store: seq<Record>, i: nat): (r: seq<Record>)
    requires i < |store|
    ensures |r| == |store| - 1
    ensures forall j :: 0 <= j < i ==> r[j] == store[j]
    ensures forall j :: i <= j < |r| ==> r[j] == store[j + 1]
  {
    store[..i] + store[i + 1..]
  }

  /** `cloudinary.uploader.destroy(id)`: removed when the call succeeds, left
      in place when it fails (the failure is only logged) */
  function Destroy(host: set<MediaId>, id: MediaId, ok: bool): (r: set<MediaId>)
    ensures r <= host
    // no other media is touched, and the named one is gone exactly when the call succeeds
    ensures forall m :: m != id ==> (m in r <==> m in host)
    ensures id in r <==> id in host && !ok
  {
    if ok then host - {id} else host
  }

  /** `if (id) { try { await cloudinary.uploader.destroy(id) } catch {} }`:
      nothing happens for a missing or empty id */
  function DestroyIfSet(host: set<MediaId>, id: Option<MediaId>, ok: bool): (r: set<MediaId>)
    ensures r <= host
    ensures id.Some? && id.value != [] && ok ==> r == host - {id.value}
    ensures id.None? || id.value == [] || !ok ==> r == host
  {
    if id.Some? && id.value != [] then Destroy(host, id.value, ok) else host
  }

  // ------------------------------------------------- reading a record back

  datatype Tier = High | Medium | Low

  /** The confidence bands of the explanation: 90 and up, 70 and up, below */
  function TierOf(confidence: int): (t: Tier)
    ensures t == High <==> confidence >= 90
    ensures t == Medium <==> 70 <= confidence < 90
    ensures t == Low <==> confidence < 70
  {
    if confidence >= 90 then High else if confidence >= 70 then Medium else Low
  }

  /** What `GET /api/analysis/:id` returns; it has no field for a delete
      code or for encrypted data */
  datatype PublicView = PublicView(
    analysisId: string, filename: string, confidence: int, verdict: string, isAI: bool,
    timestamp: string, fileFormat: string, imageWidth: int, imageHeight: int, fileSizeKB: int,
    explanation: string, imageUrl: Option<string>)

  /** The stored fields copied unchanged, next to the given explanation */
  function Project(rec: Record, explanation: string): (v: PublicView)
    ensures v.analysisId == rec.analysisId && v.filename == rec.filename
    ensures v.confidence == rec.confidence && v.verdict == rec.verdict && v.isAI == rec.aiDetected
    ensures v.timestamp == rec.timestamp && v.fileFormat == rec.fileFormat
    ensures v.imageWidth == rec.imageWidth && v.imageHeight == rec.imageHeight
    ensures v.fileSizeKB == rec.fileSizeKB && v.imageUrl == rec.imageUrl
    ensures v.explanation == explanation
  {
    PublicView(rec.analysisId, rec.filename, rec.confidence, rec.verdict, rec.aiDetected,
               rec.timestamp, rec.fileFormat, rec.imageWidth, rec.imageHeight, rec.fileSizeKB,
               explanation, rec.imageUrl)
  }

  /** Every stored field but the secrets can be read back from the view */
  lemma ProjectKeepsPublicFields(a: Record, b: Record, e: string)
    requires Project(a, e) == Project(b, e)
    ensures a == b.(mediaId := a.mediaId, researchConsent := a.researchConsent,
                    deleteCode := a.deleteCode, encryptedData := a.encryptedData)
  {
  }

  /** The explanation texts of one server: `texts(isAI, tier)` */
  function Explain(texts: (bool, Tier) -> string, rec: Record): string {
    texts(rec.aiDetected, TierOf(rec.confidence))
  }

  /** `fields.Image_URL || null`: an empty URL reads back as null */
  function OrNull(url: Option<string>): (r: Option<string>)
    ensures r.Some? <==> url.Some? && url.value != []
    ensures r.Some? ==> r == url
  {
    if url.Some? && url.value != [] then url else None
  }

  /** The read path shared by the three servers once the id is accepted:
      `queryOk` is whether the Airtable query succeeds, `nullEmptyUrl`
      whether the server writes `Image_URL || null` */
  function Read(store: seq<Record>, id: string, queryOk: bool, texts: (bool, Tier) -> string,
                nullEmptyUrl: bool): (r: Response<PublicView>)
    ensures !queryOk ==> r == Err(500, "Failed to fetch analysis")
    ensures queryOk && Lookup(store, id).None? ==> r == Err(404, "Analysis not found")
    ensures queryOk && Lookup(store, id).Some? ==>
      var rec := store[Lookup(store, id).value];
      var v := Project(rec, texts(rec.aiDetected, TierOf(rec.confidence)));
      r == Ok(if nullEmptyUrl then v.(imageUrl := OrNull(rec.imageUrl)) else v)
  {
    if !queryOk then Err(500, "Failed to fetch analysis")
    else match Lookup(store, id)
      case None => Err(404, "Analysis not found")
      case Some(i) =>
        var v := Project(store[i], Explain(texts, store[i]));
        Ok(if nullEmptyUrl then v.(imageUrl := OrNull(store[i].imageUrl)) else v)
  }

  /** A successful read returns the stored record of the requested id,
      field for field, and the explanation its verdict and tier select */
  lemma ReadReturnsStored(store: seq<Record>, id: string, texts: (bool, Tier) -> string, nullEmptyUrl: bool)
    requires Read(store, id, true, texts, nullEmptyUrl).Ok?
    ensures exists i :: (0 <= i < |store| && store[i].analysisId == id &&
      var v := Read(store, id, true, texts, nullEmptyUrl).payload;
      v.(imageUrl := store[i].imageUrl) == Project(store[i], texts(store[i].aiDetected, TierOf(store[i].confidence))))
  {
    var i := Lookup(store, id).value;
    assert store[i].analysisId == id;
  }
}

=== FILE: text.dfy ===
/** The handful of JavaScript string operations the application relies on,
    stated over `seq<char>`. Case mapping covers the ASCII letters only, and
    whitespace is the ECMAScript WhiteSpace plus LineTerminator set used by
    `String.prototype.trim`. */
module Text {

  /** `s.startsWith(p)` */
  predicate StartsWith(s: string, p: string) {
    |p| <= |s| && s[..|p|] == p
  }

  /** `sub` occurs in `s` starting at position `i` */
  predicate OccursAt(s: string, sub: string, i: int) {
    0 <= i && i + |sub| <= |s| && s[i..i + |sub|] == sub
  }

  /** `s.includes(sub)` */
  predicate Contains(s: string, sub: string) {
    exists i | 0 <= i <= |s| - |sub| :: OccursAt(s, sub, i)
  }

  lemma ContainsWitness(s: string, sub: string, i: int)
    requires OccursAt(s, sub, i)
    ensures Contains(s, sub)
  {
  }

  lemma PrefixContained(s: string, p: string)
    requires StartsWith(s, p)
    ensures Contains(s, p)
  {
    assert OccursAt(s, p, 0);
  }

  // ---------------------------------------------------------------- case

  function LowerChar(c: char): char {
    if 'A' <= c <= 'Z' then (c as int + 32) as char else c
  }

  function UpperChar(c: char): char {
    if 'a' <= c <= 'z' then (c as int - 32) as char else c
  }

  /** `s.toLowerCase()` on ASCII letters */
  function ToLower(s: string): (r: string)
    ensures |r| == |s|
    ensures forall i :: 0 <= i < |s| ==> r[i] == LowerChar(s[i])
  {
    seq(|s|, i requires 0 <= i < |s| => LowerChar(s[i]))
  }

  /** `s.toUpperCase()` on ASCII letters */
  function ToUpper(s: string): (r: string)
    ensures |r| == |s|
    ensures forall i :: 0 <= i < |s| ==> r[i] == UpperChar(s[i])
  {
    seq(|s|, i requires 0 <= i < |s| => UpperChar(s[i]))
  }

  // ---------------------------------------------------------- whitespace

  predicate IsWhitespace(c: char) {
    || c == '\t' || c == '\n' || c == '\U{000B}' || c == '\U{000C}' || c == '\r' || c == ' '
    || c == '\U{00A0}' || c == '\U{1680}' || ('\U{2000}' <= c <= '\U{200A}')
    || c == '\U{2028}' || c == '\U{2029}' || c == '\U{202F}' || c == '\U{205F}'
    || c == '\U{3000}' || c == '\U{FEFF}'
  }

  predicate AllWhitespace(s: string) {
    forall i :: 0 <= i < |s| ==> IsWhitespace(s[i])
  }

  /** Drops leading whitespace */
  function TrimStart(s: string): (r: string)
    ensures |r| <= |s| && r == s[|s| - |r|..]
    ensures AllWhitespace(s[..|s| - |r|])
    ensures |r| > 0 ==> !IsWhitespace(r[0])
  {
    if |s| > 0 && IsWhitespace(s[0]) then TrimStart(s[1..]) else s
  }

  /** Drops trailing whitespace */
  function TrimEnd(s: string): (r: string)
    ensures |r| <= |s| && r == s[..|r|]
    ensures AllWhitespace(s[|r|..])
    ensures |r| > 0 ==> !IsWhitespace(r[|r| - 1])
  {
    if |s| > 0 && IsWhitespace(s[|s| - 1]) then TrimEnd(s[..|s| - 1]) else s
  }

  /** `s.trim()` */
  function Trim(s: string): (r: string)
    ensures |r| <= |s|
    ensures |r| > 0 ==> !IsWhitespace(r[0]) && !IsWhitespace(r[|r| - 1])
  {
    TrimEnd(TrimStart(s))
  }

  /** The trimmed string is empty exactly when the input is all whitespace. */
  lemma TrimEmptyIff(s: string)
    ensures Trim(s) == [] <==> AllWhitespace(s)
  {
    var t := TrimStart(s);
    if AllWhitespace(s) {
      AllWhitespaceTrimsAway(s);
    }
    if Trim(s) == [] {
      assert AllWhitespace(t[0..]);
      assert t == [];
      assert s[..|s|] == s;
    }
  }

  lemma {:induction false} AllWhitespaceTrimsAway(s: string)
    requires AllWhitespace(s)
    ensures TrimStart(s) == []
  {
    if |s| > 0 {
      assert IsWhitespace(s[0]);
      AllWhitespaceTrimsAway(s[1..]);
    }
  }

  /** `s.substring(0, n)` */
  function Take(s: string, n: nat): (r: string)
    ensures |r| == if |s| < n then |s| else n
    ensures r == s[..|r|]
  {
    if |s| <= n then s else s[..n]
  }

  /** `s.substring(start, end)`: both bounds are clamped to `[0, |s|]` and
      swapped when `start > end` */
  function Substring(s: string, start: int, end: int): (r: string)
    ensures |r| <= |s|
  {
    var a := Clamp(start, |s|);
    var b := Clamp(end, |s|);
    if a <= b then s[a..b] else s[b..a]
  }

  /** `s.substr(start, length)` for a non-negative start */
  function Substr(s: string, start: nat, length: int): (r: string)
    ensures |r| <= |s|
    ensures length >= 0 && start + length <= |s| ==> r == s[start..start + length]
  {
    var a := Clamp(start, |s|);
    var b := Clamp(start + length, |s|);
    if a <= b then s[a..b] else []
  }

  function Clamp(x: int, n: nat): (r: nat)
    ensures r <= n
    ensures 0 <= x <= n ==> r == x
  {
    if x < 0 then 0 else if x > n then n else x
  }

  /** Removes every occurrence of the characters in `cs` */
  function RemoveChars(s: string, cs: set<char>): (r: string)
    ensures |r| <= |s|
    ensures forall i :: 0 <= i < |r| ==> r[i] !in cs
    ensures forall i :: 0 <= i < |r| ==> r[i] in s
  {
    if |s| == 0 then []
    else if s[0] in cs then RemoveChars(s[1..], cs)
    else [s[0]] + RemoveChars(s[1..], cs)
  }

  /** `s.length`: JavaScript counts UTF-16 code units, so a character
      outside the Basic Multilingual Plane counts twice */
  function Utf16Length(s: string): (n: nat)
    ensures |s| <= n <= 2 * |s|
  {
    if |s| == 0 then 0 else (if s[0] as int > 0xFFFF then 2 else 1) + Utf16Length(s[1..])
  }

  // ------------------------------------------------------- split and join

  /** `s.split(sep)` for a one-character separator */
  function Split(s: string, sep: char): (parts: seq<string>)
    ensures |parts| >= 1
    ensures forall k :: 0 <= k < |parts| ==> sep !in parts[k]
  {
    if |s| == 0 then [[]]
    else
      var rest := Split(s[1..], sep);
      if s[0] == sep then [[]] + rest
      else [[s[0]] + rest[0]] + rest[1..]
  }

  /** `parts.join(sep)`; the empty array joins to the empty string */
  function Join(parts: seq<string>, sep: char): string {
    if |parts| == 0 then []
    else if |parts| == 1 then parts[0]
    else parts[0] + [sep] + Join(parts[1..], sep)
  }

  /** `parts.join(sep)` for a separator of any length */
  function JoinWith(parts: seq<string>, sep: string): string {
    if |parts| == 0 then []
    else if |parts| == 1 then parts[0]
    else parts[0] + sep + JoinWith(parts[1..], sep)
  }

  lemma {:induction false} JoinSplit(s: string, sep: char)
    ensures Join(Split(s, sep), sep) == s
  {
    if |s| > 0 {
      var rest := Split(s[1..], sep);
      JoinSplit(s[1..], sep);
      if s[0] == sep {
        assert Split(s, sep) == [[]] + rest;
        assert Split(s, sep)[1..] == rest;
      } else {
        var parts := Split(s, sep);
        assert parts == [[s[0]] + rest[0]] + rest[1..];
        if |rest| == 1 {
          assert Join(parts, sep) == [s[0]] + rest[0];
        } else {
          assert parts[1..] == rest[1..];
          assert Join(rest, sep) == rest[0] + [sep] + Join(rest[1..], sep);
        }
      }
    }
  }

  lemma {:induction false} SplitJoin(parts: seq<string>, sep: char)
    requires |parts| >= 1
    requires forall k :: 0 <= k < |parts| ==> sep !in parts[k]
    ensures Split(Join(parts, sep), sep) == parts
    decreases |parts|, |parts[0]|
  {
    var p := parts[0];
    if |p| > 0 {
      var parts' := [p[1..]] + parts[1..];
      SplitJoin(parts', sep);
      assert Join(parts, sep) == [p[0]] + Join(parts', sep) by {
        if |parts| > 1 {
          assert parts'[1..] == parts[1..];
        }
      }
      assert (Join(parts, sep))[1..] == Join(parts', sep);
      assert [p[0]] + parts'[0] == p;
      assert [[p[0]] + parts'[0]] + parts'[1..] == parts;
    } else if |parts| > 1 {
      SplitJoin(parts[1..], sep);
      assert Join(parts, sep) == [sep] + Join(parts[1..], sep);
      assert (Join(parts, sep))[1..] == Join(parts[1..], sep);
      assert [[]] + parts[1..] == parts;
    }
  }
}

=== FILE: upload_zone.dfy ===
/** `FileUploadZone.js`: files above 4 MiB are re-encoded as JPEG before
    they are handed on, and the consent checkbox shows its default. The
    canvas work is external: the re-encoded size and bytes are parameters. */
module UploadZone {
  import opened Wrappers
  import opened Text
  import opened ClientValidation
  import Constants
  import ClientUtils

  /** `fileSizeMB > maxSizeMB` with `maxSizeMB = 4` is `size > 4 MiB` */
  const CompressThreshold: nat := 4 * 1024 * 1024

  const MaxDimension: real := 1920.0

  /** The drawing size: the longer side is scaled down to 1920 pixels when
      it exceeds that, keeping the aspect ratio */
  function Resize(width: real, height: real): (r: (real, real))
    ensures width <= MaxDimension && height <= MaxDimension ==> r == (width, height)
    ensures !(width <= MaxDimension && height <= MaxDimension) ==>
      && r.0 <= MaxDimension && r.1 <= MaxDimension
      && (r.0 == MaxDimension || r.1 == MaxDimension)
      && r.0 * height == r.1 * width
  {
    if width > height && width > MaxDimension then (MaxDimension, height * MaxDimension / width)
    else if height > MaxDimension then (width * MaxDimension / height, MaxDimension)
    else (width, height)
  }

  /** How `compressImage` ends: it resolves with a JPEG `Blob`, its
      executor throws and the promise rejects, or the image never loads and
      the promise never settles */
  datatype Compression = Compressed(size: nat, bytes: seq<bv8>) | Rejected | NeverSettles

  /** What `handleFileInput` hands to `onFileSelect`, as written: the Blob
      carries no name. `None` means `onFileSelect` is never called. */
  function SelectAsWritten(file: ClientFile, c: Compression): (r: Option<ClientFile>)
    ensures file.size <= CompressThreshold ==> r == Some(file)
    ensures file.size > CompressThreshold && c.Compressed? ==>
      r == Some(ClientFile(None, "image/jpeg", c.size, c.bytes))
    ensures c.Rejected? ==> r == Some(file)
    ensures r.None? <==> file.size > CompressThreshold && c.NeverSettles?
    // the re-encoded Blob has lost the name, so the client's own checks refuse it
    ensures file.size > CompressThreshold && c.Compressed? ==> r.value.name.None? && SyncCheck(r).Some?
  {
    if file.size <= CompressThreshold then Some(file)
    else match c
      case Compressed(size, bytes) => Some(ClientFile(None, "image/jpeg", size, bytes))
      case Rejected => Some(file)
      case NeverSettles => None
  }

  /** A re-encoded upload never passes the client's synchronous checks: the
      nameless Blob fails on its name, or earlier on its size */
  lemma CompressedUploadAlwaysRejected(file: ClientFile, size: nat, bytes: seq<bv8>)
    requires file.size > CompressThreshold
    ensures var f := SelectAsWritten(file, Compressed(size, bytes));
      f.Some? && SyncCheck(f) in {Some(TooLarge), Some(NameMissing)}
  {
  }

  /** The evidently intended hand-over: the re-encoded JPEG keeps the name
      of the file it came from */
  function Select(file: ClientFile, c: Compression): (r: Option<ClientFile>)
    ensures file.size <= CompressThreshold ==> r == Some(file)
    ensures r.Some? ==> r.value.name == file.name
    ensures file.size > CompressThreshold ==> (r.None? <==> c.NeverSettles?)
    ensures c.Rejected? ==> r == Some(file)
    ensures file.size > CompressThreshold && c.Compressed? ==>
      r.value.mimeType == "image/jpeg" && r.value.size == c.size && r.value.bytes == c.bytes
  {
    if file.size <= CompressThreshold then Some(file)
    else match c
      case Compressed(size, bytes) => Some(ClientFile(file.name, "image/jpeg", size, bytes))
      case Rejected => Some(file)
      case NeverSettles => None
  }

  /** With the name kept, a re-encoded upload passes the synchronous checks
      exactly when the original had a name of at most 255 UTF-16 units and
      the JPEG fits the 10 MiB limit */
  lemma CompressedUploadAccepted(file: ClientFile, size: nat, bytes: seq<bv8>)
    requires file.size > CompressThreshold
    ensures SyncCheck(Select(file, Compressed(size, bytes))) == None <==>
      file.name.Some? && Utf16Length(file.name.value) <= 255 && size <= Constants.MaxFileSize
  {
    var f := Select(file, Compressed(size, bytes));
    assert "image/jpeg" == Constants.AcceptedFileTypes[0];
    if file.name.Some? && Utf16Length(file.name.value) <= 255 && size <= Constants.MaxFileSize {
      forall e: ClientError ensures !Fails(f, e) {
      }
    }
  }

  /** Both hand-overs agree on files that need no re-encoding */
  lemma SmallFilesUnaffected(file: ClientFile, c: Compression)
    requires file.size <= CompressThreshold
    ensures Select(file, c) == SelectAsWritten(file, c) == Some(file)
  {
  }

  // ------------------------------------------------------------- consent

  /** The checkbox: the stored choice, ticked when none is stored */
  function Checked(consent: map<string, bool>): (r: bool)
    // once the user has touched the box it shows the consent the analysis sends
    ensures Constants.ResearchTraining in consent ==> r == ClientUtils.ResearchConsent(consent)
    // before that it shows ticked, while no consent is sent
    ensures Constants.ResearchTraining !in consent ==> r && !ClientUtils.ResearchConsent(consent)
  {
    if Constants.ResearchTraining in consent then consent[Constants.ResearchTraining] else true
  }
}

=== FILE: validation_agreement.dfy ===
/** How the browser's check and the backend's check relate on the same file. */
module ValidationAgreement {
  import opened Wrappers
  import opened Text
  import opened Signatures
  import C = ClientValidation
  import S = ServerValidation

  /** The file as the backend receives it after a full upload */
  function Uploaded(f: C.ClientFile): S.ServerFile {
    S.ServerFile(f.mimeType, Some(f.size), Some(f.bytes))
  }

  /** For a named file the client promise resolves exactly when the backend
      accepts the file and its type has a signature entry */
  lemma ClientResolvesIffServerAccepts(f: C.ClientFile)
    requires f.name.Some? && Utf16Length(f.name.value) <= 255
    ensures C.ValidateImageFile(Some(f), true).Resolved? <==>
      S.ValidateFile(Some(Uploaded(f)), S.DefaultMaxSize).Success? && Signature(f.mimeType).Some?
  {
    var c := C.ValidateImageFile(Some(f), true);
    var s := S.ValidateFile(Some(Uploaded(f)), S.DefaultMaxSize);
    EveryMatchesIff(if Signature(f.mimeType).Some? then Signature(f.mimeType).value else [], f.bytes);
    if c.Resolved? {
      assert !C.Fails(Some(f), C.InvalidType) && !C.Fails(Some(f), C.TooLarge);
      assert s.Success?;
    }
    if s.Success? && Signature(f.mimeType).Some? {
      assert !S.Fails(Some(Uploaded(f)), S.DefaultMaxSize, S.SignatureMismatch);
      assert !S.Fails(Some(Uploaded(f)), S.DefaultMaxSize, S.InvalidType);
      assert !S.Fails(Some(Uploaded(f)), S.DefaultMaxSize, S.TooLarge(S.DefaultMaxSize));
      assert forall e: C.ClientError :: !C.Fails(Some(f), e);
    }
  }

  /** `image/jpg` is where the two disagree: the client always rejects it
      and the backend accepts it whatever its bytes */
  lemma JpgSplitsTheChecks(name: string, size: nat, bytes: seq<bv8>)
    requires Utf16Length(name) <= 255 && size <= S.DefaultMaxSize
    ensures C.ValidateImageFile(Some(C.ClientFile(Some(name), "image/jpg", size, bytes)), true)
            == C.Rejected(C.SignatureMismatch)
    ensures S.ValidateFile(Some(S.ServerFile("image/jpg", Some(size), Some(bytes))), S.DefaultMaxSize)
            == Success(true)
  {
    var f := C.ClientFile(Some(name), "image/jpg", size, bytes);
    assert forall e: C.ClientError :: !C.Fails(Some(f), e);
  }
}

=== FILE: wrappers.dfy ===
/** Failure-carrying datatypes shared by every module of the model. A thrown
    JavaScript error becomes a `Failure`, an absent or `undefined` value a `None`. */
module Wrappers {

  datatype Option<+T> = None | Some(value: T) {

    /** Returns the value encapsulated in Some or a default value if None */
    function GetOr(default: T): T {
      match this
      case Some(v) => v
      case None => default
    }
  }

  datatype Result<+R, +E> = Success(value: R) | Failure(error: E) {

    predicate IsFailure() {
      Failure?
    }

    function PropagateFailure<U>(): Result<U, E>
      requires Failure?
    {
      Failure(error)
    }

    function Extract(): R
      requires Success?
    {
      value
    }
  }
}
